=== FILE: README.md ===
# ScrollSleuth cropper and relief-mask editor, modelled in Dafny

This project models two parts of ScrollSleuth.

**The segment cropper** is `src/cropper/cropper.py`. It turns a directory of
`.tif` slices into a cropped and downsampled volume. The model covers:

- the validator of the six crop fields;
- the output-size arithmetic and its byte count;
- the output directory name `L<left>_T<top>_R<right>_B<bottom>_D<xy>_<z>`;
- the zero-padded slice file names;
- the listing and ordering of input slices;
- the Create/Cancel button;
- the slice-by-slice job that `process_next_slice` runs.

The job has two modes:

- **Streaming** (`z == 1`) writes every processed slice under its input index.
- **Buffered** (`z > 1`) fills an accumulator and writes the depth-downscaled
  volume on the last step.

A cancel request or a failure ends the job and returns the application to
idle.

**The relief-mask editor** lives in `src/viewer`. A `MaskRidge` is an
insertion-ordered map from x location to height with fixed end points. A
`MaskFrame` holds two ordered maps from y location to ridge, one for the top
side and one for the bottom side. It yields interpolated profiles between
ridges. The model also covers the two editors that change these structures:

- the drag and right-click handlers of `MprMaskInteractor`;
- the load filter, position clamping and Add / Rmv / Restore ridge commands
  of `ControlPanel`.

Modules, one per file:

| module | file | what it holds |
|---|---|---|
| `Options` | options.dfy | `Option`, standing for `None`, `undefined` and `null` |
| `Decimal` | decimal.dfy | `str(int)` and reading its text back, `zfill`, slice file names |
| `SliceNames` | slice_names.dfy | code-point string order, `sorted`, reverse sort, the `.tif` listing |
| `CropParams` | crop_params.dfy | the six fields, the validators, output size, the crop id, `os.path.join` and its base name |
| `Resample` | resample.dfy | numpy slicing, the crop, the lateral and depth downscaling (shape only) |
| `TiffTags` | tiff_tags.dfy | the private TIFF tags the cropper writes and the viewer reads |
| `CropJob` | crop_job.dfy | the application state, the Create button, one job step, whole runs |
| `SeqMap` | seq_map.dfy | a JavaScript `Map` with integer keys, as a sequence of entries |
| `MaskRidge` | mask_ridge.dfy | `MaskRidge` |
| `MaskFrame` | mask_frame.dfy | `MaskFrame` |
| `MprMaskInteractor` | mpr_mask_interactor.dfy | `_onStart`, `_onMove`, `_onEnd`, `_onClick` |
| `ControlPanel` | control_panel.dfy | `onInputFilesChosen` checks, position clamping, the ridge commands |

Inputs that are not visible become parameters:

- Reading a slice is a function `read` from path to pixels.
- Writing is an entry appended to a log of `Written` records.
- An exception in a step is `fault: Option<nat>`. With `Some(m)`, the step
  raises after its first `m` writes.
- `_hitTest`'s verdict is a `HitResult` value.
- The cursor's texture coordinates are `real` inputs.
- Each Tk or HTML input field is an `Option<int>`. `None` stands for text
  that `int()` or `parseInt` cannot read.

Behaviour worth knowing, as the code has it:

- `crop_params_are_valid` does not bound `top` below or `bottom` above,
  although it bounds `left` and `right`. The validator is modelled as
  written (`CropParams.ParamsValidAsWritten`) and as corrected
  (`CropParams.ParamsValid`); see Findings.
- Create while a job runs does not start a second job. It sets the cancel
  flag (`CropJob.CreateClickAsWritten`, `CropJob.CreateClick`). The input
  fields are disabled while a job runs (cropper.py:138), so the fields of
  that click are the ones the job started with; the cancel and failure
  lemmas therefore ask only that they pass the validator as written.
- A reverse run sorts the shared listing in place, so its order carries
  over to later runs; see Findings.
- A failing step keeps the files already written, including those it
  wrote itself before it raised (`CropJob.Fail`).
- Restore clears the remembered ridge only when it re-inserts that ridge,
  which happens when the y position still matches. Otherwise the ridge is
  kept and only the button returns to Rmv (`ControlPanel.RestoreStep`).
- `onInputFilesChosen` picks the loader from the filtered image files. It
  then hands the unfiltered selection to `loadVolume` (`LoadOutcome.Load`
  keeps `files`).

## Model

| member | source | states |
|---|---|---|
| CropParams.Parse | src/cropper/cropper.py:235-243 | all six fields read as integers or none is accepted; the values are the fields' |
| CropParams.ParamsValidAsWritten | src/cropper/cropper.py:233-247 | valid iff every field parses and xy>0, z>0, left>=0, right>=left, bottom>=top, top<height, right<width; nothing bounds top below or bottom above |
| CropParams.ParamsValid | src/cropper/cropper.py:245-246 | corrected validator: the one above plus top>=0 and bottom<height, so the crop lies inside the slice |
| CropParams.CeilDiv | src/cropper/cropper.py:271-273 | `math.ceil(a / b)` is the least q with a <= b*q |
| CropParams.CeilDivOne | src/cropper/cropper.py:273 | a factor of one keeps the count |
| CropParams.CeilDivPositive | src/cropper/cropper.py:273 | a positive count downscales to between 1 and itself |
| CropParams.CeilDivNonnegative | src/cropper/cropper.py:273 | a non-negative count never downscales to a negative one |
| CropParams.OutputSizeOf | src/cropper/cropper.py:271-273 | each output extent is the least whole number of blocks covering the crop, and the depth likewise |
| CropParams.OutputBytes | src/cropper/cropper.py:274 | two bytes a voxel: the byte count of a non-negative size is non-negative and even; its bounds against the crop are stated by `CropParams.OutputBytesBounds` |
| CropParams.OutputBytesBounds | src/cropper/cropper.py:271-274 | for accepted fields and a non-empty stack the announced bytes lie between 2 and two bytes per voxel of the cropped stack, with equality when neither factor downsamples |
| CropParams.OutputSizeBounds | src/cropper/cropper.py:271-273 | for accepted fields every extent is between 1 and the cropped extent, and equals it when the factor is one |
| CropParams.JoinUnderscore | src/cropper/cropper.py:126-127 | the joined id starts with its first piece |
| CropParams.JoinAvoids | src/cropper/cropper.py:126-127 | joining with `_` adds no character other than `_` |
| CropParams.IntToStringAvoids | src/cropper/cropper.py:126-127 | `str(int)` holds only digits and the minus sign |
| CropParams.CropIdPiecesAvoid | src/cropper/cropper.py:126-127 | no piece of the id holds `_` or `/` |
| CropParams.CropId | src/cropper/cropper.py:126-127 | the id starts with `L` and holds no `/`, so it is one path component |
| CropParams.SplitUnderscore | src/cropper/cropper.py:126-127 | splitting on `_` gives at least one part |
| CropParams.SplitJoin | src/cropper/cropper.py:126-127 | splitting a joined head gives the head then the split of the rest |
| CropParams.SplitNone | src/cropper/cropper.py:126-127 | a piece without `_` splits to itself |
| CropParams.SplitOfJoin | src/cropper/cropper.py:126-127 | splitting undoes joining pieces free of `_` |
| CropParams.ParseCropId | src/cropper/cropper.py:126-127 | a successful parse saw exactly six parts |
| CropParams.TaggedIntOf | src/cropper/cropper.py:126-127 | a tagged number reads back as that number |
| CropParams.ParseCropIdOfCropId | src/cropper/cropper.py:126-127 | the crop id parses back to the six parameters |
| CropParams.CropIdInjective | src/cropper/cropper.py:126-127 | different parameters give different crop ids |
| CropParams.PathJoin | src/cropper/cropper.py:128 | `os.path.join` ends with the name, and an absolute name replaces the directory |
| CropParams.PathJoinInjective | src/cropper/cropper.py:176 | in one directory, different relative names give different paths |
| CropParams.BaseName | src/cropper/cropper.py:128 | the last path component holds no `/` |
| CropParams.BaseNameAfterSlash | src/cropper/cropper.py:128 | after a directory ending in `/`, the base name is the appended name |
| CropParams.BaseNameNoSlash | src/cropper/cropper.py:128 | a name without `/` is its own base name |
| CropParams.OutputDir | src/cropper/cropper.py:128 | the job directory's last component is the crop id |
| CropParams.OutputDirDeterminesParams | src/cropper/cropper.py:126-128 | two jobs with the same output directory have the same six parameters |
| Decimal.DigitChar | src/cropper/cropper.py:126-127 | a digit value maps to the digit character with that value |
| Decimal.DigitValue | src/cropper/cropper.py:126-127 | reading a digit character inverts `DigitChar` |
| Decimal.NatToString | src/cropper/cropper.py:126-127 | `str(n)` is all digits, one digit iff n < 10, with no leading zero |
| Decimal.ValueOfNatToString | src/cropper/cropper.py:126-127 | reading back `str(n)` gives n |
| Decimal.IntToString | src/cropper/cropper.py:126-127 | `str(i)` starts with `-` iff i < 0 and is otherwise digits |
| Decimal.ReadInt | src/cropper/cropper.py:126-127 | reads back the numbers of a crop id: accepts exactly the texts `str(int)` can produce (optional minus, then digits), with the sign following the text |
| Decimal.ReadIntOfString | src/cropper/cropper.py:126-127 | reading back the text of `str(i)` gives i |
| Decimal.IntToStringInjective | src/cropper/cropper.py:126-127 | different integers print differently |
| Decimal.Zeros | src/cropper/cropper.py:176 | k zero characters |
| Decimal.ValueZerosPrefix | src/cropper/cropper.py:176 | leading zeros do not change a digit string's value |
| Decimal.ValueOfZeros | src/cropper/cropper.py:176 | a string of zeros reads as 0 |
| Decimal.ZFill | src/cropper/cropper.py:176 | `zfill(width)` pads to at least width, keeps longer strings and the sign, and keeps a digit string's value |
| Decimal.SliceFileName | src/cropper/cropper.py:176 | the slice name is at least three digits spelling the index, then `.tif` |
| Decimal.SliceFileNameInjective | src/cropper/cropper.py:176 | distinct indices give distinct file names |
| SliceNames.LessIrreflexive | src/cropper/cropper.py:48 | string order: no name precedes itself |
| SliceNames.LessAsymmetric | src/cropper/cropper.py:48 | string order is asymmetric |
| SliceNames.LessTransitive | src/cropper/cropper.py:48 | string order is transitive |
| SliceNames.LessTotal | src/cropper/cropper.py:48 | any two different names are ordered one way |
| SliceNames.LessEqTransitive | src/cropper/cropper.py:48 | the non-strict order is transitive |
| SliceNames.TifEntries | src/cropper/cropper.py:48 | the kept entries are exactly the directory entries containing `.tif`, each kept as often as it occurs |
| SliceNames.InsertSorted | src/cropper/cropper.py:48 | inserting into an ascending list adds exactly that name and keeps it ascending |
| SliceNames.Sort | src/cropper/cropper.py:48 | `sorted` is an ascending permutation of its input |
| SliceNames.Reverse | src/cropper/cropper.py:125 | reversing reads the list backwards, a permutation |
| SliceNames.SortDescending | src/cropper/cropper.py:124-125 | `sort(reverse=True)` is a descending permutation |
| SliceNames.InputNames | src/cropper/cropper.py:48 | the listing is ascending and holds exactly the `.tif` entries |
| SliceNames.AscendingHeadLeast | src/cropper/cropper.py:48 | the head of an ascending list precedes all its names |
| SliceNames.AscendingUnique | src/cropper/cropper.py:48 | two ascending arrangements of the same names are equal |
| SliceNames.AscendingHeadsEqual | src/cropper/cropper.py:48 | two ascending arrangements of the same names start alike |
| SliceNames.TailsSameNames | src/cropper/cropper.py:48 | after a shared head, the rests are ascending arrangements of the same names |
| SliceNames.SortCanonical | src/cropper/cropper.py:48 | sorting depends only on which names there are |
| SliceNames.SortKeepsAscending | src/cropper/cropper.py:48 | sorting an ascending list changes nothing |
| SliceNames.ReverseReverse | src/cropper/cropper.py:125 | reversing twice restores the list |
| SliceNames.SortDescendingOfAnyOrder | src/cropper/cropper.py:124-125 | the descending sort of any ordering is the ascending sort reversed |
| Resample.SliceBound | src/cropper/cropper.py:162 | a Python slice bound: negative counts from the end, clipped to [0, n] |
| Resample.PySlice | src/cropper/cropper.py:162 | `s[a:b]` is the elements between the clipped bounds, empty when they cross |
| Resample.Crop | src/cropper/cropper.py:162 | row i of the crop is image row top+i, top taken as a Python slice bound, cut to columns left..right the same way; out-of-range bounds are clipped, never rejected |
| Resample.CropExact | src/cropper/cropper.py:162 | a crop inside the slice keeps exactly rows top..bottom and columns left..right |
| Resample.DownscaleXY | src/cropper/cropper.py:165-166 | lateral downscaling yields ceil(h/f) x ceil(w/f) |
| Resample.DownscaleXYByOne | src/cropper/cropper.py:165-166 | a factor of one returns the slice |
| Resample.BlockMeanOne | src/cropper/cropper.py:166 | a 1x1 block's mean is its pixel |
| Resample.DownscaleDepth | src/cropper/cropper.py:190-192 | depth downscaling yields ceil(n/f) slices of the slice shape |
| Resample.DownscaleDepthByOne | src/cropper/cropper.py:190-192 | a factor of one returns the volume |
| Resample.ProcessSlice | src/cropper/cropper.py:162-166 | with xy = 1 the processed slice is the plain crop |
| Resample.ProcessedSliceSize | src/cropper/cropper.py:162-166 | under the corrected validator, every processed slice has the announced output height and width |
| Resample.UncheckedTopMismatch | src/cropper/cropper.py:245-246 | top = -1 passes the validator as written; the announced height is 2 while the slice delivered is empty |
| Resample.UncheckedBottomMismatch | src/cropper/cropper.py:245-246 | bottom past the last row passes the validator as written; the announced height is 6 while 2 rows are delivered |
| Resample.UncheckedRowsMismatch | src/cropper/cropper.py:245-246 | the two inputs above pass the validator as written, and announced and delivered heights differ |
| TiffTags.Lookup | src/viewer/ControlPanel.js:366 | assumed loader: a tag present in the written tags yields a value written under it |
| TiffTags.ReadFields | src/viewer/ControlPanel.js:366 | assumed loader: it fills only fields it was asked for |
| TiffTags.ReadBackWritten | src/cropper/cropper.py:169-172 | against the assumed loader, the viewer reads back exactly the area, crop directory and segment name the cropper wrote, under the field names it asked for |
| CropJob.CreateClickAsWritten | src/cropper/cropper.py:104-140 | invalid fields change nothing; a running job is only flagged to cancel; otherwise a job starts at index 0 with the shared listing, sorted descending in place when reverse is set |
| CropJob.CreateClick | src/cropper/cropper.py:104-140 | corrected: the same, with the job's order chosen per run and the shared listing never changed; the job directory ends in the crop id |
| CropJob.Blanks | src/cropper/cropper.py:180 | a new accumulator has one slice per input name |
| CropJob.PathsDistinct | src/cropper/cropper.py:176 | two output files of one job with different indices have different paths |
| CropJob.VolumeFiles | src/cropper/cropper.py:194-196 | file k of the volume carries slice k, under index k, in the job's directory, with the job's tags |
| CropJob.Outcome | src/cropper/cropper.py:174-203 | streaming writes exactly the current slice's file; buffered accepts the slice iff it fits the accumulator (the first slice fixes its shape), stores it at the current index, writes nothing before the last index and ceil(n/z) files at it |
| CropJob.Step | src/cropper/cropper.py:143-211 | one step: only appends to the log; a cancelled job goes idle and clears the flag with no write; a raising step goes idle; otherwise the index advances by one |
| CropJob.StepAdvances | src/cropper/cropper.py:184-187 | before the last index, a step keeps the new accumulator, advances the index and appends its writes |
| CropJob.StepFinishes | src/cropper/cropper.py:188-203 | at the last index, a step appends its writes and the application goes idle |
| CropJob.StepFails | src/cropper/cropper.py:205-211 | a step raising after m writes keeps at most those m, drops the job and goes idle |
| CropJob.Run | src/cropper/cropper.py:184-187 | any number of rescheduled steps keeps the application consistent |
| CropJob.RunSucc | src/cropper/cropper.py:187 | a run of k steps is one step after a run of k-1 |
| CropJob.Processed | src/cropper/cropper.py:158-166 | the processed slices, one per input name |
| CropJob.VolumeFilesSnoc | src/cropper/cropper.py:194-196 | one more slice adds exactly one file, under the next index |
| CropJob.StreamingStep | src/cropper/cropper.py:174-187 | in streaming mode step k writes exactly the file for slice k under index k, and the last step ends the job |
| CropJob.LogSnoc | src/cropper/cropper.py:174-177 | the files of the first k slices are those of the first k-1 plus file k-1 |
| CropJob.StreamingAdvance | src/cropper/cropper.py:174-187 | step k of a streaming run, stated on whole runs |
| CropJob.StreamingPrefix | src/cropper/cropper.py:174-187 | after k streaming steps, exactly the files of slices 0..k-1 have been written, in order |
| CropJob.StreamingRun | src/cropper/cropper.py:174-203 | a streaming job of n slices writes exactly n files, slice i as file i, then goes idle |
| CropJob.CancelledStep | src/cropper/cropper.py:147-154 | a step that finds the cancel flag writes nothing, clears the flag and goes idle |
| CropJob.CancelStreaming | src/cropper/cropper.py:111-154 | cancelling a streaming job after k steps leaves exactly the first k files, both with the click as written (fields passing the validator as written, as they did when the job started) and with the corrected click |
| CropJob.UniformOfChecked | src/cropper/cropper.py:162-166 | with the corrected validator and equally shaped inputs, every processed slice has the announced output size |
| CropJob.VolumeFilesSameOutput | src/cropper/cropper.py:169-172 | the files depend only on the job's directory and tags |
| CropJob.BufferedOutcome | src/cropper/cropper.py:178-196 | a buffered step stores its slice at its index of the accumulator and writes the downscaled volume only at the last index |
| CropJob.FillNext | src/cropper/cropper.py:181 | storing slice k-1 extends the filled prefix by one |
| CropJob.BufferedFill | src/cropper/cropper.py:179-181 | after step k the accumulator's first k slices are the processed ones, all of them after the last step |
| CropJob.BufferedStepMiddle | src/cropper/cropper.py:178-187 | a buffered step before the last writes nothing and extends the filled prefix |
| CropJob.MiddleStepState | src/cropper/cropper.py:178-187 | a buffered step before the last, on a slice that fits, moves to the next index with the slice stored at the current one and appends nothing to the log |
| CropJob.BufferedStepLast | src/cropper/cropper.py:188-203 | the last buffered step writes the depth-downscaled volume and goes idle |
| CropJob.BufferedStep | src/cropper/cropper.py:178-203 | buffered step k in both cases |
| CropJob.BufferedAdvance | src/cropper/cropper.py:178-203 | buffered step k, stated on whole runs |
| CropJob.BufferedPrefix | src/cropper/cropper.py:178-203 | after k buffered steps short of the last, nothing is written and slices 0..k-1 are held; after the last, the downscaled volume is written and the job has ended |
| CropJob.BufferedRun | src/cropper/cropper.py:178-203 | a buffered job writes exactly the ceil(n/z) downscaled slices, slice i as file i, then goes idle |
| CropJob.StreamingIsBufferedByOne | src/cropper/cropper.py:174-196 | the buffered result with a depth factor of one is what streaming writes |
| CropJob.CancelBuffered | src/cropper/cropper.py:111-154 | cancelling a buffered job before its last step leaves no file, with the click as written and with the corrected click |
| CropJob.StreamingFault | src/cropper/cropper.py:205-211 | a streaming step that raises keeps its slice file iff the write happened, then goes idle |
| CropJob.BufferedFault | src/cropper/cropper.py:205-211 | a buffered step before the last that raises writes nothing and drops the accumulator; the next Create, as written or corrected, starts afresh |
| CropJob.ReverseOrderPersists | src/cropper/cropper.py:124-125 | as written, a reverse run, cancelled, leaves the next non-reverse run descending; corrected, the next run is ascending |
| SeqMap.Put | src/viewer/MaskFrame.js:301 | `Map.set`: the key maps to the value, an existing entry keeps its position, and a new key is appended |
| SeqMap.Delete | src/viewer/MaskFrame.js:318 | `Map.delete` removes one entry of that key, nothing if absent |
| SeqMap.InsertByKey | src/viewer/MaskFrame.js:303 | insertion by key adds exactly one entry |
| SeqMap.SortByKey | src/viewer/MaskFrame.js:303 | sorting entries by key is a permutation; with distinct keys it is ascending and maps the same |
| SeqMap.InsertHeadSorted | src/viewer/MaskFrame.js:303 | inserting the head into the sorted rest gives an ascending list that maps the same |
| SeqMap.Insert | src/viewer/MaskFrame.js:300-304 | set-then-maybe-sort: the keys gain k, k maps to v, others keep their value, and sorting keeps keys ascending |
| SeqMap.KeySetOfPermutation | src/viewer/MaskFrame.js:303 | reordering entries keeps the keys |
| SeqMap.ToMapOfPermutation | src/viewer/MaskFrame.js:303 | reordering entries with distinct keys keeps the map |
| SeqMap.InsertByKeyAscending | src/viewer/MaskFrame.js:303 | inserting a new key into an ascending list keeps it ascending |
| SeqMap.PutDistinct | src/viewer/MaskFrame.js:301 | `set` never duplicates a key |
| SeqMap.DeleteAscending | src/viewer/MaskFrame.js:318 | deleting keeps keys ascending |
| SeqMap.DeleteToMap | src/viewer/MaskFrame.js:318 | deleting removes exactly that key |
| SeqMap.AscendingUnique | src/viewer/MaskFrame.js:303 | there is one ascending list for each map |
| SeqMap.BracketScan | src/viewer/MaskFrame.js:331-337 | the scan's left is a key below loc or the default, its right the least key above loc under the default or the default |
| SeqMap.Bracket | src/viewer/MaskFrame.js:326-339 | for an interior location the bracket lies strictly around it |
| SeqMap.BracketScanLeftAscending | src/viewer/MaskFrame.js:331-337 | in ascending order the scan's left is the greatest key below loc |
| SeqMap.BracketKeys | src/viewer/MaskFrame.js:326-339 | on an ascending map the bracket is the nearest key on each side, clamped to the ends |
| SeqMap.BracketUnique | src/viewer/MaskFrame.js:326-339 | the nearest-key bracket is unique |
| SeqMap.DeleteThenInsert | src/viewer/MaskFrame.js:293-319 | deleting a key then inserting it back with sorting restores an ascending map |
| MaskRidge.New | src/viewer/MaskFrame.js:257-264 | a new ridge holds exactly 0 and size-1, at height 0, and is well formed iff size >= 1 |
| MaskRidge.NewWf | src/viewer/MaskFrame.js:257-264 | a new ridge is well formed iff its size is at least one |
| MaskRidge.NewPoints | src/viewer/MaskFrame.js:262-263 | the two `set` calls give one entry when both end points coincide, two otherwise |
| MaskRidge.IsVoid | src/viewer/MaskFrame.js:281-287 | void iff every stored height is 0 |
| MaskRidge.AllZero | src/viewer/MaskFrame.js:283-286 | the scan finds no non-zero height iff all heights are 0 |
| MaskRidge.InsertPoint | src/viewer/MaskFrame.js:293-305 | out of range changes nothing; otherwise the location maps to the height, other points are kept, and keys stay ascending unless sorting is omitted |
| MaskRidge.RemovePoint | src/viewer/MaskFrame.js:312-319 | an absent location changes nothing; otherwise only that key is deleted, and order is kept |
| MaskRidge.GetBracketingLocs | src/viewer/MaskFrame.js:326-339 | on a well-formed ridge: greatest key below loc (else 0) and least key above loc (else size-1) |
| MaskRidge.GetHeight | src/viewer/MaskFrame.js:346-362 | defined on a well-formed ridge; at or below 0 it is the height at 0, at or above size-1 the height at size-1, and a stored location gives its stored height |
| MaskRidge.GetHeightBetween | src/viewer/MaskFrame.js:357-361 | between neighbouring keys the height is the linear interpolation of theirs |
| MaskRidge.LerpBounded | src/viewer/MaskFrame.js:359-360 | interpolation stays between the two heights' bounds |
| MaskRidge.GetHeightBounded | src/viewer/MaskFrame.js:346-362 | every height lies within the bounds of the stored ones |
| MaskRidge.VoidIffFlat | src/viewer/MaskFrame.js:281-362 | a ridge is void iff its height is 0 everywhere |
| MaskRidge.InterpFromA | src/viewer/MaskFrame.js:373-376 | the first loop sets every key of A to w*hA + (1-w)*B's height |
| MaskRidge.InterpFromB | src/viewer/MaskFrame.js:378-383 | the second loop sets every in-range key of B to (1-w)*hB + w*A's height, without overriding A's keys |
| MaskRidge.Interpolate | src/viewer/MaskFrame.js:369-388 | the result is well formed, over the union of both key sets, with A's blend at A's keys and B's blend at B-only keys |
| MaskRidge.InterpolateWf | src/viewer/MaskFrame.js:369-388 | the sorted result of the two loops is well formed and maps as stated |
| MaskRidge.UnionKeysWf | src/viewer/MaskFrame.js:385 | sorted entries over A's keys plus in-range keys form a well-formed ridge |
| MaskRidge.FirstLoopCoversNew | src/viewer/MaskFrame.js:371-376 | A's keys overwrite both end points of the fresh output ridge |
| MaskRidge.BlendKeys | src/viewer/MaskFrame.js:373-383 | A's blend has A's keys; B's blend has only in-range keys |
| MaskRidge.BlendFromAUpdate | src/viewer/MaskFrame.js:374-375 | setting one A point blends just that point |
| MaskRidge.BlendFromBUpdate | src/viewer/MaskFrame.js:379-381 | setting one new B point blends it only when it is in range |
| MaskRidge.MixBounded | src/viewer/MaskFrame.js:374 | a weight in [0,1] keeps the blend between the heights' bounds |
| MaskRidge.InterpolateBounded | src/viewer/MaskFrame.js:369-388 | interpolating ridges with heights in [lo,hi] gives heights in [lo,hi] |
| MaskRidge.InterpolateVoid | src/viewer/MaskFrame.js:369-388 | interpolating two void ridges gives a void ridge |
| MaskFrame.New | src/viewer/MaskFrame.js:13-26 | a new frame has new ridges at y = 0 and ydim-1 on both sides, and is well formed iff both dimensions are positive |
| MaskFrame.AllVoid | src/viewer/MaskFrame.js:35-40 | a side is void iff all its ridges are |
| MaskFrame.IsVoid | src/viewer/MaskFrame.js:33-42 | a frame is void iff both sides are |
| MaskFrame.InsertRidge | src/viewer/MaskFrame.js:49-68 | out of range changes nothing; otherwise the location maps to the ridge, the other side is untouched, and the frame stays well formed |
| MaskFrame.InsertKeepsSideWf | src/viewer/MaskFrame.js:56-67 | inserting a well-formed ridge in range keeps a side well formed |
| MaskFrame.RemoveRidge | src/viewer/MaskFrame.js:75-85 | an absent location returns nothing and changes nothing; otherwise only that ridge is deleted and returned |
| MaskFrame.RemoveThenInsert | src/viewer/MaskFrame.js:49-85 | re-inserting a removed ridge at its location restores the frame |
| MaskFrame.GetRidge | src/viewer/MaskFrame.js:102-105 | finds a ridge iff the row is a key of that side's map, and then it is the stored ridge |
| MaskFrame.HasRidge | src/viewer/MaskFrame.js:92-95 | true iff `getRidge` finds a ridge |
| MaskFrame.GetRidgeWf | src/viewer/MaskFrame.js:102-105 | every ridge of a well-formed frame is well formed, of width xdim, at an in-range row |
| MaskFrame.InsertThenGet | src/viewer/MaskFrame.js:49-105 | after inserting in range, `getRidge` returns that ridge |
| MaskFrame.InsertRidgeKeepsOthers | src/viewer/MaskFrame.js:49-68 | `insertRidge` leaves every other row of its side as it was |
| MaskFrame.RemoveRidgeKeepsOthers | src/viewer/MaskFrame.js:75-85 | `removeRidge` leaves every other row of its side as it was |
| MaskFrame.InsertThenProfile | src/viewer/MaskFrame.js:49-68 | after inserting a ridge at an interior row, the profile there is that ridge |
| MaskFrame.GetBracketingLocs | src/viewer/MaskFrame.js:138-152 | on a well-formed frame: the nearest ridge row on each side, clamped to 0 and ydim-1 |
| MaskFrame.ScanBracket | src/viewer/MaskFrame.js:120-127 | the loop runs out of ridges iff none from entry i on lies beyond loc; otherwise it stops at the first that does, paired with the entry seen before it |
| MaskFrame.ProfileScan | src/viewer/MaskFrame.js:120-130 | the profile the loop returns is always a well-formed ridge of width xdim |
| MaskFrame.GetMaskProfile | src/viewer/MaskFrame.js:112-131 | the profile of a well-formed frame is a well-formed ridge of width xdim; at or below row 0 it is the ridge at 0, at or above ydim-1 the ridge at ydim-1 |
| MaskFrame.ScanSkips | src/viewer/MaskFrame.js:121-127 | the loop passes over ridges below loc, remembering the last of them |
| MaskFrame.ScanStops | src/viewer/MaskFrame.js:122-124 | the loop stops at the first ridge above loc, paired with the previous one, and interpolates the two |
| MaskFrame.ProfileAtIndex | src/viewer/MaskFrame.js:112-127 | between consecutive ridges the profile is their interpolation with weight (next-loc)/(next-prev) |
| MaskFrame.GetMaskProfileBetween | src/viewer/MaskFrame.js:112-127 | between neighbouring ridge rows the profile interpolates them, with previous weight strictly between 0 and 1 |
| MaskFrame.PrevWeightInside | src/viewer/MaskFrame.js:123 | the previous weight of an interior row lies strictly between 0 and 1 |
| MaskFrame.ProfileWithin | src/viewer/MaskFrame.js:112-131 | if all ridges' heights are in [lo,hi], so are the profile's |
| MaskFrame.ProfileAtKey | src/viewer/MaskFrame.js:116-118 | at a ridge row the profile is the stored ridge |
| MaskFrame.SideVoidProfiles | src/viewer/MaskFrame.js:112-131 | the profiles of a void side are void |
| MaskFrame.VoidIffProfilesVoid | src/viewer/MaskFrame.js:33-42 | a frame is void iff every profile of it, on both sides, is void |
| MprMaskInteractor.Round | src/viewer/MprMaskInteractor.js:78 | `Math.round` lands within a half of its argument |
| MprMaskInteractor.Clamp01 | src/viewer/MprMaskInteractor.js:72 | clamping lands in [0,1] and keeps values already there |
| MprMaskInteractor.DraggedHeight | src/viewer/MprMaskInteractor.js:83 | the stored height is 1-t on top, t below, with t clamped, so in [0,1] |
| MprMaskInteractor.ClampLoc | src/viewer/MprMaskInteractor.js:79 | the new location lies in [left+1, right-1] when that is not empty, and is kept when already there |
| MprMaskInteractor.OnStart | src/viewer/MprMaskInteractor.js:39-54 | only an accepted hit while idle starts a drag, of the hit point; the frame is untouched |
| MprMaskInteractor.NewPtLoc | src/viewer/MprMaskInteractor.js:74-80 | an end point never moves; an interior point stays strictly inside its bracket |
| MprMaskInteractor.OnMove | src/viewer/MprMaskInteractor.js:64-89 | outside a drag nothing changes; during a drag the mode records the new location |
| MprMaskInteractor.OnEnd | src/viewer/MprMaskInteractor.js:99-110 | the end event always returns to idle and keeps the frame |
| MprMaskInteractor.OnClick | src/viewer/MprMaskInteractor.js:120-162 | only a right click while idle on a hit or near miss does anything; an end point is never removed |
| MprMaskInteractor.MovedKeys | src/viewer/MprMaskInteractor.js:78-84 | moving an interior key inside its bracket keeps the count and the bracket |
| MprMaskInteractor.MoveRidgeKeys | src/viewer/MprMaskInteractor.js:82-83 | remove-then-insert trades the old location for the new, keeps the ridge well formed and stores the height |
| MprMaskInteractor.MovedWf | src/viewer/MprMaskInteractor.js:82-83 | a sorted ridge that trades one key for an in-range one, ends kept, is well formed |
| MprMaskInteractor.MoveRidgeBracket | src/viewer/MprMaskInteractor.js:78-84 | after a move the point count and the point's bracket are unchanged |
| MprMaskInteractor.MoveKeepsInv | src/viewer/MprMaskInteractor.js:64-89 | a move keeps the drag consistent, the point count, swaps the location, and stores the dragged height |
| MprMaskInteractor.ClickFrame | src/viewer/MprMaskInteractor.js:136-151 | a right click writes back the edited ridge of the hit row and side |
| MprMaskInteractor.ClickEdits | src/viewer/MprMaskInteractor.js:136-151 | a hit deletes only an interior point, a near miss inserts one point, and nothing else in the frame changes |
| ControlPanel.LowerChar | src/viewer/ControlPanel.js:354-355 | lower-casing maps A..Z to a..z and keeps other characters |
| ControlPanel.ToLower | src/viewer/ControlPanel.js:354-355 | lower-casing works character by character |
| ControlPanel.ImageFiles | src/viewer/ControlPanel.js:354-355 | kept files are exactly those whose lower-cased name ends in .tiff, .tif or .nrrd |
| ControlPanel.ImageFilesAppend | src/viewer/ControlPanel.js:354-355 | the filter works file by file and keeps order |
| ControlPanel.ChooseLoader | src/viewer/ControlPanel.js:365-366 | the NRRD loader iff the first kept file ends in .nrrd; else the TIFF loader with the cropper's three tags |
| ControlPanel.OnInputFilesChosen | src/viewer/ControlPanel.js:346-393 | no selection or a load under way is ignored; no image file, an unreadable header or a too-large image each abort; otherwise the load gets the chosen loader and the GL version |
| ControlPanel.ClampPosition | src/viewer/ControlPanel.js:261-263 | a position input is clamped to [0, max] and kept when already there |
| ControlPanel.ClampPositionIdempotent | src/viewer/ControlPanel.js:261-263 | clamping twice is clamping once |
| ControlPanel.AddRidge | src/viewer/ControlPanel.js:174-186 | only with a mask and no ridge at y is the current profile inserted as the ridge at y; every other row of that side, and the other side, are unchanged |
| ControlPanel.AddKeepsProfile | src/viewer/ControlPanel.js:181-182 | Add does not change the mask's profile at the row it fills: the new ridge is the profile the frame interpolated there |
| ControlPanel.RemoveStep | src/viewer/ControlPanel.js:197-205 | removes and remembers the ridge at y only for interior y holding one, then switches to Restore; every other row of that side, and the other side, are unchanged |
| ControlPanel.RestoreStep | src/viewer/ControlPanel.js:206-212 | re-inserts the remembered ridge only when its y is the current y, clearing the memory; always back to Rmv |
| ControlPanel.RemoveOrRestore | src/viewer/ControlPanel.js:190-215 | the button does nothing without a mask and dispatches on its label |
| ControlPanel.OnSideChange | src/viewer/ControlPanel.js:159-170 | changing side clears the memory and returns to Rmv |
| ControlPanel.OnYChange | src/viewer/ControlPanel.js:277-283 | changing y clamps it, clears the memory and returns to Rmv |
| ControlPanel.RestoreUndoesRemove | src/viewer/ControlPanel.js:190-215 | Rmv then Restore at the same y gives back the original frame |

## Left out

- File I/O is not modelled: `io.imread`, `tifffile.imwrite`, `mkdir`, `os.listdir`. Reading is the parameter `read`; writing is the `Written` log.
- `threading.Timer` rescheduling and the shared `cancelled` global are not modelled as concurrency. A step is a function, and the flag is a field of the state.
- `downscale_local_mean` keeps only its shape. Pixel values are modelled as a zero-padded floor mean, and `astype(np.uint16)` truncation is left out. The library computes in floating point, and that is not visible.
- `get_total_area`, `get_output_area` and the `round(..., 3)` gigabyte figure are left out. The first two read a file and do float arithmetic. The area text is a parameter of the job.
- The thumbnail, `draw_clip_box`, the progress label, message boxes and `shelve` persistence are Tk user interface and are left out.
- `process_input_dir` beyond its listing line is left out: the mid-stack read, the default widget values and the info text.
- CropJob.Outcome: numpy broadcasting of a slice into a differently shaped accumulator is not modelled. A mismatch is treated as the assignment raising.
- Path separators are `/` only. The `\` to `/` replacement for Windows paths is left out.
- `MaskFrame.copyToReliefMask`, `toJsonString` and `FromJsonString` are left out. They do float-to-uint16 rounding into GPU memory, JSON and `toFixed` rounding.
- `_hitTest` and the viewport and texture coordinate transforms are inputs. `HitResult` is the hit test's verdict, and the texture coordinates are parameters.
- Heights are `real`. IEEE rounding and NaN are not modelled.
- ControlPanel.ToLower: only ASCII letters are lower-cased. JavaScript's full Unicode case mapping is left out.
- CropParams.Parse: `int()` on the widget text is abstracted to `Option<int>`. Python's acceptance of surrounding whitespace, a leading `+`, digit-group underscores and non-ASCII digits is not modelled.
- ControlPanel.AddRidge: a row that `parseInt` cannot read (`NaN`, for an empty Y field) is not modelled, because rows are integers. The source then finds no ridge at `NaN`, and `getMaskProfile(NaN)` falls through to a flat `new MaskRidge`. `insertRidge`'s range test does not reject `NaN`, so a void ridge is stored under key `NaN`, and the sort comparator then leaves the order unspecified. With Rmv a `NaN` row is harmless: the `iy > 0` test fails, and Restore's `iy ==` test fails.
- ControlPanel.OnYChange: a `parseInt` failure (NaN) is an absent value that leaves y as it was. The NaN that JavaScript would pass on is not modelled.
- TiffTags.ReadFields: the viewer's TIFF loader (`TiffLoader3D`) is an external library that is not part of this model; `ReadFields` and `Lookup` are an assumed model of how it maps requested tags to fields, so `ReadBackWritten` checks only that the tag numbers and field names the cropper writes and the viewer requests agree.
- `loader.getImageDims` is the parameter `dims`; `None` stands for a header it could not read. The WebGL texture limits are parameters.
- SegmentViewer creation and volume loading after the checks are not modelled: they are rendering and texture upload.
- CropJob.Step: a failure is modelled as raising after some number of the step's writes. Which exception is raised and its message are left out.
- CropJob.BufferedRun: it assumes every processed slice has one shape (`Uniform`). `CropJob.UniformOfChecked` proves that the corrected validator gives this for equally shaped inputs.

## Findings

| source | as written | input that shows it | evidently intended | confidence | as-written member | corrected member |
|---|---|---|---|---|---|---|
| src/cropper/cropper.py:245-246 | `top` is not checked against 0, and `bottom` is not checked against the slice height, unlike `left` and `right` | a 2-row, 1-column slice with top = -1 and bottom = 0: the fields pass, the reported height is 2, and `img[-1:1]` is empty. With top = 0 and bottom = 5, the reported height is 6 but only 2 rows come back | `0 <= top <= bottom < height`, like the columns, so the output matches the reported size | high; not executed | Resample.UncheckedRowsMismatch | CropParams.ParamsValid |
| src/cropper/cropper.py:124-125 | with "Reverse sort" checked, `in_img_names.sort(reverse=True)` sorts the shared listing in place | listing `["a.tif", "b.tif"]`: start with reverse set, cancel, then start with reverse cleared. The second job still gets `["b.tif", "a.tif"]` | each run's order follows the box at that run, and the listing stays ascending | medium; not executed | CropJob.ReverseOrderPersists | CropJob.CreateClick |

For the first row, the corrected validator's promise is proved in two places:

- `Resample.ProcessedSliceSize`: every processed slice has the announced height and width.
- `CropJob.UniformOfChecked`: this holds for a whole job.

For the second row:

- `CropJob.ReverseOrderPersists` states both the as-written sequence and the
  corrected one.
- `CropJob.CreateClick` never changes the listing.

=== FILE: control_panel.dfy ===
/** The parts of `ControlPanel` (src/viewer/ControlPanel.js) that decide
    something: which chosen files are loaded and how, the clamping of the
    position inputs, and the Add / Rmv / Restore ridge commands. Widgets,
    alerts, rendering and the loaders themselves are not modelled. */
module ControlPanel {
  import opened Options
  import opened SeqMap
  import MaskRidge
  import MaskFrame
  import TiffTags

  type Ridge = MaskRidge.Ridge
  type Frame = MaskFrame.Frame

  // ---------------------------------------------------------------------
  // Choosing the files to load

  /** `toLowerCase` on one character, for the ASCII letters. */
  function LowerChar(c: char): (l: char)
    ensures 'A' <= c <= 'Z' ==> l as int == c as int + 32
    ensures !('A' <= c <= 'Z') ==> l == c
  {
    if 'A' <= c <= 'Z' then (c as int + 32) as char else c
  }

  function ToLower(s: string): (r: string)
    ensures |r| == |s| && forall i :: 0 <= i < |s| ==> r[i] == LowerChar(s[i])
  {
    seq(|s|, i requires 0 <= i < |s| => LowerChar(s[i]))
  }

  predicate EndsWith(s: string, suffix: string) {
    |suffix| <= |s| && s[|s| - |suffix|..] == suffix
  }

  /** The extension test of `onInputFilesChosen`: the lower-cased name ends
      in `.tiff`, `.tif` or `.nrrd`. */
  predicate IsImageName(name: string) {
    var n := ToLower(name);
    EndsWith(n, ".tiff") || EndsWith(n, ".tif") || EndsWith(n, ".nrrd")
  }

  /** `files.filter(...)`: the image files, in the order chosen. */
  function ImageFiles(files: seq<string>): (r: seq<string>)
    ensures |r| <= |files|
    ensures forall f :: f in r <==> f in files && IsImageName(f)
  {
    if |files| == 0 then []
    else (if IsImageName(files[0]) then [files[0]] else []) + ImageFiles(files[1..])
  }

  /** Filtering works file by file: the image files of a concatenation are
      the image files of each part, in order. */
  lemma {:induction false} ImageFilesAppend(a: seq<string>, b: seq<string>)
    ensures ImageFiles(a + b) == ImageFiles(a) + ImageFiles(b)
    decreases |a|
  {
    if |a| == 0 {
      assert a + b == b;
    } else {
      assert (a + b)[0] == a[0];
      assert (a + b)[1..] == a[1..] + b;
      ImageFilesAppend(a[1..], b);
    }
  }

  datatype Loader = NrrdLoader | TiffLoader(tags: seq<(int, string)>)

  /** The loader for a selection whose first image file is `first`: NRRD
      exactly when its lower-cased name ends in `.nrrd`, otherwise TIFF
      reading the cropper's three private tags. */
  function ChooseLoader(first: string): (l: Loader)
    ensures l.NrrdLoader? <==> EndsWith(ToLower(first), ".nrrd")
    ensures l.TiffLoader? ==> l.tags == TiffTags.LoaderTags()
  {
    if EndsWith(ToLower(first), ".nrrd") then NrrdLoader else TiffLoader(TiffTags.LoaderTags())
  }

  /** How `onInputFilesChosen` ends. `Load` carries the loader, the files
      handed to `loadVolume` and the WebGL version requested (`None` for the
      default). */
  datatype LoadOutcome =
    | Ignored
    | NoImageFiles
    | HeaderUnreadable
    | TooLarge
    | Load(loader: Loader, files: seq<string>, glVersion: Option<int>)


  /** `onInputFilesChosen(files)`. `files` is `None` when nothing was chosen,
      `loading` is the engine's `loadingData`, `dims` the header dimensions
      of the first image file (`None` when the header cannot be read), and
      `max2D`/`max3D` the WebGL texture limits. */
  function OnInputFilesChosen(files: Option<seq<string>>, loading: bool, dims: Option<(int, int)>,
                              max2D: int, max3D: int): (o: LoadOutcome)
    ensures files.None? || loading <==> o.Ignored?
    ensures o.NoImageFiles? <==> files.Some? && !loading && ImageFiles(files.value) == []
    ensures o.HeaderUnreadable? <==> files.Some? && !loading && ImageFiles(files.value) != [] && dims.None?
    ensures o.TooLarge? <==>
      files.Some? && !loading && ImageFiles(files.value) != [] && dims.Some? &&
      (dims.value.0 > max2D || dims.value.1 > max2D)
    ensures o.Load? ==>
      && o.loader == ChooseLoader(ImageFiles(files.value)[0])
      && o.files == files.value
      && (o.glVersion.None? <==> dims.value.0 <= max3D && dims.value.1 <= max3D)
  {
    if files.None? || loading then Ignored
    else
      var imgFiles := ImageFiles(files.value);
      if |imgFiles| == 0 then NoImageFiles
      else
        var loader := ChooseLoader(imgFiles[0]);
        match dims
        case None => HeaderUnreadable
        case Some((w, h)) =>
          if w > max2D || h > max2D then TooLarge
          else
            var glVersion := if w <= max3D && h <= max3D then None else Some(1);
            Load(loader, files.value, glVersion)
  }

  // ---------------------------------------------------------------------
  // Position inputs

  /** The X/Y/Z input handlers: a value above the input's `max` becomes
      `max`, then a negative value becomes 0. `None` is a `NaN` from
      `parseInt`, which both comparisons let through. */
  function ClampPosition(val: Option<int>, max: int): (r: Option<int>)
    ensures r.Some? <==> val.Some?
    ensures val.Some? && max >= 0 ==> 0 <= r.value <= max
    ensures val.Some? && 0 <= val.value <= max ==> r == val
    ensures val.Some? && val.value > max ==> r.value == (if max < 0 then 0 else max)
    ensures val.Some? && val.value < 0 ==> r.value == 0
  {
    match val
    case None => None
    case Some(v) =>
      var a := if v > max then max else v;
      Some(if a < 0 then 0 else a)
  }

  /** Clamping an input twice gives what clamping once gives. */
  lemma ClampPositionIdempotent(val: Option<int>, max: int)
    ensures ClampPosition(ClampPosition(val, max), max) == ClampPosition(val, max)
  {
  }

  // ---------------------------------------------------------------------
  // Ridge commands

  /** `lastRemovedRidge`: the row, the ridge `removeRidge` returned, and
      the side. */
  datatype Removed = Removed(iy: int, ridge: Option<Ridge>, isTop: bool)

  /** The panel state the ridge commands use: the frame, whether a mask is
      loaded (`renderEngine.mask`), the side selected by the Top/Btm radio
      buttons, the Y input, whether the Rmv button currently reads
      "Restore", and `lastRemovedRidge`. */
  datatype Panel = Panel(frame: Frame, maskLoaded: bool, applyToTop: bool, iy: int,
                         restoreMode: bool, last: Option<Removed>)

  /** What the commands keep: a well-formed frame and, in Restore mode, a
      remembered well-formed ridge of the frame's width for the current
      row and side. */
  predicate PanelInv(p: Panel) {
    && MaskFrame.Wf(p.frame)
    && (p.restoreMode ==>
          && p.last.Some?
          && p.last.value.ridge.Some?
          && MaskRidge.Wf(p.last.value.ridge.value)
          && p.last.value.ridge.value.size == p.frame.xdim
          && p.last.value.iy == p.iy
          && p.last.value.isTop == p.applyToTop
          && 0 < p.iy < p.frame.ydim - 1)
  }

  /** The Add button: without a mask nothing happens; where the selected
      side has no ridge at row `iy`, the current profile there is inserted
      as a ridge. */
  function AddRidge(p: Panel): (r: Panel)
    requires MaskFrame.Wf(p.frame)
    ensures r == p.(frame := r.frame)
    ensures !p.maskLoaded || MaskFrame.HasRidge(p.frame, p.iy, p.applyToTop) ==> r == p
    ensures p.maskLoaded && !MaskFrame.HasRidge(p.frame, p.iy, p.applyToTop) && 0 <= p.iy < p.frame.ydim ==>
      && MaskFrame.HasRidge(r.frame, p.iy, p.applyToTop)
      && MaskFrame.GetRidge(r.frame, p.iy, p.applyToTop).value
         == MaskFrame.GetMaskProfile(p.frame, p.iy, p.applyToTop)
    ensures p.maskLoaded && !MaskFrame.HasRidge(p.frame, p.iy, p.applyToTop) ==>
      r.frame == MaskFrame.InsertRidge(p.frame, p.iy, MaskFrame.GetMaskProfile(p.frame, p.iy, p.applyToTop), p.applyToTop)
    ensures forall y :: y != p.iy ==>
      MaskFrame.GetRidge(r.frame, y, p.applyToTop) == MaskFrame.GetRidge(p.frame, y, p.applyToTop)
    ensures MaskFrame.Ridges(r.frame, !p.applyToTop) == MaskFrame.Ridges(p.frame, !p.applyToTop)
    ensures MaskFrame.Wf(r.frame)
    ensures PanelInv(p) ==> PanelInv(r)
  {
    if !p.maskLoaded || MaskFrame.HasRidge(p.frame, p.iy, p.applyToTop) then p
    else
      var profile := MaskFrame.GetMaskProfile(p.frame, p.iy, p.applyToTop);
      var f := MaskFrame.InsertRidge(p.frame, p.iy, profile, p.applyToTop);
      assert forall y :: y != p.iy ==> MaskFrame.GetRidge(f, y, p.applyToTop) == MaskFrame.GetRidge(p.frame, y, p.applyToTop) by {
        AscendingDistinct(MaskFrame.Ridges(p.frame, p.applyToTop));
        MaskFrame.InsertRidgeKeepsOthers(p.frame, p.iy, profile, p.applyToTop);
      }
      assert 0 <= p.iy < p.frame.ydim ==> MaskFrame.GetRidge(f, p.iy, p.applyToTop) == Some(profile) by {
        if 0 <= p.iy < p.frame.ydim {
          MaskFrame.InsertThenGet(p.frame, p.iy, profile, p.applyToTop);
        }
      }
      p.(frame := f)
  }

  /** Add leaves the mask as it looked: at the row it fills, the profile of
      the new frame is the profile the old frame interpolated there. */
  lemma AddKeepsProfile(p: Panel)
    requires MaskFrame.Wf(p.frame)
    ensures MaskFrame.GetMaskProfile(AddRidge(p).frame, p.iy, p.applyToTop)
         == MaskFrame.GetMaskProfile(p.frame, p.iy, p.applyToTop)
  {
    if p.maskLoaded && !MaskFrame.HasRidge(p.frame, p.iy, p.applyToTop) && 0 <= p.iy < p.frame.ydim {
      var m := MaskFrame.Ridges(p.frame, p.applyToTop);
      assert 0 < p.iy < p.frame.ydim - 1 by {
        assert 0 in KeySet(m) && p.frame.ydim - 1 in KeySet(m);
      }
      var profile := MaskFrame.GetMaskProfile(p.frame, p.iy, p.applyToTop);
      MaskFrame.InsertThenProfile(p.frame, p.iy, profile, p.applyToTop);
    }
  }

  /** The Rmv/Restore button in Rmv mode: an interior row holding a ridge
      on the selected side loses it, the ridge is remembered and the button
      turns to Restore; any other row is left alone. */
  function RemoveStep(p: Panel): (r: Panel)
    requires !p.restoreMode
    ensures r.maskLoaded == p.maskLoaded && r.applyToTop == p.applyToTop && r.iy == p.iy
    ensures r.frame.xdim == p.frame.xdim && r.frame.ydim == p.frame.ydim
    ensures r.restoreMode <==> 0 < p.iy < p.frame.ydim - 1 && MaskFrame.HasRidge(p.frame, p.iy, p.applyToTop)
    ensures !r.restoreMode ==> r == p
    ensures r.restoreMode ==>
      r.last == Some(Removed(p.iy, MaskFrame.GetRidge(p.frame, p.iy, p.applyToTop), p.applyToTop))
    ensures r.restoreMode ==> r.frame == MaskFrame.RemoveRidge(p.frame, p.iy, p.applyToTop).0
    ensures MaskFrame.Wf(p.frame) && r.restoreMode ==> !MaskFrame.HasRidge(r.frame, p.iy, p.applyToTop)
    ensures MaskFrame.Wf(p.frame) ==> forall y :: y != p.iy ==>
      MaskFrame.GetRidge(r.frame, y, p.applyToTop) == MaskFrame.GetRidge(p.frame, y, p.applyToTop)
    ensures MaskFrame.Ridges(r.frame, !p.applyToTop) == MaskFrame.Ridges(p.frame, !p.applyToTop)
    ensures MaskFrame.Wf(p.frame) ==> PanelInv(r)
  {
    if 0 < p.iy < p.frame.ydim - 1 && MaskFrame.HasRidge(p.frame, p.iy, p.applyToTop) then
      var (f, ridge) := MaskFrame.RemoveRidge(p.frame, p.iy, p.applyToTop);
      assert MaskFrame.Wf(p.frame) ==> forall y :: y != p.iy ==>
        MaskFrame.GetRidge(f, y, p.applyToTop) == MaskFrame.GetRidge(p.frame, y, p.applyToTop) by {
        if MaskFrame.Wf(p.frame) {
          AscendingDistinct(MaskFrame.Ridges(p.frame, p.applyToTop));
          MaskFrame.RemoveRidgeKeepsOthers(p.frame, p.iy, p.applyToTop);
        }
      }
      assert MaskFrame.Wf(p.frame) ==>
        !MaskFrame.HasRidge(f, p.iy, p.applyToTop) && MaskRidge.Wf(ridge.value) && ridge.value.size == p.frame.xdim by {
        if MaskFrame.Wf(p.frame) {
          AscendingDistinct(MaskFrame.Ridges(p.frame, p.applyToTop));
          MaskFrame.GetRidgeWf(p.frame, p.iy, p.applyToTop);
        }
      }
      p.(frame := f, last := Some(Removed(p.iy, ridge, p.applyToTop)), restoreMode := ridge.Some?)
    else p
  }

  /** The Rmv/Restore button in Restore mode: the remembered ridge goes back
      when it belongs to the current row (and is then forgotten); the
      button turns back to Rmv either way. */
  function RestoreStep(p: Panel): (r: Panel)
    requires p.restoreMode
    ensures r.maskLoaded == p.maskLoaded && r.applyToTop == p.applyToTop && r.iy == p.iy
    ensures r.frame.xdim == p.frame.xdim && r.frame.ydim == p.frame.ydim
    ensures !r.restoreMode
    ensures p.last.Some? && p.last.value.ridge.Some? && p.last.value.iy == p.iy ==>
      && r.frame == MaskFrame.InsertRidge(p.frame, p.iy, p.last.value.ridge.value, p.last.value.isTop)
      && r.last.None?
    ensures !(p.last.Some? && p.last.value.ridge.Some? && p.last.value.iy == p.iy) ==>
      r == p.(restoreMode := false)
    ensures PanelInv(p) ==> PanelInv(r)
  {
    match p.last
    case Some(Removed(iy, Some(ridge), isTop)) =>
      if iy == p.iy then
        p.(frame := MaskFrame.InsertRidge(p.frame, iy, ridge, isTop), last := None, restoreMode := false)
      else p.(restoreMode := false)
    case _ => p.(restoreMode := false)
  }

  /** The Rmv/Restore button: nothing without a mask, otherwise the step
      for the mode the button is in. */
  function RemoveOrRestore(p: Panel): (r: Panel)
    ensures !p.maskLoaded ==> r == p
    ensures p.maskLoaded && !p.restoreMode ==> r == RemoveStep(p)
    ensures p.maskLoaded && p.restoreMode ==> r == RestoreStep(p)
    ensures PanelInv(p) ==> PanelInv(r)
  {
    if !p.maskLoaded then p
    else if !p.restoreMode then RemoveStep(p)
    else RestoreStep(p)
  }

  /** Changing the Top/Btm selection forgets the removed ridge and resets
      the button to Rmv. */
  function OnSideChange(p: Panel, top: bool): (r: Panel)
    ensures r.frame == p.frame && r.applyToTop == top
    ensures r.last.None? && !r.restoreMode
    ensures MaskFrame.Wf(p.frame) ==> PanelInv(r)
  {
    p.(applyToTop := top, last := None, restoreMode := false)
  }

  /** The Y input handler: the clamped row becomes current, the removed
      ridge is forgotten and the button resets to Rmv. A `NaN` entry keeps
      the row (the model has no `NaN` row). */
  function OnYChange(p: Panel, val: Option<int>, max: int): (r: Panel)
    ensures r.frame == p.frame && r.applyToTop == p.applyToTop
    ensures val.Some? ==> r.iy == ClampPosition(val, max).value
    ensures val.Some? && max >= 0 ==> 0 <= r.iy <= max
    ensures r.last.None? && !r.restoreMode
    ensures MaskFrame.Wf(p.frame) ==> PanelInv(r)
  {
    var row := ClampPosition(val, max);
    p.(iy := if row.Some? then row.value else p.iy, last := None, restoreMode := false)
  }

  /** Rmv followed by Restore, with nothing in between, gives back the
      frame as it was and leaves the button in Rmv mode with nothing
      remembered. */
  lemma RestoreUndoesRemove(p: Panel)
    requires PanelInv(p) && p.maskLoaded && !p.restoreMode
    requires 0 < p.iy < p.frame.ydim - 1 && MaskFrame.HasRidge(p.frame, p.iy, p.applyToTop)
    ensures RemoveOrRestore(p).restoreMode
    ensures RemoveOrRestore(RemoveOrRestore(p)).frame == p.frame
    ensures !RemoveOrRestore(RemoveOrRestore(p)).restoreMode
    ensures RemoveOrRestore(RemoveOrRestore(p)).last.None?
  {
    MaskFrame.RemoveThenInsert(p.frame, p.iy, p.applyToTop);
    var p1 := RemoveStep(p);
    assert p1.frame == MaskFrame.RemoveRidge(p.frame, p.iy, p.applyToTop).0;
    assert p1.last.value.ridge == MaskFrame.RemoveRidge(p.frame, p.iy, p.applyToTop).1;
    var p2 := RestoreStep(p1);
  }
}

=== FILE: crop_job.dfy ===
/** The cropper's job: `on_create_btn_click` starts it or asks it to
    cancel, and each `process_next_slice` call is one step that handles the
    slice at index `z` (src/cropper/cropper.py). Reading a slice is the
    function `read` from path to pixels; every file written is appended to
    a log. */
module CropJob {
  import opened Options
  import opened Decimal
  import SliceNames
  import opened CropParams
  import opened Resample
  import TiffTags

  datatype Phase = Idle | Running

  /** One output file: the directory it goes to, the output index its
      name encodes, its pixels and its string tags. */
  datatype Written = Written(dir: string, index: nat, img: Image, tags: seq<(int, string)>)

  /** Where a file lands: `<dir>/<index, zero-padded>.tif`. */
  function Path(file: Written): string {
    PathJoin(file.dir, SliceFileName(file.index))
  }

  /** `out_vol`: the slice size fixed by the first slice and one slice
      per input index, unfilled ones blank. */
  datatype Volume = Volume(h: nat, w: nat, slices: seq<Image>)

  /** `proc_args`: the index of the next slice, the input names, the input
      and output directories, the parameters, the area text, the segment
      name and the accumulator. */
  datatype Job = Job(z: int, names: seq<string>, inDir: string, outImgDir: string, params: Params,
                     outputArea: string, segName: string, outVol: Option<Volume>)

  /** The globals the job touches: `app_state`, `cancelled`,
      `in_img_names`, the pending job (present while a step is scheduled)
      and the files written so far. */
  datatype App = App(phase: Phase, cancelled: bool, names: seq<string>, job: Option<Job>, log: seq<Written>)

  /** Jobs only exist with parameters the validator accepted. */
  predicate JobOk(job: Job) {
    job.params.xy >= 1 && job.params.z >= 1
  }

  /** A job is pending exactly while the application is running, and its
      parameters were accepted. */
  predicate Inv(app: App) {
    && (app.phase == Running <==> app.job.Some?)
    && (app.job.Some? ==> JobOk(app.job.value))
  }

  // ---------------------------------------------------------------------
  // Starting and cancelling

  /** The job a Create click starts on the chosen names. */
  function NewJob(names: seq<string>, inDir: string, outDir: string, p: Params,
                  outputArea: string, segName: string): Job {
    Job(0, names, inDir, OutputDir(outDir, p), p, outputArea, segName, None)
  }

  /** `on_create_btn_click` as written: the reverse-sort box sorts the
      global listing itself in descending order. */
  function CreateClickAsWritten(app: App, f: Fields, s: Shape, reverse: bool, inDir: string,
                                outDir: string, outputArea: string, segName: string): (r: App)
    ensures !ParamsValidAsWritten(f, s) ==> r == app
    ensures ParamsValidAsWritten(f, s) && app.phase == Running ==> r == app.(cancelled := true)
    ensures ParamsValidAsWritten(f, s) && app.phase == Idle ==>
      && r.phase == Running && !r.cancelled && r.job.Some? && r.job.value.z == 0
      && r.names == (if reverse then SliceNames.SortDescending(app.names) else app.names)
      && r.job.value.names == r.names
    ensures Inv(app) ==> Inv(r)
  {
    if !ParamsValidAsWritten(f, s) then app
    else if app.phase == Running then app.(cancelled := true)
    else
      var p := Parse(f).value;
      var names := if reverse then SliceNames.SortDescending(app.names) else app.names;
      App(Running, false, names, Some(NewJob(names, inDir, outDir, p, outputArea, segName)), app.log)
  }

  /** `on_create_btn_click` corrected: the corrected validator, and the
      job gets the listing in the order the box asks for while the listing
      itself is left as it is. */
  function CreateClick(app: App, f: Fields, s: Shape, reverse: bool, inDir: string,
                       outDir: string, outputArea: string, segName: string): (r: App)
    ensures r.names == app.names
    ensures !ParamsValid(f, s) ==> r == app
    ensures ParamsValid(f, s) && app.phase == Running ==> r == app.(cancelled := true)
    ensures ParamsValid(f, s) && app.phase == Idle ==>
      && r.phase == Running && !r.cancelled && r.names == app.names && r.log == app.log
      && r.job == Some(NewJob(if reverse then SliceNames.SortDescending(app.names) else app.names,
                              inDir, outDir, Parse(f).value, outputArea, segName))
      && BaseName(r.job.value.outImgDir) == CropId(Parse(f).value)
    ensures Inv(app) ==> Inv(r)
  {
    if !ParamsValid(f, s) then app
    else if app.phase == Running then app.(cancelled := true)
    else
      var p := Parse(f).value;
      var names := if reverse then SliceNames.SortDescending(app.names) else app.names;
      App(Running, false, app.names, Some(NewJob(names, inDir, outDir, p, outputArea, segName)), app.log)
  }

  // ---------------------------------------------------------------------
  // One step

  /** `np.empty((n, h, w))`: a slice whose contents are never read before
      being overwritten. */
  function Blank(h: nat, w: nat): Image {
    seq(h, _ => seq(w, _ => 0))
  }

  /** A fresh accumulator's `n` slices. */
  function Blanks(n: nat, h: nat, w: nat): (vol: seq<Image>)
    ensures |vol| == n
  {
    seq(n, _ => Blank(h, w))
  }

  /** Files with different output indices in one directory have different
      paths: no slice file of a job overwrites another. */
  lemma PathsDistinct(f1: Written, f2: Written)
    requires f1.dir == f2.dir && f1.index != f2.index
    ensures Path(f1) != Path(f2)
  {
    var n1 := SliceFileName(f1.index);
    var n2 := SliceFileName(f2.index);
    assert IsDigit(n1[..|n1| - 4][0]) && IsDigit(n2[..|n2| - 4][0]);
    if Path(f1) == Path(f2) {
      PathJoinInjective(f1.dir, n1, n2);
      SliceFileNameInjective(f1.index, f2.index);
    }
  }

  /** The processed slice of the job's current index. */
  function SliceOf(job: Job, read: string -> Image): Image
    requires JobOk(job) && 0 <= job.z < |job.names|
  {
    ProcessSlice(read(PathJoin(job.inDir, job.names[job.z])), job.params)
  }

  function Tags(job: Job): seq<(int, string)> {
    TiffTags.ExtraTags(job.outputArea, job.outImgDir, job.segName)
  }

  /** The file written for output index `k`. */
  function OutFile(job: Job, k: nat, img: Image): Written {
    Written(job.outImgDir, k, img, Tags(job))
  }

  /** The files for a whole depth-downscaled volume, indices `0..`. */
  function VolumeFiles(job: Job, vol: seq<Image>): (files: seq<Written>)
    ensures |files| == |vol|
    ensures forall k :: 0 <= k < |vol| ==> files[k] == OutFile(job, k, vol[k])
  {
    seq(|vol|, k requires 0 <= k < |vol| => OutFile(job, k, vol[k]))
  }

  /** The step has failed: the accumulator is dropped and the application
      is idle again, keeping the files written before the failure. */
  function Fail(app: App, written: seq<Written>): App {
    app.(phase := Idle, job := None, log := app.log + written)
  }

  /** What a step without cancellation computes: the accumulator after
      the slice and the files it writes, or `None` when the slice does not
      fit the accumulator (numpy refuses the assignment). */
  function Outcome(job: Job, img: Image): (o: Option<(Option<Volume>, seq<Written>)>)
    requires JobOk(job) && 0 <= job.z < |job.names|
    ensures job.params.z == 1 ==> o == Some((job.outVol, [OutFile(job, job.z, img)]))
    ensures job.params.z > 1 && job.outVol.Some? ==>
      (o.Some? <==> IsShape(img, job.outVol.value.h, job.outVol.value.w) && |job.outVol.value.slices| == |job.names|)
    ensures job.params.z > 1 && job.outVol.None? ==> (o.Some? <==> IsShape(img, |img|, Width(img)))
    ensures job.params.z > 1 && o.Some? ==>
      && o.value.0.Some? && |o.value.0.value.slices| == |job.names| && o.value.0.value.slices[job.z] == img
      && (job.z < |job.names| - 1 ==> o.value.1 == [])
      && (job.z == |job.names| - 1 ==> |o.value.1| == CeilDiv(|job.names|, job.params.z))
  {
    var n := |job.names|;
    if job.params.z == 1 then
      Some((job.outVol, [OutFile(job, job.z, img)]))
    else
      var acc := if job.outVol.Some? then job.outVol.value
                 else Volume(|img|, Width(img), Blanks(n, |img|, Width(img)));
      if !IsShape(img, acc.h, acc.w) || |acc.slices| != n then None
      else
        var acc' := acc.(slices := acc.slices[job.z := img]);
        if job.z < n - 1 then Some((Some(acc'), []))
        else
          var vol := DownscaleDepth(acc'.slices, job.params.z, acc.h, acc.w);
          Some((Some(acc'), VolumeFiles(job, vol)))
  }

  /** `process_next_slice`, given what reading the current slice yields
      and whether the step raises: `fault == Some(k)` makes it raise after
      its first `k` writes. */
  function Step(app: App, read: string -> Image, fault: Option<nat>): (r: App)
    requires Inv(app)
    ensures Inv(r)
    ensures r.names == app.names
    ensures |r.log| >= |app.log| && r.log[..|app.log|] == app.log
    ensures app.job.None? ==> r == app
    ensures app.job.Some? && app.cancelled ==> r == app.(cancelled := false, phase := Idle, job := None)
    ensures app.job.Some? && !app.cancelled && fault.Some? ==>
      r.phase == Idle && r.job.None? && r.cancelled == app.cancelled
    ensures r.phase == Running ==> r.job.value.z == app.job.value.z + 1 && r.job.value.names == app.job.value.names
  {
    match app.job
    case None => app
    case Some(job) =>
      if app.cancelled then app.(cancelled := false, phase := Idle, job := None)
      else if !(0 <= job.z < |job.names|) then Fail(app, [])
      else
        match Outcome(job, SliceOf(job, read))
        case None => Fail(app, [])
        case Some((acc, writes)) =>
          if fault.Some? then
            Fail(app, writes[..if fault.value < |writes| then fault.value else |writes|])
          else if job.z < |job.names| - 1 then
            app.(job := Some(job.(z := job.z + 1, outVol := acc)), log := app.log + writes)
          else
            app.(phase := Idle, job := None, log := app.log + writes)
  }

  /** A step before the last index whose slice was processed moves to the
      next index with the new accumulator and appends its writes. */
  lemma StepAdvances(app: App, read: string -> Image, acc: Option<Volume>, writes: seq<Written>)
    requires Inv(app) && app.job.Some? && !app.cancelled
    requires 0 <= app.job.value.z < |app.job.value.names| - 1
    requires Outcome(app.job.value, SliceOf(app.job.value, read)) == Some((acc, writes))
    ensures Step(app, read, None) ==
      app.(job := Some(app.job.value.(z := app.job.value.z + 1, outVol := acc)), log := app.log + writes)
  {
  }

  /** The step at the last index appends its writes and ends the job. */
  lemma StepFinishes(app: App, read: string -> Image, acc: Option<Volume>, writes: seq<Written>)
    requires Inv(app) && app.job.Some? && !app.cancelled
    requires 0 <= app.job.value.z == |app.job.value.names| - 1
    requires Outcome(app.job.value, SliceOf(app.job.value, read)) == Some((acc, writes))
    ensures Step(app, read, None) == app.(phase := Idle, job := None, log := app.log + writes)
  {
  }

  /** A step that raises after `m` writes keeps at most `m` of them and
      ends the job. */
  lemma StepFails(app: App, read: string -> Image, m: nat, acc: Option<Volume>, writes: seq<Written>)
    requires Inv(app) && app.job.Some? && !app.cancelled
    requires 0 <= app.job.value.z < |app.job.value.names|
    requires Outcome(app.job.value, SliceOf(app.job.value, read)) == Some((acc, writes))
    ensures Step(app, read, Some(m)) == Fail(app, writes[..if m < |writes| then m else |writes|])
  {
  }

  // ---------------------------------------------------------------------
  // Runs

  /** `k` steps with no cancellation and no failure. */
  function Run(app: App, read: string -> Image, k: nat): (r: App)
    requires Inv(app)
    ensures Inv(r)
    decreases k
  {
    if k == 0 then app else Step(Run(app, read, k - 1), read, None)
  }

  /** A run of `k` steps is one more step after a run of `k - 1`. */
  lemma RunSucc(app: App, read: string -> Image, k: nat)
    requires Inv(app) && k >= 1
    ensures Run(app, read, k) == Step(Run(app, read, k - 1), read, None)
  {
  }

  /** The processed slice of every input index, in listing order. */
  function Processed(job: Job, read: string -> Image): (imgs: seq<Image>)
    requires JobOk(job)
    ensures |imgs| == |job.names|
  {
    seq(|job.names|, i requires 0 <= i < |job.names| => SliceOf(job.(z := i), read))
  }

  /** Entry `i` of the processed slices is what a step at index `i`
      processes, whatever else the job holds. */
  lemma ProcessedAt(job: Job, read: string -> Image, j: Job)
    requires JobOk(job) && JobOk(j) && 0 <= j.z < |job.names|
    requires j.names == job.names && j.inDir == job.inDir && j.params == job.params
    ensures Processed(job, read)[j.z] == SliceOf(j, read)
  {
  }

  /** Appending a slice to a volume appends its file, under the next
      index. */
  lemma VolumeFilesSnoc(job: Job, vol: seq<Image>, img: Image)
    ensures VolumeFiles(job, vol + [img]) == VolumeFiles(job, vol) + [OutFile(job, |vol|, img)]
  {
    var files := VolumeFiles(job, vol + [img]);
    var want := VolumeFiles(job, vol) + [OutFile(job, |vol|, img)];
    forall k | 0 <= k < |files| ensures files[k] == want[k] {
      if k < |vol| {
        assert (vol + [img])[k] == vol[k];
      }
    }
  }

  lemma TakeSnoc<T>(s: seq<T>, k: nat)
    requires k < |s|
    ensures s[..k + 1] == s[..k] + [s[k]]
  {
  }

  lemma TakeAll<T>(s: seq<T>)
    ensures s[..|s|] == s
  {
  }

  lemma AppendAssoc<T>(a: seq<T>, b: seq<T>, c: seq<T>)
    ensures a + b + c == a + (b + c)
  {
  }

  /** A freshly started job. */
  predicate Fresh(app: App, job: Job) {
    Inv(app) && app.phase == Running && !app.cancelled && app.job == Some(job)
    && job.z == 0 && job.outVol.None?
  }

  /** The job as it stands before step `k`. */
  predicate AtStep(app: App, job: Job, k: nat, log: seq<Written>) {
    && app.phase == Running && !app.cancelled && app.job.Some?
    && app.job.value.z == k && app.job.value.names == job.names && app.job.value.params == job.params
    && app.job.value.inDir == job.inDir && app.job.value.outImgDir == job.outImgDir
    && app.job.value.outputArea == job.outputArea && app.job.value.segName == job.segName
    && app.log == log
  }

  /** One streaming step writes the current slice under its own index and
      moves to the next one, or finishes after the last. */
  lemma StreamingStep(app: App, job: Job, read: string -> Image, k: nat, log: seq<Written>)
    requires Inv(app) && JobOk(job) && job.params.z == 1 && 1 <= k <= |job.names|
    requires AtStep(app, job, k - 1, log)
    ensures var r := Step(app, read, None);
      && r.log == log + [OutFile(job, k - 1, Processed(job, read)[k - 1])]
      && (k < |job.names| ==> AtStep(r, job, k, r.log))
      && (k == |job.names| ==> r.phase == Idle && r.job.None?)
  {
    var j := app.job.value;
    var img := SliceOf(j, read);
    assert img == Processed(job, read)[k - 1];
    var file := OutFile(j, k - 1, img);
    assert Outcome(j, img) == Some((j.outVol, [file]));
    assert file == OutFile(job, k - 1, Processed(job, read)[k - 1]);
    if k < |job.names| {
      StepAdvances(app, read, j.outVol, [file]);
    } else {
      StepFinishes(app, read, j.outVol, [file]);
    }
  }

  /** The log after one more file of a volume: the files for one more
      slice. */
  lemma LogSnoc(job: Job, log: seq<Written>, imgs: seq<Image>, k: nat)
    requires 1 <= k <= |imgs|
    ensures log + VolumeFiles(job, imgs[..k - 1]) + [OutFile(job, k - 1, imgs[k - 1])] == log + VolumeFiles(job, imgs[..k])
  {
    TakeSnoc(imgs, k - 1);
    VolumeFilesSnoc(job, imgs[..k - 1], imgs[k - 1]);
    AppendAssoc(log, VolumeFiles(job, imgs[..k - 1]), [OutFile(job, k - 1, imgs[k - 1])]);
  }

  /** Step `k` of a streaming run, stated on runs. */
  lemma StreamingAdvance(app: App, job: Job, read: string -> Image, k: nat, before: seq<Written>)
    requires Fresh(app, job) && job.params.z == 1 && 1 <= k <= |job.names|
    requires AtStep(Run(app, read, k - 1), job, k - 1, before)
    ensures Run(app, read, k).log == before + [OutFile(job, k - 1, Processed(job, read)[k - 1])]
    ensures k < |job.names| ==> AtStep(Run(app, read, k), job, k, Run(app, read, k).log)
    ensures k == |job.names| ==> Run(app, read, k).phase == Idle
  {
    RunSucc(app, read, k);
    StreamingStep(Run(app, read, k - 1), job, read, k, before);
  }

  /** Streaming mode, before the last step: after `k` steps the files for
      slices `0..k-1` have been written, in order and under their input
      indices, and the job waits at index `k`. */
  lemma {:induction false} StreamingPrefix(app: App, job: Job, read: string -> Image, k: nat)
    requires Fresh(app, job) && job.params.z == 1 && k < |job.names|
    ensures AtStep(Run(app, read, k), job, k, app.log + VolumeFiles(job, Processed(job, read)[..k]))
    decreases k
  {
    var imgs := Processed(job, read);
    if k == 0 {
      assert VolumeFiles(job, imgs[..0]) == [];
    } else {
      StreamingPrefix(app, job, read, k - 1);
      StreamingAdvance(app, job, read, k, app.log + VolumeFiles(job, imgs[..k - 1]));
      LogSnoc(job, app.log, imgs, k);
    }
  }

  /** Streaming mode, whole run: one file per input slice, in listing
      order, then idle. */
  lemma StreamingRun(app: App, job: Job, read: string -> Image)
    requires Fresh(app, job) && job.params.z == 1 && |job.names| >= 1
    ensures Run(app, read, |job.names|).log == app.log + VolumeFiles(job, Processed(job, read))
    ensures Run(app, read, |job.names|).phase == Idle
  {
    var n := |job.names|;
    var imgs := Processed(job, read);
    StreamingPrefix(app, job, read, n - 1);
    StreamingAdvance(app, job, read, n, app.log + VolumeFiles(job, imgs[..n - 1]));
    LogSnoc(job, app.log, imgs, n);
    TakeAll(imgs);
  }

  /** A step that begins with the cancel flag set reads and writes
      nothing: the flag is cleared, the accumulator dropped and the
      application is idle. */
  lemma CancelledStep(app: App, read: string -> Image, fault: Option<nat>)
    requires Inv(app) && app.job.Some? && app.cancelled
    ensures Step(app, read, fault).log == app.log
    ensures Step(app, read, fault).phase == Idle && Step(app, read, fault).job.None?
    ensures !Step(app, read, fault).cancelled
  {
  }

  /** Pressing Create (now Cancel) after `k` streaming steps and before the
      next leaves exactly the files of slices `0..k-1`: with the click as
      written, whose fields are the ones the job was started with, and with
      the corrected click when the fields pass the corrected validator. */
  lemma CancelStreaming(app: App, job: Job, read: string -> Image, k: nat, f: Fields, s: Shape,
                        reverse: bool, inDir: string, outDir: string, outputArea: string, segName: string)
    requires Fresh(app, job) && job.params.z == 1 && k < |job.names| && ParamsValidAsWritten(f, s)
    ensures var cancelled := CreateClickAsWritten(Run(app, read, k), f, s, reverse, inDir, outDir, outputArea, segName);
      && Step(cancelled, read, None).log == app.log + VolumeFiles(job, Processed(job, read)[..k])
      && Step(cancelled, read, None).phase == Idle
    ensures ParamsValid(f, s) ==>
      var cancelled := CreateClick(Run(app, read, k), f, s, reverse, inDir, outDir, outputArea, segName);
      && Step(cancelled, read, None).log == app.log + VolumeFiles(job, Processed(job, read)[..k])
      && Step(cancelled, read, None).phase == Idle
  {
    StreamingPrefix(app, job, read, k);
  }

  // ---------------------------------------------------------------------
  // Buffered mode (depth factor above one)

  /** Every processed slice has the shape `h` by `w` that the first one
      fixes for the accumulator. */
  predicate Uniform(job: Job, read: string -> Image, h: nat, w: nat)
    requires JobOk(job)
  {
    var imgs := Processed(job, read);
    && |imgs| >= 1 && |imgs[0]| == h && Width(imgs[0]) == w
    && forall i :: 0 <= i < |imgs| ==> IsShape(imgs[i], h, w)
  }

  /** With the corrected checks and input slices of the announced size,
      every processed slice has the announced output size, so the
      accumulator never refuses a slice. */
  lemma UniformOfChecked(job: Job, read: string -> Image, s: Shape)
    requires JobOk(job) && Checked(job.params, s) && |job.names| >= 1
    requires forall i :: 0 <= i < |job.names| ==>
      IsShape(read(PathJoin(job.inDir, job.names[i])), s.height, s.width)
    ensures Uniform(job, read, OutputSizeOf(job.params, s).height, OutputSizeOf(job.params, s).width)
  {
    var o := OutputSizeOf(job.params, s);
    var imgs := Processed(job, read);
    forall i | 0 <= i < |imgs| ensures IsShape(imgs[i], o.height, o.width) {
      ProcessedSliceSize(read(PathJoin(job.inDir, job.names[i])), job.params, s);
    }
    if o.height <= 0 {
      MulNonpositive(job.params.xy, o.height);
      assert false;
    }
  }

  /** The accumulator before step `k` of a buffered run: none before the
      first step, afterwards `h` by `w` with slices `0..k-1` filled in. */
  predicate Buffered(app: App, job: Job, read: string -> Image, k: nat, h: nat, w: nat, log: seq<Written>)
    requires JobOk(job)
  {
    && AtStep(app, job, k, log) && k <= |job.names|
    && (k == 0 ==> app.job.value.outVol.None?)
    && (k > 0 ==>
          && app.job.value.outVol.Some?
          && var acc := app.job.value.outVol.value;
          && acc.h == h && acc.w == w && |acc.slices| == |job.names|
          && acc.slices[..k] == Processed(job, read)[..k])
  }

  /** The files of a volume depend only on the job's output directory and
      tags, not on where the job stands. */
  lemma VolumeFilesSameOutput(j1: Job, j2: Job, vol: seq<Image>)
    requires j1.outImgDir == j2.outImgDir && j1.outputArea == j2.outputArea && j1.segName == j2.segName
    ensures VolumeFiles(j1, vol) == VolumeFiles(j2, vol)
  {
    assert Tags(j1) == Tags(j2);
    forall k | 0 <= k < |vol| ensures OutFile(j1, k, vol[k]) == OutFile(j2, k, vol[k]) {
    }
  }

  /** What a buffered step computes from a slice that fits: the slice is
      stored at the current index, and only the last index writes the
      depth-downscaled volume. */
  lemma BufferedOutcome(j: Job, img: Image, h: nat, w: nat)
    requires JobOk(j) && j.params.z >= 2 && 0 <= j.z < |j.names| && IsShape(img, h, w)
    requires j.outVol.None? ==> |img| == h && Width(img) == w
    requires j.outVol.Some? ==> j.outVol.value.h == h && j.outVol.value.w == w && |j.outVol.value.slices| == |j.names|
    ensures var before := if j.outVol.Some? then j.outVol.value.slices else Blanks(|j.names|, h, w);
      var filled := before[j.z := img];
      Outcome(j, img) == Some((Some(Volume(h, w, filled)),
                               if j.z < |j.names| - 1 then [] else VolumeFiles(j, DownscaleDepth(filled, j.params.z, h, w))))
  {
  }

  /** Storing the next item of `imgs` into a sequence that agrees with
      it on a prefix extends the agreement by one. */
  lemma FillNext<T>(before: seq<T>, imgs: seq<T>, k: nat)
    requires |before| == |imgs| && 1 <= k <= |imgs| && before[..k - 1] == imgs[..k - 1]
    ensures before[k - 1 := imgs[k - 1]][..k] == imgs[..k]
    ensures k == |imgs| ==> before[k - 1 := imgs[k - 1]] == imgs
  {
    var filled := before[k - 1 := imgs[k - 1]];
    forall i | 0 <= i < k ensures filled[i] == imgs[i] {
      if i < k - 1 {
        assert filled[i] == before[..k - 1][i];
      }
    }
    assert filled[..k] == imgs[..k];
    if k == |imgs| {
      assert filled == filled[..k];
    }
  }

  /** The accumulator contents a buffered step at index `k` starts from. */
  function Before(app: App, n: nat, h: nat, w: nat): seq<Image>
    requires app.job.Some?
  {
    if app.job.value.outVol.Some? then app.job.value.outVol.value.slices else Blanks(n, h, w)
  }

  /** The accumulator a buffered step at index `k - 1` leaves: slices
      `0..k-1` filled in, and all of them after the last step. */
  lemma BufferedFill(app: App, job: Job, read: string -> Image, k: nat, h: nat, w: nat, log: seq<Written>)
    requires Inv(app) && JobOk(job) && 1 <= k <= |job.names| && Buffered(app, job, read, k - 1, h, w, log)
    ensures var filled := Before(app, |job.names|, h, w)[k - 1 := Processed(job, read)[k - 1]];
      && |filled| == |job.names|
      && filled[..k] == Processed(job, read)[..k]
      && (k == |job.names| ==> filled == Processed(job, read))
  {
    var imgs := Processed(job, read);
    var before := Before(app, |job.names|, h, w);
    assert before[..k - 1] == imgs[..k - 1] by {
      if k == 1 {
        assert before[..0] == [] == imgs[..0];
      }
    }
    FillNext(before, imgs, k);
  }

  /** A buffered step before the last stores the slice and writes
      nothing. */
  lemma BufferedStepMiddle(app: App, job: Job, read: string -> Image, k: nat, h: nat, w: nat, log: seq<Written>)
    requires Inv(app) && JobOk(job) && job.params.z >= 2 && Uniform(job, read, h, w)
    requires 1 <= k < |job.names| && Buffered(app, job, read, k - 1, h, w, log)
    ensures Buffered(Step(app, read, None), job, read, k, h, w, log)
  {
    var j := app.job.value;
    var img := Processed(job, read)[k - 1];
    assert SliceOf(j, read) == img by {
      ProcessedAt(job, read, j);
    }
    MiddleStepState(app, read, img, h, w);
    var filled := Before(app, |job.names|, h, w)[k - 1 := img];
    BufferedFill(app, job, read, k, h, w, log);
    BufferedOfParts(Step(app, read, None), job, read, k, h, w, log, filled);
  }

  /** The state a buffered step before the last leaves: the next index
      and the accumulator with the slice stored, nothing written. */
  lemma MiddleStepState(app: App, read: string -> Image, img: Image, h: nat, w: nat)
    requires Inv(app) && app.job.Some? && !app.cancelled
    requires JobOk(app.job.value) && app.job.value.params.z >= 2
    requires 0 <= app.job.value.z < |app.job.value.names| - 1
    requires SliceOf(app.job.value, read) == img && IsShape(img, h, w)
    requires app.job.value.outVol.None? ==> |img| == h && Width(img) == w
    requires app.job.value.outVol.Some? ==>
      && app.job.value.outVol.value.h == h && app.job.value.outVol.value.w == w
      && |app.job.value.outVol.value.slices| == |app.job.value.names|
    ensures var j := app.job.value;
      var filled := Before(app, |j.names|, h, w)[j.z := img];
      Step(app, read, None) == app.(job := Some(j.(z := j.z + 1, outVol := Some(Volume(h, w, filled)))))
  {
    var j := app.job.value;
    var filled := Before(app, |j.names|, h, w)[j.z := img];
    assert Outcome(j, img) == Some((Some(Volume(h, w, filled)), [])) by {
      BufferedOutcome(j, img, h, w);
    }
    assert app.log + [] == app.log;
    StepAdvances(app, read, Some(Volume(h, w, filled)), []);
  }

  /** The accumulator state after step `k`, assembled from its parts. */
  lemma BufferedOfParts(app: App, job: Job, read: string -> Image, k: nat, h: nat, w: nat, log: seq<Written>,
                        filled: seq<Image>)
    requires JobOk(job) && 1 <= k <= |job.names| && AtStep(app, job, k, log)
    requires app.job.value.outVol == Some(Volume(h, w, filled))
    requires |filled| == |job.names| && filled[..k] == Processed(job, read)[..k]
    ensures Buffered(app, job, read, k, h, w, log)
  {
  }

  /** The last buffered step writes the depth-downscaled volume of all the
      processed slices and ends the job. */
  lemma BufferedStepLast(app: App, job: Job, read: string -> Image, h: nat, w: nat, log: seq<Written>)
    requires Inv(app) && JobOk(job) && job.params.z >= 2 && Uniform(job, read, h, w)
    requires Buffered(app, job, read, |job.names| - 1, h, w, log)
    ensures var r := Step(app, read, None);
      && r.phase == Idle && r.job.None?
      && r.log == log + VolumeFiles(job, DownscaleDepth(Processed(job, read), job.params.z, h, w))
  {
    var n := |job.names|;
    var j := app.job.value;
    var imgs := Processed(job, read);
    var img := SliceOf(j, read);
    assert img == imgs[n - 1];
    var filled := Before(app, n, h, w)[n - 1 := img];
    BufferedFill(app, job, read, n, h, w, log);
    var files := VolumeFiles(j, DownscaleDepth(filled, job.params.z, h, w));
    assert Outcome(j, img) == Some((Some(Volume(h, w, filled)), files)) by {
      BufferedOutcome(j, img, h, w);
    }
    assert files == VolumeFiles(job, DownscaleDepth(imgs, job.params.z, h, w)) by {
      VolumeFilesSameOutput(j, job, DownscaleDepth(imgs, job.params.z, h, w));
    }
    StepFinishes(app, read, Some(Volume(h, w, filled)), files);
  }

  /** One buffered step stores the current slice and writes nothing,
      except the last, which writes the depth-downscaled volume and ends
      the job. */
  lemma BufferedStep(app: App, job: Job, read: string -> Image, k: nat, h: nat, w: nat, log: seq<Written>)
    requires Inv(app) && JobOk(job) && job.params.z >= 2 && Uniform(job, read, h, w)
    requires 1 <= k <= |job.names| && Buffered(app, job, read, k - 1, h, w, log)
    ensures var r := Step(app, read, None);
      && (k < |job.names| ==> Buffered(r, job, read, k, h, w, log))
      && (k == |job.names| ==>
            && r.phase == Idle && r.job.None?
            && r.log == log + VolumeFiles(job, DownscaleDepth(Processed(job, read), job.params.z, h, w)))
  {
    if k < |job.names| {
      BufferedStepMiddle(app, job, read, k, h, w, log);
    } else {
      BufferedStepLast(app, job, read, h, w, log);
    }
  }

  /** Step `k` of a buffered run, stated on runs. */
  lemma BufferedAdvance(app: App, job: Job, read: string -> Image, k: nat, h: nat, w: nat)
    requires Fresh(app, job) && job.params.z >= 2 && Uniform(job, read, h, w) && 1 <= k <= |job.names|
    requires Buffered(Run(app, read, k - 1), job, read, k - 1, h, w, app.log)
    ensures k < |job.names| ==> Buffered(Run(app, read, k), job, read, k, h, w, app.log)
    ensures k == |job.names| ==>
      && Run(app, read, k).phase == Idle
      && Run(app, read, k).log == app.log + VolumeFiles(job, DownscaleDepth(Processed(job, read), job.params.z, h, w))
  {
    RunSucc(app, read, k);
    BufferedStep(Run(app, read, k - 1), job, read, k, h, w, app.log);
  }

  /** Buffered mode, step by step: after `k` steps short of the last,
      nothing has been written and slices `0..k-1` are held in the
      accumulator; after the last, the depth-downscaled volume has been
      written and the job has ended. */
  lemma {:induction false} BufferedPrefix(app: App, job: Job, read: string -> Image, k: nat, h: nat, w: nat)
    requires Fresh(app, job) && job.params.z >= 2 && Uniform(job, read, h, w) && k <= |job.names|
    ensures k < |job.names| ==> Buffered(Run(app, read, k), job, read, k, h, w, app.log)
    ensures k == |job.names| ==>
      && Run(app, read, k).phase == Idle
      && Run(app, read, k).log == app.log + VolumeFiles(job, DownscaleDepth(Processed(job, read), job.params.z, h, w))
    decreases k
  {
    if k > 0 {
      BufferedPrefix(app, job, read, k - 1, h, w);
      BufferedAdvance(app, job, read, k, h, w);
    }
  }

  /** Buffered mode, whole run: the last step writes the slices of the
      depth-downscaled volume, `ceil(n / z)` of them, then the job ends. */
  lemma BufferedRun(app: App, job: Job, read: string -> Image, h: nat, w: nat)
    requires Fresh(app, job) && job.params.z >= 2 && Uniform(job, read, h, w)
    ensures var r := Run(app, read, |job.names|);
      && r.log == app.log + VolumeFiles(job, DownscaleDepth(Processed(job, read), job.params.z, h, w))
      && |r.log| == |app.log| + CeilDiv(|job.names|, job.params.z)
      && r.phase == Idle
  {
    var out := DownscaleDepth(Processed(job, read), job.params.z, h, w);
    BufferedPrefix(app, job, read, |job.names|, h, w);
    assert |VolumeFiles(job, out)| == CeilDiv(|job.names|, job.params.z);
  }

  /** With a depth factor of one the buffered formula writes exactly what
      streaming writes: the two modes agree. */
  lemma StreamingIsBufferedByOne(job: Job, read: string -> Image, h: nat, w: nat)
    requires JobOk(job) && Uniform(job, read, h, w)
    ensures VolumeFiles(job, DownscaleDepth(Processed(job, read), 1, h, w)) == VolumeFiles(job, Processed(job, read))
  {
    DownscaleDepthByOne(Processed(job, read), h, w);
  }

  /** Cancelling a buffered run before its last step leaves no file, with
      the click as written and with the corrected one. */
  lemma CancelBuffered(app: App, job: Job, read: string -> Image, k: nat, h: nat, w: nat, f: Fields, s: Shape,
                       reverse: bool, inDir: string, outDir: string, outputArea: string, segName: string)
    requires Fresh(app, job) && job.params.z >= 2 && Uniform(job, read, h, w) && k < |job.names|
    requires ParamsValidAsWritten(f, s)
    ensures var cancelled := CreateClickAsWritten(Run(app, read, k), f, s, reverse, inDir, outDir, outputArea, segName);
      && Step(cancelled, read, None).log == app.log
      && Step(cancelled, read, None).phase == Idle
    ensures ParamsValid(f, s) ==>
      var cancelled := CreateClick(Run(app, read, k), f, s, reverse, inDir, outDir, outputArea, segName);
      && Step(cancelled, read, None).log == app.log
      && Step(cancelled, read, None).phase == Idle
  {
    BufferedPrefix(app, job, read, k, h, w);
  }

  // ---------------------------------------------------------------------
  // Failures

  /** A streaming step that raises after `m` writes keeps the slice file
      only when it was written before the failure, and ends the job. */
  lemma StreamingFault(app: App, job: Job, read: string -> Image, k: nat, log: seq<Written>, m: nat)
    requires Inv(app) && JobOk(job) && job.params.z == 1 && AtStep(app, job, k, log) && k < |job.names|
    ensures var r := Step(app, read, Some(m));
      && r.phase == Idle && r.job.None?
      && r.log == log + (if m == 0 then [] else [OutFile(job, k, SliceOf(job.(z := k), read))])
  {
    var j := app.job.value;
    var img := SliceOf(j, read);
    assert img == SliceOf(job.(z := k), read);
    var writes := [OutFile(j, k, img)];
    assert Outcome(j, img) == Some((j.outVol, writes));
    assert OutFile(j, k, img) == OutFile(job, k, SliceOf(job.(z := k), read));
    if m == 0 {
      assert writes[..0] == [];
    } else {
      assert writes[..1] == writes;
    }
  }

  /** A buffered step that raises before the last slice writes nothing and
      drops the accumulator: the next Create, as written or corrected,
      starts from an empty one. */
  lemma BufferedFault(app: App, job: Job, read: string -> Image, k: nat, h: nat, w: nat, log: seq<Written>,
                      m: nat, f: Fields, s: Shape, reverse: bool, inDir: string, outDir: string,
                      outputArea: string, segName: string)
    requires Inv(app) && JobOk(job) && job.params.z >= 2 && Uniform(job, read, h, w)
    requires Buffered(app, job, read, k, h, w, log) && k < |job.names| - 1 && ParamsValidAsWritten(f, s)
    ensures var r := Step(app, read, Some(m));
      && r.phase == Idle && r.log == log
      && var again := CreateClickAsWritten(r, f, s, reverse, inDir, outDir, outputArea, segName);
      && Fresh(again, again.job.value)
    ensures ParamsValid(f, s) ==>
      var again := CreateClick(Step(app, read, Some(m)), f, s, reverse, inDir, outDir, outputArea, segName);
      Fresh(again, again.job.value)
  {
    var j := app.job.value;
    var img := SliceOf(j, read);
    assert img == Processed(job, read)[k];
    var before := if j.outVol.Some? then j.outVol.value.slices else Blanks(|j.names|, h, w);
    assert Outcome(j, img) == Some((Some(Volume(h, w, before[j.z := img])), [])) by {
      BufferedOutcome(j, img, h, w);
    }
    StepFails(app, read, m, Some(Volume(h, w, before[j.z := img])), []);
    assert log + [][..0] == log;
  }

  // ---------------------------------------------------------------------
  // The reverse-sort box

  /** As written, ticking the reverse box once reverses the listing for
      every later run: start reversed on `a.tif, b.tif`, cancel, then start
      again with the box cleared, and the job still gets `b.tif, a.tif`;
      the corrected click gives `a.tif, b.tif`. */
  lemma ReverseOrderPersists(app: App, f: Fields, s: Shape, read: string -> Image, inDir: string,
                             outDir: string, outputArea: string, segName: string)
    requires Inv(app) && app.phase == Idle && ParamsValid(f, s) && app.names == ["a.tif", "b.tif"]
    ensures var started := CreateClickAsWritten(app, f, s, true, inDir, outDir, outputArea, segName);
      var stopped := Step(CreateClickAsWritten(started, f, s, true, inDir, outDir, outputArea, segName), read, None);
      var again := CreateClickAsWritten(stopped, f, s, false, inDir, outDir, outputArea, segName);
      again.job.value.names == ["b.tif", "a.tif"]
    ensures var started := CreateClick(app, f, s, true, inDir, outDir, outputArea, segName);
      var stopped := Step(CreateClick(started, f, s, true, inDir, outDir, outputArea, segName), read, None);
      var again := CreateClick(stopped, f, s, false, inDir, outDir, outputArea, segName);
      again.job.value.names == ["a.tif", "b.tif"]
  {
    var names := app.names;
    assert SliceNames.Less(names[0], names[1]);
    assert SliceNames.Ascending(names);
    SliceNames.SortKeepsAscending(names);
    assert SliceNames.SortDescending(names) == ["b.tif", "a.tif"];
  }
}

=== FILE: crop_params.dfy ===
/** The crop parameters of src/cropper/cropper.py: the validator, the
    announced output size, the crop id that names the output directory, and
    the output directory itself. */
module CropParams {
  import opened Options
  import opened Decimal

  /** The six entry fields after `int(...)`: `None` where `int` raises. */
  datatype Fields = Fields(xy: Option<int>, z: Option<int>, right: Option<int>,
                           bottom: Option<int>, left: Option<int>, top: Option<int>)

  /** Parsed crop parameters: the inclusive crop rectangle and the lateral
      (`xy`) and depth (`z`) downsampling factors. */
  datatype Params = Params(left: int, top: int, right: int, bottom: int, xy: int, z: int)

  /** `segment_shape`, in (z, y, x) order: the number of input slices and
      the height and width of a slice. */
  datatype Shape = Shape(depth: int, height: int, width: int)

  /** The shape assumed before any input directory is chosen. */
  const DefaultShape: Shape := Shape(64, 1024, 1024)

  /** All six fields parse, giving these parameters; otherwise `None`. */
  function Parse(f: Fields): (p: Option<Params>)
    ensures p.Some? <==>
      f.xy.Some? && f.z.Some? && f.right.Some? && f.bottom.Some? && f.left.Some? && f.top.Some?
    ensures p.Some? ==>
      && p.value.left == f.left.value && p.value.top == f.top.value
      && p.value.right == f.right.value && p.value.bottom == f.bottom.value
      && p.value.xy == f.xy.value && p.value.z == f.z.value
  {
    match (f.xy, f.z, f.right, f.bottom, f.left, f.top)
    case (Some(xy), Some(z), Some(right), Some(bottom), Some(left), Some(top)) =>
      Some(Params(left, top, right, bottom, xy, z))
    case _ => None
  }

  /** The conditions `crop_params_are_valid` checks on parsed parameters.
      The top edge is compared with the height only from above and the
      bottom edge not at all. */
  predicate CheckedAsWritten(p: Params, s: Shape) {
    && p.xy > 0 && p.z > 0 && p.left >= 0 && p.right >= p.left
    && p.bottom >= p.top && p.top < s.height && p.right < s.width
  }

  /** `crop_params_are_valid()` as written. */
  function ParamsValidAsWritten(f: Fields, s: Shape): (b: bool)
    ensures b <==>
      && f.xy.Some? && f.z.Some? && f.right.Some? && f.bottom.Some? && f.left.Some? && f.top.Some?
      && f.xy.value > 0 && f.z.value > 0 && f.left.value >= 0 && f.right.value >= f.left.value
      && f.bottom.value >= f.top.value && f.top.value < s.height && f.right.value < s.width
  {
    var p := Parse(f);
    p.Some? && CheckedAsWritten(p.value, s)
  }

  /** The checks with the two missing bounds added: the crop rectangle
      lies inside the slice on all four sides. */
  predicate Checked(p: Params, s: Shape) {
    CheckedAsWritten(p, s) && p.top >= 0 && p.bottom < s.height
  }

  /** The corrected validator, which the job uses: what the code accepts,
      minus the rectangles that stick out above or below the slice. */
  function ParamsValid(f: Fields, s: Shape): (b: bool)
    ensures b <==> ParamsValidAsWritten(f, s) && f.top.value >= 0 && f.bottom.value < s.height
    ensures b ==> 0 <= f.left.value <= f.right.value < s.width && 0 <= f.top.value <= f.bottom.value < s.height
  {
    var p := Parse(f);
    p.Some? && Checked(p.value, s)
  }

  /** Python `math.ceil(a / b)` for a positive `b`: the least `q` with
      `a <= b*q`. */
  function CeilDiv(a: int, b: int): (q: int)
    requires b > 0
    ensures b * (q - 1) < a <= b * q
  {
    var k := (-a) / b;
    assert -a == b * k + (-a) % b;
    -k
  }

  lemma CeilDivNonnegative(a: int, b: int)
    requires a >= 0 && b > 0
    ensures CeilDiv(a, b) >= 0
  {
    var q := CeilDiv(a, b);
    if q < 0 {
      MulNonpositive(b, q);
    }
  }

  lemma CeilDivOne(a: int)
    ensures CeilDiv(a, 1) == a
  {
  }

  lemma CeilDivPositive(a: int, b: int)
    requires a >= 1 && b > 0
    ensures 1 <= CeilDiv(a, b) <= a
  {
    var q := CeilDiv(a, b);
    if q <= 0 {
      MulNonpositive(b, q);
    }
    if q > a {
      MulAtLeast(b, q - 1);
    }
  }

  lemma MulNonpositive(b: int, x: int)
    requires b > 0 && x <= 0
    ensures b * x <= 0
  {
  }

  lemma MulAtLeast(b: int, x: int)
    requires b >= 1 && x >= 0
    ensures b * x >= x
  {
    assert b * x == (b - 1) * x + x;
  }

  /** The announced output volume in voxels: width, height, depth. */
  datatype OutputSize = OutputSize(width: int, height: int, depth: int)

  /** The size arithmetic of `update_out_vol_text`: the crop rectangle
      divided by the lateral factor and the slice count divided by the
      depth factor, each rounded up. */
  function OutputSizeOf(p: Params, s: Shape): (o: OutputSize)
    requires p.xy > 0 && p.z > 0
    ensures p.xy * (o.width - 1) < p.right - p.left + 1 <= p.xy * o.width
    ensures p.xy * (o.height - 1) < p.bottom - p.top + 1 <= p.xy * o.height
    ensures p.z * (o.depth - 1) < s.depth <= p.z * o.depth
  {
    OutputSize(CeilDiv(p.right - p.left + 1, p.xy), CeilDiv(p.bottom - p.top + 1, p.xy), CeilDiv(s.depth, p.z))
  }

  /** The announced size in bytes: two bytes per voxel (`uint16`). */
  function OutputBytes(o: OutputSize): (n: int)
    ensures o.width >= 0 && o.height >= 0 && o.depth >= 0 ==> n >= 0 && n % 2 == 0
  {
    o.width * o.height * o.depth * 2
  }

  /** Accepted parameters announce a volume of at least one voxel in every
      direction (for a non-empty stack) and of at most the crop rectangle;
      without lateral downsampling the slice size is the rectangle's. */
  lemma OutputSizeBounds(p: Params, s: Shape)
    requires CheckedAsWritten(p, s)
    ensures 1 <= OutputSizeOf(p, s).width <= p.right - p.left + 1
    ensures 1 <= OutputSizeOf(p, s).height <= p.bottom - p.top + 1
    ensures s.depth >= 1 ==> 1 <= OutputSizeOf(p, s).depth <= s.depth
    ensures p.xy == 1 ==> OutputSizeOf(p, s).width == p.right - p.left + 1
    ensures p.xy == 1 ==> OutputSizeOf(p, s).height == p.bottom - p.top + 1
    ensures p.z == 1 ==> OutputSizeOf(p, s).depth == s.depth
  {
    CeilDivPositive(p.right - p.left + 1, p.xy);
    CeilDivPositive(p.bottom - p.top + 1, p.xy);
    if s.depth >= 1 {
      CeilDivPositive(s.depth, p.z);
    }
  }

  /** The announced byte count of accepted parameters lies between one
      voxel's two bytes and two bytes for every voxel of the cropped,
      undownsampled stack, and equals the latter when neither factor
      downsamples. */
  lemma OutputBytesBounds(p: Params, s: Shape)
    requires CheckedAsWritten(p, s)
    ensures s.depth >= 1 ==>
      2 <= OutputBytes(OutputSizeOf(p, s)) <= 2 * ((p.right - p.left + 1) * (p.bottom - p.top + 1) * s.depth)
    ensures p.xy == 1 && p.z == 1 ==>
      OutputBytes(OutputSizeOf(p, s)) == 2 * ((p.right - p.left + 1) * (p.bottom - p.top + 1) * s.depth)
  {
    OutputSizeBounds(p, s);
    var o := OutputSizeOf(p, s);
    var w, h, d := p.right - p.left + 1, p.bottom - p.top + 1, s.depth;
    if d >= 1 {
      VolumeWithin(o.width, o.height, o.depth, w, h, d);
    }
    if p.xy == 1 && p.z == 1 {
      assert o == OutputSize(w, h, d);
    }
  }

  /** A box inside another holds at least one and at most as many cells. */
  lemma VolumeWithin(a: int, b: int, c: int, wa: int, wb: int, wc: int)
    requires 1 <= a <= wa && 1 <= b <= wb && 1 <= c <= wc
    ensures 1 <= a * b * c <= wa * wb * wc
  {
    assert 1 <= a * b <= wa * b <= wa * wb by {
      MulMono(a, wa, b);
      MulMono(b, wb, wa);
    }
    MulMono(a * b, wa * wb, c);
    MulMono(c, wc, wa * wb);
  }

  lemma MulMono(x: int, y: int, k: int)
    requires 1 <= x <= y && k >= 1
    ensures 1 <= x * k <= y * k && k * x <= k * y
  {
    assert y * k == x * k + (y - x) * k;
    MulAtLeast(k, y - x);
  }

  // ---------------------------------------------------------------------
  // The crop id and the output directory

  predicate Avoids(s: string, c: char) {
    forall i :: 0 <= i < |s| ==> s[i] != c
  }

  /** The pieces joined with underscores, as `'_'.join(pieces)`: the
      first piece comes first. */
  function JoinUnderscore(pieces: seq<string>): (s: string)
    requires |pieces| >= 1
    ensures |s| >= |pieces[0]| && s[..|pieces[0]|] == pieces[0]
    decreases |pieces|
  {
    if |pieces| == 1 then pieces[0]
    else
      var s := pieces[0] + "_" + JoinUnderscore(pieces[1..]);
      assert s[..|pieces[0]|] == pieces[0];
      s
  }

  /** A character other than `_` that no piece holds is not in the join. */
  lemma {:induction false} JoinAvoids(pieces: seq<string>, c: char)
    requires |pieces| >= 1 && c != '_'
    requires forall k :: 0 <= k < |pieces| ==> Avoids(pieces[k], c)
    ensures Avoids(JoinUnderscore(pieces), c)
    decreases |pieces|
  {
    if |pieces| > 1 {
      assert forall k :: 0 <= k < |pieces[1..]| ==> Avoids(pieces[1..][k], c) by {
        forall k | 0 <= k < |pieces[1..]| ensures pieces[1..][k] == pieces[k + 1] {
        }
      }
      JoinAvoids(pieces[1..], c);
    }
  }

  /** The pieces of `crop_id_str`: `L<left>`, `T<top>`, `R<right>`,
      `B<bottom>`, `D<xy>` and `<z>`. */
  function CropIdPieces(p: Params): seq<string> {
    ["L" + IntToString(p.left), "T" + IntToString(p.top), "R" + IntToString(p.right),
     "B" + IntToString(p.bottom), "D" + IntToString(p.xy), IntToString(p.z)]
  }

  lemma IntToStringAvoids(i: int, c: char)
    requires c != '-' && !IsDigit(c)
    ensures Avoids(IntToString(i), c)
  {
    var s := IntToString(i);
    forall k | 0 <= k < |s| ensures s[k] != c {
      if k > 0 {
        assert s[1..][k - 1] == s[k];
      } else if i >= 0 {
        assert IsDigit(s[0]);
      }
    }
  }

  lemma CropIdPiecesAvoid(p: Params, c: char)
    requires c != '-' && !IsDigit(c) && c !in "LTRBD"
    ensures forall k :: 0 <= k < 6 ==> Avoids(CropIdPieces(p)[k], c)
  {
    IntToStringAvoids(p.left, c);
    IntToStringAvoids(p.top, c);
    IntToStringAvoids(p.right, c);
    IntToStringAvoids(p.bottom, c);
    IntToStringAvoids(p.xy, c);
    IntToStringAvoids(p.z, c);
  }

  /** `crop_id_str`: `L<left>_T<top>_R<right>_B<bottom>_D<xy>_<z>`. The
      text starts with `L` and holds no path separator. */
  function CropId(p: Params): (id: string)
    ensures |id| >= 1 && id[0] == 'L'
    ensures Avoids(id, '/')
  {
    CropIdPiecesAvoid(p, '/');
    JoinAvoids(CropIdPieces(p), '/');
    JoinUnderscore(CropIdPieces(p))
  }

  /** The pieces of `s` between underscores, in order (Python's
      `s.split('_')`). */
  function SplitUnderscore(s: string): (parts: seq<string>)
    ensures |parts| >= 1
    decreases |s|
  {
    if |s| == 0 then [""]
    else if s[0] == '_' then [""] + SplitUnderscore(s[1..])
    else
      var rest := SplitUnderscore(s[1..]);
      [[s[0]] + rest[0]] + rest[1..]
  }

  lemma {:induction false} SplitJoin(a: string, b: string)
    requires Avoids(a, '_')
    ensures SplitUnderscore(a + "_" + b) == [a] + SplitUnderscore(b)
    decreases |a|
  {
    if |a| == 0 {
      assert a + "_" + b == "_" + b;
      assert ("_" + b)[1..] == b;
    } else {
      assert (a + "_" + b)[1..] == a[1..] + "_" + b;
      SplitJoin(a[1..], b);
      assert [a[0]] + a[1..] == a;
    }
  }

  lemma {:induction false} SplitNone(a: string)
    requires Avoids(a, '_')
    ensures SplitUnderscore(a) == [a]
    decreases |a|
  {
    if |a| > 0 {
      SplitNone(a[1..]);
      assert [a[0]] + a[1..] == a;
    }
  }

  /** Splitting undoes joining when no piece holds an underscore. */
  lemma {:induction false} SplitOfJoin(pieces: seq<string>)
    requires |pieces| >= 1
    requires forall k :: 0 <= k < |pieces| ==> Avoids(pieces[k], '_')
    ensures SplitUnderscore(JoinUnderscore(pieces)) == pieces
    decreases |pieces|
  {
    if |pieces| == 1 {
      SplitNone(pieces[0]);
    } else {
      assert forall k :: 0 <= k < |pieces[1..]| ==> Avoids(pieces[1..][k], '_') by {
        forall k | 0 <= k < |pieces[1..]| ensures pieces[1..][k] == pieces[k + 1] {
        }
      }
      SplitOfJoin(pieces[1..]);
      SplitJoin(pieces[0], JoinUnderscore(pieces[1..]));
      assert [pieces[0]] + pieces[1..] == pieces;
    }
  }

  /** The number after the one-letter tag `tag`. */
  function TaggedInt(part: string, tag: char): Option<int> {
    if |part| >= 1 && part[0] == tag then ReadInt(part[1..]) else None
  }

  /** Reads a crop id back into the parameters it was made from. */
  function ParseCropId(id: string): (p: Option<Params>)
    ensures p.Some? ==> |SplitUnderscore(id)| == 6
  {
    var parts := SplitUnderscore(id);
    if |parts| != 6 then None
    else
      match (TaggedInt(parts[0], 'L'), TaggedInt(parts[1], 'T'), TaggedInt(parts[2], 'R'),
             TaggedInt(parts[3], 'B'), TaggedInt(parts[4], 'D'), ReadInt(parts[5]))
      case (Some(left), Some(top), Some(right), Some(bottom), Some(xy), Some(z)) =>
        Some(Params(left, top, right, bottom, xy, z))
      case _ => None
  }

  lemma TaggedIntOf(tag: char, i: int)
    ensures TaggedInt([tag] + IntToString(i), tag) == Some(i)
  {
    assert ([tag] + IntToString(i))[1..] == IntToString(i);
    ReadIntOfString(i);
  }

  /** The crop id loses nothing: the six parameters can be read back from
      it. */
  lemma ParseCropIdOfCropId(p: Params)
    ensures ParseCropId(CropId(p)) == Some(p)
  {
    var pieces := CropIdPieces(p);
    CropIdPiecesAvoid(p, '_');
    SplitOfJoin(pieces);
    TaggedIntOf('L', p.left);
    TaggedIntOf('T', p.top);
    TaggedIntOf('R', p.right);
    TaggedIntOf('B', p.bottom);
    TaggedIntOf('D', p.xy);
    ReadIntOfString(p.z);
  }

  /** Different parameters never share an output directory name. */
  lemma CropIdInjective(p: Params, q: Params)
    requires CropId(p) == CropId(q)
    ensures p == q
  {
    ParseCropIdOfCropId(p);
    ParseCropIdOfCropId(q);
  }

  /** POSIX `os.path.join(dir, name)` for a `name` that does not start
      with `/`: a separator is added unless `dir` is empty or already ends
      in one. */
  function PathJoin(dir: string, name: string): (path: string)
    ensures |path| >= |name| && path[|path| - |name|..] == name
    ensures |name| > 0 && name[0] == '/' ==> path == name
  {
    if |name| > 0 && name[0] == '/' then name
    else if |dir| == 0 || dir[|dir| - 1] == '/' then dir + name
    else dir + "/" + name
  }

  /** Joining one directory with two relative names gives the same path
      only for the same name. */
  lemma PathJoinInjective(dir: string, a: string, b: string)
    requires |a| > 0 && |b| > 0 && a[0] != '/' && b[0] != '/'
    requires PathJoin(dir, a) == PathJoin(dir, b)
    ensures a == b
  {
    var p := PathJoin(dir, a);
    assert |a| == |b|;
    assert a == p[|p| - |a|..] == b;
  }

  /** The last path component: what follows the last `/`. */
  function BaseName(path: string): (b: string)
    ensures Avoids(b, '/')
    decreases |path|
  {
    if |path| == 0 then ""
    else if path[|path| - 1] == '/' then ""
    else BaseName(path[..|path| - 1]) + [path[|path| - 1]]
  }

  lemma {:induction false} BaseNameAfterSlash(dir: string, name: string)
    requires Avoids(name, '/')
    requires |dir| > 0 && dir[|dir| - 1] == '/'
    ensures BaseName(dir + name) == name
    decreases |name|
  {
    if |name| == 0 {
      assert dir + name == dir;
    } else {
      assert (dir + name)[..|dir + name| - 1] == dir + name[..|name| - 1];
      BaseNameAfterSlash(dir, name[..|name| - 1]);
      assert name[..|name| - 1] + [name[|name| - 1]] == name;
    }
  }

  lemma {:induction false} BaseNameNoSlash(name: string)
    requires Avoids(name, '/')
    ensures BaseName(name) == name
    decreases |name|
  {
    if |name| > 0 {
      BaseNameNoSlash(name[..|name| - 1]);
      assert name[..|name| - 1] + [name[|name| - 1]] == name;
    }
  }

  /** `out_img_dir`: the crop id under the chosen output directory. */
  function OutputDir(outDir: string, p: Params): (dir: string)
    ensures BaseName(dir) == CropId(p)
  {
    var id := CropId(p);
    var path := PathJoin(outDir, id);
    assert BaseName(path) == id by {
      if |outDir| == 0 {
        BaseNameNoSlash(id);
      } else if outDir[|outDir| - 1] == '/' {
        BaseNameAfterSlash(outDir, id);
      } else {
        assert outDir + "/" + id == (outDir + "/") + id;
        BaseNameAfterSlash(outDir + "/", id);
      }
    }
    path
  }

  /** The output directory determines the parameters: runs with different
      parameters write into different directories. */
  lemma OutputDirDeterminesParams(outDir: string, outDir': string, p: Params, q: Params)
    requires OutputDir(outDir, p) == OutputDir(outDir', q)
    ensures p == q
  {
    CropIdInjective(p, q);
  }
}

=== FILE: decimal.dfy ===
/** Decimal text as the cropper produces it with Python's `str(int)` and
    `str.zfill`, together with the reading that undoes it. Used for the
    crop id and for the slice file names of src/cropper/cropper.py. */
module Decimal {
  import opened Options

  predicate IsDigit(c: char) {
    '0' <= c <= '9'
  }

  predicate AllDigits(s: string) {
    forall i :: 0 <= i < |s| ==> IsDigit(s[i])
  }

  function DigitChar(d: int): (c: char)
    requires 0 <= d < 10
    ensures IsDigit(c) && c as int - '0' as int == d
  {
    (d + '0' as int) as char
  }

  function DigitValue(c: char): (d: nat)
    requires IsDigit(c)
    ensures d < 10 && DigitChar(d) == c
  {
    c as int - '0' as int
  }

  /** The number a digit string denotes, most significant digit first; the
      empty string denotes 0. */
  function Value(s: string): nat
    requires AllDigits(s)
    decreases |s|
  {
    if |s| == 0 then 0 else Value(s[..|s| - 1]) * 10 + DigitValue(s[|s| - 1])
  }

  /** `str(n)` for a non-negative `n`: its decimal digits, with no leading
      zero except for `0` itself. */
  function NatToString(n: nat): (s: string)
    ensures |s| >= 1 && AllDigits(s)
    ensures |s| == 1 <==> n < 10
    ensures n > 0 ==> s[0] != '0'
    decreases n
  {
    if n < 10 then [DigitChar(n)] else NatToString(n / 10) + [DigitChar(n % 10)]
  }

  /** Reading back the digits of `str(n)` gives `n`. */
  lemma {:induction false} ValueOfNatToString(n: nat)
    ensures Value(NatToString(n)) == n
    decreases n
  {
    if n >= 10 {
      var t := NatToString(n / 10);
      var s := NatToString(n);
      assert s[..|s| - 1] == t;
      ValueOfNatToString(n / 10);
    }
  }

  /** `str(i)`: a minus sign before the digits of a negative number. The
      text holds nothing but digits and the sign. */
  function IntToString(i: int): (s: string)
    ensures |s| >= 1
    ensures s[0] == '-' <==> i < 0
    ensures AllDigits(s[1..])
    ensures i >= 0 ==> AllDigits(s)
  {
    if i < 0 then "-" + NatToString(-i) else NatToString(i)
  }

  /** The inverse of `IntToString`: an optional minus sign followed by at
      least one digit. Anything else is not a number. */
  function ReadInt(s: string): (r: Option<int>)
    ensures r.Some? <==> |s| >= 1 && (if s[0] == '-' then |s| >= 2 && AllDigits(s[1..]) else AllDigits(s))
    ensures r.Some? && s[0] == '-' ==> r.value <= 0
    ensures r.Some? && s[0] != '-' ==> r.value >= 0
  {
    if |s| == 0 then None
    else if s[0] == '-' then
      if |s| >= 2 && AllDigits(s[1..]) then Some(0 - Value(s[1..]) as int) else None
    else if AllDigits(s) then Some(Value(s))
    else None
  }

  /** `str` loses nothing: reading its text gives the number back. */
  lemma ReadIntOfString(i: int)
    ensures ReadInt(IntToString(i)) == Some(i)
  {
    var s := IntToString(i);
    if i < 0 {
      var t := NatToString(-i);
      assert s == "-" + t;
      assert s[1..] == t;
      ValueOfNatToString(-i);
      assert Value(s[1..]) == -i;
    } else {
      ValueOfNatToString(i);
      assert s[0] != '-';
    }
  }

  /** Different numbers have different texts. */
  lemma IntToStringInjective(i: int, j: int)
    requires IntToString(i) == IntToString(j)
    ensures i == j
  {
    ReadIntOfString(i);
    ReadIntOfString(j);
  }

  function Zeros(k: nat): (z: string)
    ensures |z| == k && AllDigits(z)
    ensures forall i :: 0 <= i < k ==> z[i] == '0'
  {
    seq(k, i => '0')
  }

  /** Leading zeros do not change the number a digit string denotes. */
  lemma {:induction false} ValueZerosPrefix(k: nat, s: string)
    requires AllDigits(s)
    ensures AllDigits(Zeros(k) + s) && Value(Zeros(k) + s) == Value(s)
    decreases |s|
  {
    var z := Zeros(k) + s;
    if |s| == 0 {
      assert z == Zeros(k);
      ValueOfZeros(k);
    } else {
      assert z[..|z| - 1] == Zeros(k) + s[..|s| - 1];
      ValueZerosPrefix(k, s[..|s| - 1]);
    }
  }

  lemma {:induction false} ValueOfZeros(k: nat)
    ensures Value(Zeros(k)) == 0
    decreases k
  {
    if k > 0 {
      assert Zeros(k)[..k - 1] == Zeros(k - 1);
      ValueOfZeros(k - 1);
    }
  }

  /** Python `str.zfill(width)`: a string shorter than `width` gets zeros
      inserted after its sign character (or at its front, when it has
      none) until it is `width` long; a longer one is kept as it is. */
  function ZFill(s: string, width: int): (r: string)
    ensures |r| == if |s| >= width then |s| else width
    ensures |s| >= width ==> r == s
    ensures AllDigits(s) ==> AllDigits(r) && Value(r) == Value(s)
    ensures |s| > 0 && (s[0] == '-' || s[0] == '+') ==> r[0] == s[0]
  {
    if |s| >= width then s
    else
      var pad := Zeros(width - |s|);
      if |s| > 0 && (s[0] == '-' || s[0] == '+') then
        [s[0]] + pad + s[1..]
      else
        assert AllDigits(s) ==> Value(pad + s) == Value(s) by {
          if AllDigits(s) {
            ValueZerosPrefix(width - |s|, s);
          }
        }
        pad + s
  }

  const TifSuffix: string := ".tif"

  /** The output slice name `str(z).zfill(3) + '.tif'`: at least three
      digits that denote `z`, then the `.tif` extension. */
  function SliceFileName(z: nat): (name: string)
    ensures |name| >= 7
    ensures name[|name| - 4..] == TifSuffix
    ensures AllDigits(name[..|name| - 4]) && Value(name[..|name| - 4]) == z
  {
    ValueOfNatToString(z);
    var digits := ZFill(NatToString(z), 3);
    assert (digits + TifSuffix)[..|digits|] == digits;
    digits + TifSuffix
  }

  /** Distinct slice indices get distinct file names, so no output slice
      overwrites another. */
  lemma SliceFileNameInjective(i: nat, j: nat)
    requires SliceFileName(i) == SliceFileName(j)
    ensures i == j
  {
  }
}

=== FILE: mask_frame.dfy ===
/** `MaskFrame` (src/viewer/MaskFrame.js): the relief mask of a volume as
    two maps from y-location to `MaskRidge`, one for the top surface and one
    for the bottom surface. */
module MaskFrame {
  import opened Options
  import opened SeqMap
  import MaskRidge

  type Ridge = MaskRidge.Ridge

  /** `xdim` is the ridge size, `ydim` the number of y-locations; `top` and
      `btm` map a y-location to its ridge in iteration order. */
  datatype Frame = Frame(xdim: int, ydim: int, top: seq<(int, Ridge)>, btm: seq<(int, Ridge)>)

  /** The ridge map of the chosen side (`isTop ? topRidges : btmRidges`). */
  function Ridges(f: Frame, isTop: bool): seq<(int, Ridge)> {
    if isTop then f.top else f.btm
  }

  function WithRidges(f: Frame, isTop: bool, m: seq<(int, Ridge)>): Frame {
    if isTop then f.(top := m) else f.(btm := m)
  }

  /** Every ridge of the map is well formed and spans `xdim` locations. */
  predicate RidgesWf(m: seq<(int, Ridge)>, xdim: int) {
    forall k :: k in ToMap(m) ==> MaskRidge.Wf(ToMap(m)[k]) && ToMap(m)[k].size == xdim
  }

  /** One side of a well-formed frame: ridges at both end rows, all rows in
      `[0, ydim)`, ascending by row, every ridge well formed. */
  predicate SideWf(m: seq<(int, Ridge)>, xdim: int, ydim: int) {
    && ydim >= 1
    && Ascending(m)
    && 0 in KeySet(m)
    && ydim - 1 in KeySet(m)
    && (forall k :: k in KeySet(m) ==> 0 <= k < ydim)
    && RidgesWf(m, xdim)
  }

  predicate Wf(f: Frame) {
    SideWf(f.top, f.xdim, f.ydim) && SideWf(f.btm, f.xdim, f.ydim)
  }

  /** `new MaskFrame(xdim, ydim)`: on each side a flat ridge at row 0 and
      one at row `ydim-1`. */
  function New(xdim: int, ydim: int): (f: Frame)
    ensures f.xdim == xdim && f.ydim == ydim
    ensures ToMap(f.top) == map[0 := MaskRidge.New(xdim), ydim - 1 := MaskRidge.New(xdim)]
    ensures ToMap(f.btm) == map[0 := MaskRidge.New(xdim), ydim - 1 := MaskRidge.New(xdim)]
    ensures Wf(f) <==> xdim >= 1 && ydim >= 1
  {
    var flat := MaskRidge.New(xdim);
    var m := Put(Put([], 0, flat), ydim - 1, flat);
    assert Put([], 0, flat) == [(0, flat)];
    assert Ascending(m) <==> ydim >= 1;
    Frame(xdim, ydim, m, m)
  }

  /** Every ridge of the map is void (the loops of `isVoid`). */
  function AllVoid(m: seq<(int, Ridge)>): (b: bool)
    ensures b <==> forall i :: 0 <= i < |m| ==> MaskRidge.IsVoid(m[i].1)
    decreases |m|
  {
    if |m| == 0 then true
    else if !MaskRidge.IsVoid(m[0].1) then false
    else
      var b := AllVoid(m[1..]);
      assert forall i :: 1 <= i < |m| ==> m[i] == m[1..][i - 1];
      b
  }

  /** `isVoid`: no ridge on either side masks anything. */
  function IsVoid(f: Frame): (b: bool)
    ensures b <==> AllVoid(f.top) && AllVoid(f.btm)
  {
    AllVoid(f.top) && AllVoid(f.btm)
  }

  /** `insertRidge(iLoc, ridge, isTop)`: a row outside `[0, ydim)` is
      refused; otherwise the row now holds `ridge`, every other ridge of
      that side is kept, the other side is untouched, and a well-formed
      ridge of the frame's width keeps the frame well formed. */
  function InsertRidge(f: Frame, loc: int, ridge: Ridge, isTop: bool): (res: Frame)
    ensures res.xdim == f.xdim && res.ydim == f.ydim
    ensures Ridges(res, !isTop) == Ridges(f, !isTop)
    ensures !(0 <= loc < f.ydim) ==> res == f
    ensures 0 <= loc < f.ydim && DistinctKeys(Ridges(f, isTop)) ==>
      ToMap(Ridges(res, isTop)) == ToMap(Ridges(f, isTop))[loc := ridge]
    ensures Wf(f) && MaskRidge.Wf(ridge) && ridge.size == f.xdim ==> Wf(res)
  {
    if loc < 0 || loc >= f.ydim then f
    else
      var m := Ridges(f, isTop);
      var m' := Insert(m, loc, ridge, true);
      if SideWf(m, f.xdim, f.ydim) && MaskRidge.Wf(ridge) && ridge.size == f.xdim then
        InsertKeepsSideWf(m, loc, ridge, f.xdim, f.ydim);
        WithRidges(f, isTop, m')
      else
        WithRidges(f, isTop, m')
  }

  /** Inserting a well-formed ridge of the right width at a row inside the
      frame keeps a side well formed. */
  lemma InsertKeepsSideWf(m: seq<(int, Ridge)>, loc: int, ridge: Ridge, xdim: int, ydim: int)
    requires SideWf(m, xdim, ydim) && 0 <= loc < ydim && MaskRidge.Wf(ridge) && ridge.size == xdim
    ensures SideWf(Insert(m, loc, ridge, true), xdim, ydim)
  {
    AscendingDistinct(m);
  }

  /** `removeRidge(iLoc, isTop)`: an absent row gives nothing and changes
      nothing; a present row's ridge is returned and removed, and nothing
      else changes. Removing an interior row keeps the frame well formed. */
  function RemoveRidge(f: Frame, loc: int, isTop: bool): (res: (Frame, Option<Ridge>))
    ensures res.0.xdim == f.xdim && res.0.ydim == f.ydim
    ensures Ridges(res.0, !isTop) == Ridges(f, !isTop)
    ensures loc !in KeySet(Ridges(f, isTop)) ==> res == (f, None)
    ensures loc in KeySet(Ridges(f, isTop)) ==> res.1 == Some(ToMap(Ridges(f, isTop))[loc])
    ensures DistinctKeys(Ridges(f, isTop)) ==>
      ToMap(Ridges(res.0, isTop)) == ToMap(Ridges(f, isTop)) - {loc}
    ensures Wf(f) && 0 < loc < f.ydim - 1 ==> Wf(res.0)
  {
    var m := Ridges(f, isTop);
    if loc !in KeySet(m) then (f, None)
    else
      var ridge := ToMap(m)[loc];
      var m' := Delete(m, loc);
      assert DistinctKeys(m) ==> ToMap(m') == ToMap(m) - {loc} by {
        if DistinctKeys(m) {
          DeleteToMap(m, loc);
        }
      }
      assert Ascending(m) ==> Ascending(m') by {
        if Ascending(m) {
          DeleteAscending(m, loc);
        }
      }
      assert SideWf(m, f.xdim, f.ydim) && 0 < loc < f.ydim - 1 ==> SideWf(m', f.xdim, f.ydim) by {
        if SideWf(m, f.xdim, f.ydim) {
          AscendingDistinct(m);
        }
      }
      (WithRidges(f, isTop, m'), Some(ridge))
  }

  /** Re-inserting the ridge `removeRidge` returned, at the same row and
      side, gives back the frame as it was. */
  lemma RemoveThenInsert(f: Frame, loc: int, isTop: bool)
    requires Wf(f) && loc in KeySet(Ridges(f, isTop))
    ensures RemoveRidge(f, loc, isTop).1.Some?
    ensures InsertRidge(RemoveRidge(f, loc, isTop).0, loc, RemoveRidge(f, loc, isTop).1.value, isTop) == f
  {
    var m := Ridges(f, isTop);
    DeleteThenInsert(m, loc);
  }

  /** `getRidge(iLoc, isTop)`: the ridge at a row, or nothing. */
  function GetRidge(f: Frame, loc: int, isTop: bool): (r: Option<Ridge>)
    ensures r.Some? <==> loc in KeySet(Ridges(f, isTop))
    ensures r.Some? ==> r.value == ToMap(Ridges(f, isTop))[loc]
  {
    Get(Ridges(f, isTop), loc)
  }

  /** `hasRidge(iLoc, isTop)`: whether `getRidge` finds a ridge. */
  function HasRidge(f: Frame, loc: int, isTop: bool): (b: bool)
    ensures b <==> GetRidge(f, loc, isTop).Some?
  {
    loc in KeySet(Ridges(f, isTop))
  }

  /** A ridge found in a well-formed frame is well formed, spans the
      frame's width, and sits at a row inside the frame. */
  lemma GetRidgeWf(f: Frame, loc: int, isTop: bool)
    requires Wf(f) && GetRidge(f, loc, isTop).Some?
    ensures MaskRidge.Wf(GetRidge(f, loc, isTop).value)
    ensures GetRidge(f, loc, isTop).value.size == f.xdim
    ensures 0 <= loc < f.ydim
  {
  }

  /** `insertRidge` leaves every other row of its side as it was. */
  lemma InsertRidgeKeepsOthers(f: Frame, loc: int, ridge: Ridge, isTop: bool)
    requires DistinctKeys(Ridges(f, isTop))
    ensures forall y :: y != loc ==> GetRidge(InsertRidge(f, loc, ridge, isTop), y, isTop) == GetRidge(f, y, isTop)
  {
  }

  /** `removeRidge` leaves every other row of its side as it was. */
  lemma RemoveRidgeKeepsOthers(f: Frame, loc: int, isTop: bool)
    requires DistinctKeys(Ridges(f, isTop))
    ensures forall y :: y != loc ==> GetRidge(RemoveRidge(f, loc, isTop).0, y, isTop) == GetRidge(f, y, isTop)
  {
  }

  /** After `insertRidge` at a row inside the frame, `getRidge` there finds
      the inserted ridge. */
  lemma InsertThenGet(f: Frame, loc: int, ridge: Ridge, isTop: bool)
    requires Wf(f) && 0 <= loc < f.ydim
    ensures GetRidge(InsertRidge(f, loc, ridge, isTop), loc, isTop) == Some(ridge)
  {
    AscendingDistinct(Ridges(f, isTop));
  }

  /** `getBracketingLocs(iLoc, isTop)`: on a well-formed frame, the nearest
      ridge rows on either side of `loc`. */
  function GetBracketingLocs(f: Frame, loc: int, isTop: bool): (lr: (int, int))
    ensures 0 < loc < f.ydim - 1 ==> lr.0 < loc < lr.1
    ensures Wf(f) ==> IsBracket(KeySet(Ridges(f, isTop)), loc, f.ydim - 1, lr)
  {
    var m := Ridges(f, isTop);
    var lr := Bracket(m, loc, f.ydim - 1);
    assert Wf(f) ==> IsBracket(KeySet(m), loc, f.ydim - 1, lr) by {
      if Wf(f) {
        BracketKeys(m, loc, f.ydim - 1);
      }
    }
    lr
  }

  /** The weight `getMaskProfile` gives the ridge at `prev` when `loc` lies
      between the ridge rows `prev` and `next`. */
  function PrevWeight(prev: int, next: int, loc: int): real
    requires prev != next
  {
    (next - loc) as real / (next - prev) as real
  }

  /** The loop of `getMaskProfile` from entry `i` on, carrying `prev`, the
      last entry seen: the entry it stops at, the first whose row is beyond
      `loc`, paired with the entry seen before it; `None` when the loop runs
      out of entries. */
  function ScanBracket(m: seq<(int, Ridge)>, i: nat, loc: int, prev: (int, Ridge)): (b: Option<((int, Ridge), (int, Ridge))>)
    requires i <= |m|
    ensures b.None? <==> forall k :: i <= k < |m| ==> m[k].0 <= loc
    ensures b.Some? ==> exists n :: i <= n < |m| && StopsAt(m, i, loc, prev, n, b.value)
    decreases |m| - i
  {
    if i == |m| then None
    else if m[i].0 > loc then
      assert StopsAt(m, i, loc, prev, i, (prev, m[i]));
      Some((prev, m[i]))
    else
      var b := ScanBracket(m, i + 1, loc, m[i]);
      assert b.Some? ==> exists n :: i <= n < |m| && StopsAt(m, i, loc, prev, n, b.value) by {
        if b.Some? {
          var n :| i + 1 <= n < |m| && StopsAt(m, i + 1, loc, m[i], n, b.value);
          assert StopsAt(m, i, loc, prev, n, b.value);
        }
      }
      b
  }

  /** Entry `n` is the first from `i` on whose row is beyond `loc`, and
      `pair` holds the entry seen before it (`prev` when `n` is `i`) and
      entry `n` itself. */
  predicate StopsAt(m: seq<(int, Ridge)>, i: nat, loc: int, prev: (int, Ridge), n: nat, pair: ((int, Ridge), (int, Ridge)))
    requires i <= n < |m|
  {
    && m[n].0 > loc
    && (forall k :: i <= k < n ==> m[k].0 <= loc)
    && pair == (if n == i then prev else m[n - 1], m[n])
  }

  /** The profile the loop returns: the interpolation of the pair it stops
      at, or a flat ridge (the "getProfile failed" path). */
  function ProfileScan(m: seq<(int, Ridge)>, i: nat, loc: int, prevLoc: int, prevRidge: Ridge, xdim: int): (p: Ridge)
    requires i <= |m| && prevLoc <= loc
    requires MaskRidge.Wf(prevRidge) && prevRidge.size == xdim
    requires forall k :: 0 <= k < |m| ==> MaskRidge.Wf(m[k].1) && m[k].1.size == xdim
    ensures MaskRidge.Wf(p) && p.size == xdim
  {
    match ScanBracket(m, i, loc, (prevLoc, prevRidge))
    case None => MaskRidge.New(xdim)
    case Some(pair) =>
      var n :| i <= n < |m| && StopsAt(m, i, loc, (prevLoc, prevRidge), n, pair);
      MaskRidge.Interpolate(pair.0.1, pair.1.1, PrevWeight(pair.0.0, pair.1.0, loc))
  }

  lemma RidgesWfIndex(m: seq<(int, Ridge)>, xdim: int)
    requires DistinctKeys(m) && RidgesWf(m, xdim)
    ensures forall i :: 0 <= i < |m| ==> MaskRidge.Wf(m[i].1) && m[i].1.size == xdim
  {
    forall i | 0 <= i < |m| ensures MaskRidge.Wf(m[i].1) && m[i].1.size == xdim {
      ToMapDistinct(m, i);
    }
  }

  /** `getMaskProfile(loc, isTop)`: the ridge at the nearer end row outside
      `(0, ydim-1)`, the stored ridge at a ridge row, and otherwise the
      interpolation of the two neighbouring ridges. Always a well-formed
      ridge of the frame's width. */
  function GetMaskProfile(f: Frame, loc: int, isTop: bool): (p: Ridge)
    requires Wf(f)
    ensures MaskRidge.Wf(p) && p.size == f.xdim
    ensures loc <= 0 ==> p == ToMap(Ridges(f, isTop))[0]
    ensures f.ydim - 1 <= loc ==> p == ToMap(Ridges(f, isTop))[f.ydim - 1]
  {
    var m := Ridges(f, isTop);
    if loc <= 0 then ToMap(m)[0]
    else if loc >= f.ydim - 1 then ToMap(m)[f.ydim - 1]
    else if loc in KeySet(m) then ToMap(m)[loc]
    else
      AscendingDistinct(m);
      RidgesWfIndex(m, f.xdim);
      ProfileScan(m, 0, loc, 0, ToMap(m)[0], f.xdim)
  }

  /** Once a ridge is inserted at an interior row, the profile there is
      that ridge. */
  lemma InsertThenProfile(f: Frame, loc: int, ridge: Ridge, isTop: bool)
    requires Wf(f) && MaskRidge.Wf(ridge) && ridge.size == f.xdim && 0 < loc < f.ydim - 1
    ensures Wf(InsertRidge(f, loc, ridge, isTop))
    ensures GetMaskProfile(InsertRidge(f, loc, ridge, isTop), loc, isTop) == ridge
  {
    InsertThenGet(f, loc, ridge, isTop);
  }

  /** The scan passes over every row up to `m[n-1]`, all before `loc`,
      remembering the last of them. */
  lemma {:induction false} ScanSkips(m: seq<(int, Ridge)>, j: nat, n: int, loc: int)
    requires 1 <= j <= n < |m|
    requires forall i :: j - 1 <= i < n ==> m[i].0 < loc
    ensures ScanBracket(m, j, loc, m[j - 1]) == ScanBracket(m, n, loc, m[n - 1])
    decreases n - j
  {
    if j < n {
      ScanSkips(m, j + 1, n, loc);
    }
  }

  /** The scan stops at the first row beyond `loc` and interpolates with the
      previous one. */
  lemma ScanStops(m: seq<(int, Ridge)>, n: nat, loc: int, xdim: int)
    requires forall i :: 0 <= i < |m| ==> MaskRidge.Wf(m[i].1) && m[i].1.size == xdim
    requires 1 <= n < |m| && m[n - 1].0 < loc < m[n].0
    ensures ScanBracket(m, n, loc, m[n - 1]) == Some((m[n - 1], m[n]))
    ensures ProfileScan(m, n, loc, m[n - 1].0, m[n - 1].1, xdim)
         == MaskRidge.Interpolate(m[n - 1].1, m[n].1, PrevWeight(m[n - 1].0, m[n].0, loc))
  {
  }

  /** Between the rows of consecutive entries `n-1` and `n`, the profile
      interpolates their ridges. */
  lemma ProfileAtIndex(f: Frame, loc: int, isTop: bool, n: nat)
    requires Wf(f)
    requires 1 <= n < |Ridges(f, isTop)|
    requires Ridges(f, isTop)[n - 1].0 < loc < Ridges(f, isTop)[n].0
    requires MaskRidge.Wf(Ridges(f, isTop)[n - 1].1) && MaskRidge.Wf(Ridges(f, isTop)[n].1)
    ensures GetMaskProfile(f, loc, isTop)
         == MaskRidge.Interpolate(Ridges(f, isTop)[n - 1].1, Ridges(f, isTop)[n].1,
                                  PrevWeight(Ridges(f, isTop)[n - 1].0, Ridges(f, isTop)[n].0, loc))
  {
    var m := Ridges(f, isTop);
    var xdim := f.xdim;
    assert SideWf(m, xdim, f.ydim);
    assert DistinctKeys(m) by {
      AscendingDistinct(m);
    }
    assert forall i :: 0 <= i < |m| ==> MaskRidge.Wf(m[i].1) && m[i].1.size == xdim by {
      RidgesWfIndex(m, xdim);
    }
    assert loc !in KeySet(m) && forall i :: 0 <= i < n ==> m[i].0 < loc by {
      AscendingGap(m, n, loc);
    }
    assert m[0].0 == 0 && ToMap(m)[0] == m[0].1 by {
      AscendingHeadMin(m);
      KeyOfIndex(m, 0);
      ToMapDistinct(m, 0);
    }
    assert 0 < loc < f.ydim - 1 by {
      KeyOfIndex(m, n);
      KeyOfIndex(m, n - 1);
    }
    assert GetMaskProfile(f, loc, isTop) == ProfileScan(m, 0, loc, 0, m[0].1, xdim);
    assert ScanBracket(m, 0, loc, (0, m[0].1)) == ScanBracket(m, 1, loc, m[0]);
    ScanSkips(m, 1, n, loc);
    ScanStops(m, n, loc, xdim);
  }

  /** A location strictly between consecutive keys is not a key, and every
      key before it is smaller. */
  lemma AscendingGap(m: seq<(int, Ridge)>, n: int, loc: int)
    requires Ascending(m) && 1 <= n < |m| && m[n - 1].0 < loc < m[n].0
    ensures loc !in KeySet(m)
    ensures forall i :: 0 <= i < n ==> m[i].0 < loc
  {
    assert forall i :: 0 <= i < n ==> m[i].0 <= m[n - 1].0;
    assert forall i :: n <= i < |m| ==> m[n].0 <= m[i].0;
    if loc in KeySet(m) {
      var i := KeyIndex(m, loc);
    }
  }

  /** Between two neighbouring ridge rows `prev < loc < next`, the profile
      is the interpolation of their ridges, the weight of `prev` being
      `(next - loc) / (next - prev)`, strictly between 0 and 1. */
  lemma GetMaskProfileBetween(f: Frame, loc: int, isTop: bool, prev: int, next: int)
    requires Wf(f)
    requires prev in KeySet(Ridges(f, isTop)) && next in KeySet(Ridges(f, isTop)) && prev < loc < next
    requires forall k :: k in KeySet(Ridges(f, isTop)) ==> k <= prev || next <= k
    ensures 0.0 < PrevWeight(prev, next, loc) < 1.0
    ensures GetMaskProfile(f, loc, isTop)
         == MaskRidge.Interpolate(ToMap(Ridges(f, isTop))[prev], ToMap(Ridges(f, isTop))[next],
                                  PrevWeight(prev, next, loc))
  {
    var m := Ridges(f, isTop);
    assert SideWf(m, f.xdim, f.ydim);
    assert DistinctKeys(m) by {
      AscendingDistinct(m);
    }
    var p := KeyIndex(m, prev);
    var n := KeyIndex(m, next);
    assert p < n;
    assert m[n - 1].0 == prev by {
      KeyOfIndex(m, n - 1);
    }
    assert ToMap(m)[prev] == m[n - 1].1 && ToMap(m)[next] == m[n].1 by {
      ToMapDistinct(m, n - 1);
      ToMapDistinct(m, n);
    }
    assert MaskRidge.Wf(m[n - 1].1) && MaskRidge.Wf(m[n].1) by {
      RidgesWfIndex(m, f.xdim);
    }
    ProfileAtIndex(f, loc, isTop, n);
    PrevWeightInside(prev, next, loc);
  }

  lemma PrevWeightInside(prev: int, next: int, loc: int)
    requires prev < loc < next
    ensures 0.0 < PrevWeight(prev, next, loc) < 1.0
  {
    var w := PrevWeight(prev, next, loc);
    assert w * (next - prev) as real == (next - loc) as real;
  }

  /** When every ridge of a side has its heights in `[lo, hi]`, so does
      every profile of that side. */
  lemma ProfileWithin(f: Frame, loc: int, isTop: bool, lo: real, hi: real)
    requires Wf(f)
    requires forall k :: k in ToMap(Ridges(f, isTop)) ==> MaskRidge.HeightsWithin(ToMap(Ridges(f, isTop))[k], lo, hi)
    ensures MaskRidge.HeightsWithin(GetMaskProfile(f, loc, isTop), lo, hi)
  {
    var m := Ridges(f, isTop);
    if 0 < loc < f.ydim - 1 && loc !in KeySet(m) {
      var lr := GetBracketingLocs(f, loc, isTop);
      GetMaskProfileBetween(f, loc, isTop, lr.0, lr.1);
      MaskRidge.InterpolateBounded(ToMap(m)[lr.0], ToMap(m)[lr.1], PrevWeight(lr.0, lr.1, loc), lo, hi);
    }
  }

  /** At the row of entry `i` the profile is the stored ridge. */
  lemma ProfileAtKey(f: Frame, isTop: bool, i: int)
    requires Wf(f) && 0 <= i < |Ridges(f, isTop)|
    ensures GetMaskProfile(f, Ridges(f, isTop)[i].0, isTop) == Ridges(f, isTop)[i].1
  {
    var m := Ridges(f, isTop);
    AscendingDistinct(m);
    ToMapDistinct(m, i);
  }

  /** A side whose ridges are all void has only void profiles. */
  lemma SideVoidProfiles(f: Frame, isTop: bool, y: int)
    requires Wf(f) && AllVoid(Ridges(f, isTop))
    ensures MaskRidge.IsVoid(GetMaskProfile(f, y, isTop))
  {
    var m := Ridges(f, isTop);
    AscendingDistinct(m);
    forall k | k in ToMap(m) ensures MaskRidge.HeightsWithin(ToMap(m)[k], 0.0, 0.0) {
      var i := KeyIndex(m, k);
      ToMapDistinct(m, i);
    }
    ProfileWithin(f, y, isTop, 0.0, 0.0);
  }

  /** `isVoid` holds exactly when every profile of both sides is void. */
  lemma VoidIffProfilesVoid(f: Frame)
    requires Wf(f)
    ensures IsVoid(f) <==> forall y, isTop :: MaskRidge.IsVoid(GetMaskProfile(f, y, isTop))
  {
    if IsVoid(f) {
      forall y, isTop ensures MaskRidge.IsVoid(GetMaskProfile(f, y, isTop)) {
        SideVoidProfiles(f, isTop, y);
      }
    }
    if forall y, isTop :: MaskRidge.IsVoid(GetMaskProfile(f, y, isTop)) {
      forall i | 0 <= i < |f.top| ensures MaskRidge.IsVoid(f.top[i].1) {
        ProfileAtKey(f, true, i);
      }
      forall i | 0 <= i < |f.btm| ensures MaskRidge.IsVoid(f.btm[i].1) {
        ProfileAtKey(f, false, i);
      }
    }
  }
}

=== FILE: mask_ridge.dfy ===
/** `MaskRidge` (src/viewer/MaskFrame.js): a piece-wise linear contour given
    by control points, a map from integer x-location to height. Heights are
    JavaScript doubles in the source and `real` here. */
module MaskRidge {
  import opened Options
  import opened SeqMap

  /** `size` is the number of x-locations the ridge spans; `points` maps a
      location to its height in iteration order. */
  datatype Ridge = Ridge(size: int, points: seq<(int, real)>)

  /** The shape every editing operation keeps: both end locations carry a
      point, every point lies in `[0, size)`, and points are ordered by
      location. */
  predicate Wf(r: Ridge) {
    && r.size >= 1
    && Ascending(r.points)
    && 0 in KeySet(r.points)
    && r.size - 1 in KeySet(r.points)
    && forall k :: k in KeySet(r.points) ==> 0 <= k < r.size
  }

  /** `new MaskRidge(size)`: the two end points at height zero, set in that
      order and not re-sorted. */
  function New(size: int): (r: Ridge)
    ensures r.size == size
    ensures ToMap(r.points) == map[0 := 0.0, size - 1 := 0.0]
    ensures DistinctKeys(r.points)
    ensures Wf(r) <==> size >= 1
  {
    var p := Put([], 0, 0.0);
    PutDistinct(p, size - 1, 0.0);
    var pts := Put(p, size - 1, 0.0);
    NewWf(size);
    Ridge(size, pts)
  }

  lemma NewWf(size: int)
    ensures Wf(Ridge(size, Put(Put([], 0, 0.0), size - 1, 0.0))) <==> size >= 1
  {
    var pts := Put(Put([], 0, 0.0), size - 1, 0.0);
    NewPoints(size);
    if size >= 1 {
      assert KeySet(pts) == {0, size - 1};
      assert Ascending(pts);
    }
  }

  /** The points of a new ridge: one entry when both end points coincide. */
  lemma NewPoints(size: int)
    ensures Put(Put([], 0, 0.0), size - 1, 0.0) == if size == 1 then [(0, 0.0)] else [(0, 0.0), (size - 1, 0.0)]
  {
    var p := Put([], 0, 0.0);
    assert p == [(0, 0.0)];
    assert ToMap(p) == map[0 := 0.0];
  }

  /** `isVoid`: no point has a non-zero height. */
  function IsVoid(r: Ridge): (b: bool)
    ensures b <==> forall i :: 0 <= i < |r.points| ==> r.points[i].1 == 0.0
  {
    AllZero(r.points)
  }

  function AllZero(pts: seq<(int, real)>): (b: bool)
    ensures b <==> forall i :: 0 <= i < |pts| ==> pts[i].1 == 0.0
    decreases |pts|
  {
    if |pts| == 0 then true
    else if pts[0].1 != 0.0 then false
    else
      var b := AllZero(pts[1..]);
      assert forall i :: 1 <= i < |pts| ==> pts[i] == pts[1..][i - 1];
      b
  }

  /** `insertPoint(iLoc, height, omitSort)`: a location outside `[0, size)`
      is refused; otherwise the location now holds `height`, every other
      point is kept, and, unless `omitSort` is set, the ridge stays well
      formed. */
  function InsertPoint(r: Ridge, loc: int, height: real, omitSort: bool): (res: Ridge)
    ensures res.size == r.size
    ensures !(0 <= loc < r.size) ==> res == r
    ensures 0 <= loc < r.size ==> KeySet(res.points) == KeySet(r.points) + {loc}
    ensures 0 <= loc < r.size && DistinctKeys(r.points) ==>
      ToMap(res.points) == ToMap(r.points)[loc := height] && DistinctKeys(res.points)
    ensures Ascending(r.points) && !omitSort ==> Ascending(res.points)
    ensures Wf(r) && !omitSort ==> Wf(res)
  {
    if loc < 0 || loc >= r.size then r
    else r.(points := Insert(r.points, loc, height, !omitSort))
  }

  /** `removePoint(iLoc)`: an absent location changes nothing; a present one
      loses exactly its point. Removing an interior point keeps the ridge
      well formed. */
  function RemovePoint(r: Ridge, loc: int): (res: Ridge)
    ensures res.size == r.size
    ensures loc !in KeySet(r.points) ==> res == r
    ensures DistinctKeys(r.points) ==> ToMap(res.points) == ToMap(r.points) - {loc}
    ensures Ascending(r.points) ==> Ascending(res.points)
    ensures Wf(r) && loc != 0 && loc != r.size - 1 ==> Wf(res)
  {
    if loc !in KeySet(r.points) then r
    else
      var res := r.(points := Delete(r.points, loc));
      assert DistinctKeys(r.points) ==> ToMap(res.points) == ToMap(r.points) - {loc} by {
        if DistinctKeys(r.points) {
          DeleteToMap(r.points, loc);
        }
      }
      assert Ascending(r.points) ==> Ascending(res.points) by {
        if Ascending(r.points) {
          DeleteAscending(r.points, loc);
        }
      }
      res
  }

  /** `getBracketingLocs(iLoc)`: on a well-formed ridge, the nearest point
      locations on either side of `loc`. */
  function GetBracketingLocs(r: Ridge, loc: int): (lr: (int, int))
    ensures 0 < loc < r.size - 1 ==> lr.0 < loc < lr.1
    ensures Wf(r) ==> IsBracket(KeySet(r.points), loc, r.size - 1, lr)
  {
    var lr := Bracket(r.points, loc, r.size - 1);
    assert Wf(r) ==> IsBracket(KeySet(r.points), loc, r.size - 1, lr) by {
      if Wf(r) {
        BracketKeys(r.points, loc, r.size - 1);
      }
    }
    lr
  }

  /** The height at `x` of the straight line through `(x0, y0)` and
      `(x1, y1)`, computed as the source does: slope times offset. */
  function Lerp(x0: int, y0: real, x1: int, y1: real, x: int): real
    requires x0 != x1
  {
    y0 + (y1 - y0) / (x1 - x0) as real * (x - x0) as real
  }

  /** `getHeight(loc)`: clamped to the end points outside `(0, size-1)`,
      the stored height at a point location, and otherwise the linear
      interpolation between the bracketing points. `None` stands for the
      `undefined`/`NaN` the source produces when a needed point is
      missing, which a well-formed ridge rules out. */
  function GetHeight(r: Ridge, loc: int): (h: Option<real>)
    ensures Wf(r) ==> h.Some?
    ensures Wf(r) && loc in KeySet(r.points) ==> h == Some(ToMap(r.points)[loc])
    ensures Wf(r) && loc <= 0 ==> h == Some(ToMap(r.points)[0])
    ensures Wf(r) && r.size - 1 <= loc ==> h == Some(ToMap(r.points)[r.size - 1])
  {
    if loc <= 0 then Get(r.points, 0)
    else if loc >= r.size - 1 then Get(r.points, r.size - 1)
    else if loc in KeySet(r.points) then Get(r.points, loc)
    else
      var lr := GetBracketingLocs(r, loc);
      var prev := Get(r.points, lr.0);
      var next := Get(r.points, lr.1);
      if prev.None? || next.None? then None
      else Some(Lerp(lr.0, prev.value, lr.1, next.value, loc))
  }

  /** Between two neighbouring point locations `prev < loc < next` (no
      point strictly between them), `getHeight` lies on the segment joining
      the two points. */
  lemma GetHeightBetween(r: Ridge, loc: int, prev: int, next: int)
    requires Wf(r)
    requires prev in KeySet(r.points) && next in KeySet(r.points) && prev < loc < next
    requires forall k :: k in KeySet(r.points) ==> k <= prev || next <= k
    ensures GetHeight(r, loc) == Some(Lerp(prev, ToMap(r.points)[prev], next, ToMap(r.points)[next], loc))
  {
    var lr := GetBracketingLocs(r, loc);
    assert lr.0 == prev;
    assert lr.1 == next;
  }

  /** A straight-line value between two heights in `[lo, hi]`, taken
      between its two ends, stays in `[lo, hi]`. */
  lemma LerpBounded(x0: int, y0: real, x1: int, y1: real, x: int, lo: real, hi: real)
    requires x0 < x < x1
    requires lo <= y0 <= hi && lo <= y1 <= hi
    ensures lo <= Lerp(x0, y0, x1, y1, x) <= hi
  {
    var t := (x - x0) as real / (x1 - x0) as real;
    assert 0.0 < t < 1.0;
    assert Lerp(x0, y0, x1, y1, x) == y0 + (y1 - y0) * t;
    assert Lerp(x0, y0, x1, y1, x) == Mix(t, y1, y0);
    MixBounded(t, y1, y0, lo, hi);
  }

  lemma MulNonneg(a: real, b: real)
    requires 0.0 <= a && 0.0 <= b
    ensures 0.0 <= a * b
  {
  }

  /** Heights read from a well-formed ridge never leave the range of its
      stored heights. */
  lemma GetHeightBounded(r: Ridge, loc: int, lo: real, hi: real)
    requires Wf(r)
    requires forall i :: 0 <= i < |r.points| ==> lo <= r.points[i].1 <= hi
    ensures lo <= GetHeight(r, loc).value <= hi
  {
    var m := ToMap(r.points);
    forall k | k in KeySet(r.points) ensures lo <= m[k] <= hi {
      var i := KeyIndex(r.points, k);
      ToMapDistinct(r.points, i);
    }
    if 0 < loc < r.size - 1 && loc !in KeySet(r.points) {
      var lr := GetBracketingLocs(r, loc);
      LerpBounded(lr.0, m[lr.0], lr.1, m[lr.1], loc, lo, hi);
    }
  }

  /** A well-formed ridge is void exactly when its height is zero at every
      location. */
  lemma VoidIffFlat(r: Ridge)
    requires Wf(r)
    ensures IsVoid(r) <==> forall loc :: GetHeight(r, loc) == Some(0.0)
  {
    if IsVoid(r) {
      forall loc ensures GetHeight(r, loc) == Some(0.0) {
        GetHeightBounded(r, loc, 0.0, 0.0);
      }
    } else {
      var i :| 0 <= i < |r.points| && r.points[i].1 != 0.0;
      ToMapDistinct(r.points, i);
      assert GetHeight(r, r.points[i].0) != Some(0.0);
    }
  }

  /** The weighted mean `w*x + (1-w)*y` of two heights, `x` from ridge A
      and `y` from ridge B: `Interpolate` computes the A-loop heights as
      `w*hA + (1-w)*hB` and the B-loop heights as `(1-w)*hB + w*hA`, the
      same real number. */
  function Mix(w: real, x: real, y: real): real {
    w * x + (1.0 - w) * y
  }

  /** The height profile of a ridge as a total function of the location
      (`getHeight`, with `0.0` standing in for the `NaN` of an ill-formed
      ridge). */
  function HeightFn(r: Ridge): int -> real {
    k => GetHeight(r, k).GetOr(0.0)
  }

  /** The heights the first loop of `Interpolate` gives A's locations:
      `w*hA + (1-w)*hB(loc)`, with `hB` the profile of ridge B. */
  function BlendFromA(ma: map<int, real>, hb: int -> real, w: real): map<int, real> {
    map k | k in ma :: Mix(w, ma[k], hb(k))
  }

  /** The heights the second loop of `Interpolate` gives B's locations
      inside `[0, size)`: `(1-w)*hB + w*hA(loc)`, with `hA` the profile of
      ridge A. */
  function BlendFromB(mb: map<int, real>, ha: int -> real, w: real, size: int): map<int, real> {
    map k | k in mb && 0 <= k < size :: Mix(w, ha(k), mb[k])
  }

  /** The first loop of `Interpolate`: each point `(loc, h)` of ridge A is
      set, unsorted, to `w*h + (1-w)*B.getHeight(loc)`. */
  function InterpFromA(pts: seq<(int, real)>, b: Ridge, w: real, acc: Ridge): (out: Ridge)
    requires Wf(b)
    requires DistinctKeys(pts) && DistinctKeys(acc.points)
    requires forall k :: k in KeySet(pts) ==> 0 <= k < acc.size
    ensures out.size == acc.size
    ensures DistinctKeys(out.points)
    ensures ToMap(out.points) == ToMap(acc.points) + BlendFromA(ToMap(pts), HeightFn(b), w)
    decreases |pts|
  {
    if |pts| == 0 then acc
    else
      var loc := pts[0].0;
      var v := Mix(w, pts[0].1, GetHeight(b, loc).value);
      HeightFnValue(b, loc);
      var acc' := InsertPoint(acc, loc, v, true);
      DistinctHeadNotInTail(pts);
      assert ToMap(pts) == ToMap(pts[1..])[loc := pts[0].1];
      assert KeySet(pts) == KeySet(pts[1..]) + {loc};
      var out := InterpFromA(pts[1..], b, w, acc');
      BlendFromAUpdate(ToMap(pts[1..]), HeightFn(b), w, loc, pts[0].1);
      UpdateThenUnion(ToMap(acc.points), BlendFromA(ToMap(pts[1..]), HeightFn(b), w), loc, v);
      out
  }

  /** The second loop of `Interpolate`: each point `(loc, h)` of ridge B
      whose location is not yet set is set, unsorted and subject to the
      range check, to `(1-w)*h + w*A.getHeight(loc)`. */
  function InterpFromB(pts: seq<(int, real)>, a: Ridge, w: real, acc: Ridge): (out: Ridge)
    requires Wf(a)
    requires DistinctKeys(pts) && DistinctKeys(acc.points)
    ensures out.size == acc.size
    ensures DistinctKeys(out.points)
    ensures ToMap(out.points) == BlendFromB(ToMap(pts), HeightFn(a), w, acc.size) + ToMap(acc.points)
    decreases |pts|
  {
    if |pts| == 0 then acc
    else
      var loc := pts[0].0;
      var v := Mix(w, GetHeight(a, loc).value, pts[0].1);
      HeightFnValue(a, loc);
      var acc' := if loc in KeySet(acc.points) then acc else InsertPoint(acc, loc, v, true);
      DistinctHeadNotInTail(pts);
      var out := InterpFromB(pts[1..], a, w, acc');
      assert ToMap(pts) == ToMap(pts[1..])[loc := pts[0].1];
      BlendFromBUpdate(ToMap(pts[1..]), HeightFn(a), w, acc.size, loc, pts[0].1);
      var rest := BlendFromB(ToMap(pts[1..]), HeightFn(a), w, acc.size);
      assert rest + ToMap(acc'.points) == BlendFromB(ToMap(pts), HeightFn(a), w, acc.size) + ToMap(acc.points) by {
        if 0 <= loc < acc.size {
          if loc in KeySet(acc.points) {
            UpdateUnderUnion(rest, ToMap(acc.points), loc, v);
          } else {
            UpdateThenUnion(rest, ToMap(acc.points), loc, v);
          }
        }
      }
      out
  }

  /** `MaskRidge.Interpolate(A, B, w)`: a well-formed ridge of A's size.
      Its points are A's points, with height `w*hA + (1-w)*B.getHeight(loc)`,
      and B's other points inside `[0, A.size)`, with height
      `(1-w)*hB + w*A.getHeight(loc)`. */
  function Interpolate(a: Ridge, b: Ridge, w: real): (r: Ridge)
    requires Wf(a) && Wf(b)
    ensures Wf(r) && r.size == a.size
    ensures ToMap(r.points) ==
      BlendFromB(ToMap(b.points), HeightFn(a), w, a.size) + BlendFromA(ToMap(a.points), HeightFn(b), w)
  {
    var out0 := New(a.size);
    AscendingDistinct(a.points);
    AscendingDistinct(b.points);
    var out1 := InterpFromA(a.points, b, w, out0);
    var out2 := InterpFromB(b.points, a, w, out1);
    var sorted := SortByKey(out2.points);
    var r := Ridge(a.size, sorted);
    InterpolateWf(a, b, w, out1, out2, r);
    r
  }

  lemma InterpolateWf(a: Ridge, b: Ridge, w: real, out1: Ridge, out2: Ridge, r: Ridge)
    requires Wf(a) && Wf(b)
    requires ToMap(out1.points) == ToMap(New(a.size).points) + BlendFromA(ToMap(a.points), HeightFn(b), w)
    requires ToMap(out2.points) == BlendFromB(ToMap(b.points), HeightFn(a), w, a.size) + ToMap(out1.points)
    requires r.size == a.size && Ascending(r.points) && ToMap(r.points) == ToMap(out2.points)
    ensures Wf(r)
    ensures ToMap(r.points) ==
      BlendFromB(ToMap(b.points), HeightFn(a), w, a.size) + BlendFromA(ToMap(a.points), HeightFn(b), w)
  {
    var blendA := BlendFromA(ToMap(a.points), HeightFn(b), w);
    var blendB := BlendFromB(ToMap(b.points), HeightFn(a), w, a.size);
    FirstLoopCoversNew(a, b, w, out1);
    assert ToMap(r.points) == blendB + blendA;
    BlendKeys(ToMap(a.points), ToMap(b.points), HeightFn(a), HeightFn(b), w, a.size);
    UnionKeysWf(r, a, blendB);
  }

  /** A sorted ridge of A's size holding A's locations plus some inside
      the ridge is well formed. */
  lemma UnionKeysWf(r: Ridge, a: Ridge, extra: map<int, real>)
    requires Wf(a) && r.size == a.size && Ascending(r.points)
    requires ToMap(r.points).Keys == extra.Keys + ToMap(a.points).Keys
    requires forall k :: k in extra ==> 0 <= k < a.size
    ensures Wf(r)
  {
  }

  /** After the first loop the two flat end points of the new ridge are
      overwritten, since A has points at both ends. */
  lemma FirstLoopCoversNew(a: Ridge, b: Ridge, w: real, out1: Ridge)
    requires Wf(a) && Wf(b)
    requires ToMap(out1.points) == ToMap(New(a.size).points) + BlendFromA(ToMap(a.points), HeightFn(b), w)
    ensures ToMap(out1.points) == BlendFromA(ToMap(a.points), HeightFn(b), w)
  {
    var blendA := BlendFromA(ToMap(a.points), HeightFn(b), w);
    BlendKeys(ToMap(a.points), ToMap(b.points), HeightFn(a), HeightFn(b), w, a.size);
    assert ToMap(New(a.size).points).Keys == {0, a.size - 1};
    UnionCovered(ToMap(New(a.size).points), blendA);
  }

  /** The first loop sets exactly A's locations; the second only B's
      locations inside the ridge. */
  lemma BlendKeys(ma: map<int, real>, mb: map<int, real>, ha: int -> real, hb: int -> real, w: real, size: int)
    ensures BlendFromA(ma, hb, w).Keys == ma.Keys
    ensures forall k :: k in BlendFromB(mb, ha, w, size) ==> 0 <= k < size
  {
  }

  /** A union whose right operand holds every key of the left one is the
      right operand. */
  lemma UnionCovered(m: map<int, real>, n: map<int, real>)
    requires m.Keys <= n.Keys
    ensures m + n == n
  {
  }

  /** Setting `k` before a union with a map that lacks `k` is setting it
      after. */
  lemma UpdateThenUnion(m: map<int, real>, n: map<int, real>, k: int, v: real)
    requires k !in n
    ensures m[k := v] + n == m + n[k := v]
    ensures n + m[k := v] == (n + m)[k := v]
  {
  }

  /** Setting `k` under a union with a map that holds `k` has no effect. */
  lemma UpdateUnderUnion(m: map<int, real>, n: map<int, real>, k: int, v: real)
    requires k in n
    ensures m[k := v] + n == m + n
  {
  }

  lemma BlendFromAUpdate(ma: map<int, real>, hb: int -> real, w: real, k: int, h: real)
    ensures BlendFromA(ma[k := h], hb, w) == BlendFromA(ma, hb, w)[k := Mix(w, h, hb(k))]
  {
    var l := BlendFromA(ma[k := h], hb, w);
    var r := BlendFromA(ma, hb, w)[k := Mix(w, h, hb(k))];
    assert l.Keys == r.Keys;
    forall j | j in l ensures l[j] == r[j] {
      if j != k {
        assert ma[k := h][j] == ma[j];
      }
    }
  }

  lemma BlendFromBUpdate(mb: map<int, real>, ha: int -> real, w: real, size: int, k: int, h: real)
    requires k !in mb
    ensures BlendFromB(mb[k := h], ha, w, size) ==
      if 0 <= k < size
      then BlendFromB(mb, ha, w, size)[k := Mix(w, ha(k), h)]
      else BlendFromB(mb, ha, w, size)
  {
    var l := BlendFromB(mb[k := h], ha, w, size);
    var r :=
      if 0 <= k < size
      then BlendFromB(mb, ha, w, size)[k := Mix(w, ha(k), h)]
      else BlendFromB(mb, ha, w, size);
    assert l.Keys == r.Keys;
    forall j | j in l ensures l[j] == r[j] {
      if j != k {
        assert mb[k := h][j] == mb[j];
      }
    }
  }

  lemma HeightFnValue(r: Ridge, k: int)
    requires Wf(r)
    ensures HeightFn(r)(k) == GetHeight(r, k).value
  {
  }

  /** Every stored height of `r` lies in `[lo, hi]`. */
  predicate HeightsWithin(r: Ridge, lo: real, hi: real) {
    forall i :: 0 <= i < |r.points| ==> lo <= r.points[i].1 <= hi
  }

  lemma MixBounded(w: real, x: real, y: real, lo: real, hi: real)
    requires 0.0 <= w <= 1.0 && lo <= x <= hi && lo <= y <= hi
    ensures lo <= Mix(w, x, y) <= hi
  {
    assert Mix(w, x, y) - lo == w * (x - lo) + (1.0 - w) * (y - lo);
    assert hi - Mix(w, x, y) == w * (hi - x) + (1.0 - w) * (hi - y);
    MulNonneg(w, x - lo);
    MulNonneg(1.0 - w, y - lo);
    MulNonneg(w, hi - x);
    MulNonneg(1.0 - w, hi - y);
  }

  lemma MapValueWithin(r: Ridge, k: int, lo: real, hi: real)
    requires DistinctKeys(r.points) && HeightsWithin(r, lo, hi) && k in KeySet(r.points)
    ensures lo <= ToMap(r.points)[k] <= hi
  {
    var i := KeyIndex(r.points, k);
    ToMapDistinct(r.points, i);
  }

  /** With a weight in `[0, 1]`, interpolating two ridges whose heights lie
      in `[lo, hi]` gives a ridge whose heights lie in `[lo, hi]`. */
  lemma InterpolateBounded(a: Ridge, b: Ridge, w: real, lo: real, hi: real)
    requires Wf(a) && Wf(b) && 0.0 <= w <= 1.0
    requires HeightsWithin(a, lo, hi) && HeightsWithin(b, lo, hi)
    ensures HeightsWithin(Interpolate(a, b, w), lo, hi)
  {
    var r := Interpolate(a, b, w);
    var blendA := BlendFromA(ToMap(a.points), HeightFn(b), w);
    var blendB := BlendFromB(ToMap(b.points), HeightFn(a), w, a.size);
    forall i | 0 <= i < |r.points| ensures lo <= r.points[i].1 <= hi {
      var k := r.points[i].0;
      ToMapDistinct(r.points, i);
      GetHeightBounded(a, k, lo, hi);
      GetHeightBounded(b, k, lo, hi);
      if k in blendA {
        MapValueWithin(a, k, lo, hi);
        MixBounded(w, ToMap(a.points)[k], HeightFn(b)(k), lo, hi);
      } else {
        MapValueWithin(b, k, lo, hi);
        MixBounded(w, HeightFn(a)(k), ToMap(b.points)[k], lo, hi);
      }
    }
  }

  /** Interpolating two void ridges with a weight in `[0, 1]` gives a void
      ridge. */
  lemma InterpolateVoid(a: Ridge, b: Ridge, w: real)
    requires Wf(a) && Wf(b) && IsVoid(a) && IsVoid(b) && 0.0 <= w <= 1.0
    ensures IsVoid(Interpolate(a, b, w))
  {
    InterpolateBounded(a, b, w, 0.0, 0.0);
  }
}

=== FILE: mpr_mask_interactor.dfy ===
/** The drag and right-click editing rules of `MprMaskInteractor`
    (src/viewer/MprMaskInteractor.js). The viewport/texture transforms and
    `_hitTest` are not modelled: their results are inputs. */
module MprMaskInteractor {
  import opened Options
  import opened SeqMap
  import MaskRidge
  import MaskFrame

  type Ridge = MaskRidge.Ridge
  type Frame = MaskFrame.Frame

  /** The verdict of `_hitTest`: `'hit_top'`/`'hit_btm'` on the control
      point at `loc` of the ridge at row `row`, `'near_top'`/`'near_btm'`
      with the location and height a new point would get, or `'no_hit'`. */
  datatype HitResult =
    | Hit(top: bool, row: int, loc: int)
    | Near(top: bool, row: int, loc: int, height: real)
    | NoHit

  /** `interactMode`: `'none'`, or `'move_top'`/`'move_btm'` together with
      what `_onStart` captured: the ridge row, the dragged point's location
      (`prevPtLoc`) and the locations of its neighbours
      (`bracketingPtLocs`). */
  datatype Mode = Idle | Moving(top: bool, row: int, ptLoc: int, bracket: (int, int))

  datatype Editor = Editor(frame: Frame, mode: Mode)

  /** `_hitTest` reports a hit only on a control point of a ridge that the
      frame holds. */
  predicate HitFits(f: Frame, hit: HitResult) {
    hit.Hit? ==>
      MaskFrame.GetRidge(f, hit.row, hit.top).Some? &&
      hit.loc in KeySet(MaskFrame.GetRidge(f, hit.row, hit.top).value.points)
  }

  /** What the editor keeps between events: a well-formed frame and, while
      dragging, a ridge at the captured row holding the dragged point,
      whose neighbours are still the captured bracket. */
  predicate Inv(e: Editor) {
    && MaskFrame.Wf(e.frame)
    && (e.mode.Moving? ==>
          var rd := MaskFrame.GetRidge(e.frame, e.mode.row, e.mode.top);
          && rd.Some?
          && e.mode.ptLoc in KeySet(rd.value.points)
          && e.mode.bracket == MaskRidge.GetBracketingLocs(rd.value, e.mode.ptLoc))
  }

  /** The number of control points of a ridge (`numPoints`). */
  function NumPoints(r: Ridge): nat {
    |KeySet(r.points)|
  }

  /** `Math.round`: halves round towards positive infinity. */
  function Round(x: real): (n: int)
    ensures x - 0.5 < n as real <= x + 0.5
  {
    (x + 0.5).Floor
  }

  /** `Math.max(0, Math.min(1, v))`. */
  function Clamp01(x: real): (c: real)
    ensures 0.0 <= c <= 1.0
    ensures 0.0 <= x <= 1.0 ==> c == x
  {
    if x < 0.0 then 0.0 else if x > 1.0 then 1.0 else x
  }

  /** The height a drag stores: `1 - t` on the top ridge and `t` on the
      bottom ridge, `t` being the clamped depth coordinate. */
  function DraggedHeight(top: bool, tz: real): (h: real)
    ensures 0.0 <= h <= 1.0
    ensures top ==> h == 1.0 - Clamp01(tz)
    ensures !top ==> h == Clamp01(tz)
  {
    if top then 1.0 - Clamp01(tz) else Clamp01(tz)
  }

  /** `Math.max(left + 1, Math.min(right - 1, v))`. */
  function ClampLoc(v: int, bracket: (int, int)): (n: int)
    ensures bracket.0 + 1 <= n
    ensures bracket.0 + 1 <= bracket.1 - 1 ==> n <= bracket.1 - 1
    ensures bracket.0 + 1 <= v <= bracket.1 - 1 ==> n == v
  {
    var m := if v < bracket.1 - 1 then v else bracket.1 - 1;
    if m < bracket.0 + 1 then bracket.0 + 1 else m
  }

  /** `_onStart`: ignored while a drag is under way or when the event is
      not accepted (`enabled` and a matching mouse event); a hit on a top
      or bottom point starts a drag of that point, anything else stays
      idle. */
  function OnStart(e: Editor, accepted: bool, hit: HitResult): (r: Editor)
    requires HitFits(e.frame, hit)
    ensures r.frame == e.frame
    ensures e.mode.Moving? ==> r == e
    ensures e.mode.Idle? ==> (r.mode.Moving? <==> accepted && hit.Hit?)
    ensures e.mode.Idle? && r.mode.Moving? ==>
      r.mode.top == hit.top && r.mode.row == hit.row && r.mode.ptLoc == hit.loc
    ensures Inv(e) ==> Inv(r)
  {
    if e.mode.Moving? || !accepted then e
    else
      match hit
      case Hit(top, row, loc) =>
        var ridge := MaskFrame.GetRidge(e.frame, row, top).value;
        Editor(e.frame, Moving(top, row, loc, MaskRidge.GetBracketingLocs(ridge, loc)))
      case _ => e
  }

  /** The location `_onMove` moves the dragged point to: an end point stays
      put, an interior point follows the cursor's x texture coordinate
      `tx` (scaled by the volume width) clamped strictly inside the
      captured bracket. */
  function NewPtLoc(ptLoc: int, xdim: int, bracket: (int, int), tx: real, width: int): (n: int)
    ensures ptLoc == 0 || ptLoc == xdim - 1 ==> n == ptLoc
    ensures ptLoc != 0 && ptLoc != xdim - 1 ==> bracket.0 < n
    ensures ptLoc != 0 && ptLoc != xdim - 1 && bracket.0 + 1 < bracket.1 ==> n < bracket.1
  {
    if ptLoc == 0 || ptLoc == xdim - 1 then ptLoc
    else ClampLoc(Round(Clamp01(tx) * (width - 1) as real), bracket)
  }

  /** `_onMove`: outside a drag nothing happens; during a drag the dragged
      point is removed and re-inserted at its new location with the
      dragged height, on the ridge captured at the start. */
  function OnMove(e: Editor, tx: real, tz: real, width: int): (r: Editor)
    ensures e.mode.Idle? ==> r == e
    ensures r.mode.Moving? == e.mode.Moving?
    ensures e.mode.Moving? ==>
      r.mode == e.mode.(ptLoc := NewPtLoc(e.mode.ptLoc, e.frame.xdim, e.mode.bracket, tx, width))
    ensures r.frame.xdim == e.frame.xdim && r.frame.ydim == e.frame.ydim
  {
    match e.mode
    case Idle => e
    case Moving(top, row, ptLoc, bracket) =>
      var newLoc := NewPtLoc(ptLoc, e.frame.xdim, bracket, tx, width);
      var mode := e.mode.(ptLoc := newLoc);
      match MaskFrame.GetRidge(e.frame, row, top)
      // The captured ridge always exists (see `Inv`).
      case None => Editor(e.frame, mode)
      case Some(ridge) =>
        var moved := MaskRidge.InsertPoint(MaskRidge.RemovePoint(ridge, ptLoc), newLoc, DraggedHeight(top, tz), false);
        Editor(MaskFrame.InsertRidge(e.frame, row, moved, top), mode)
  }

  /** `_onEnd`: the drag, if any, ends; the frame is kept. */
  function OnEnd(e: Editor): (r: Editor)
    ensures r.frame == e.frame && r.mode.Idle?
    ensures Inv(e) ==> Inv(r)
  {
    Editor(e.frame, Idle)
  }

  /** `_onClick`: only a right click (button 2) while idle does anything. A
      hit on an interior point removes it; an end point is never removed.
      A near miss inserts a point on the ridge of that side. The flag says
      whether the mask was reported modified; a missing ridge raises an
      error that the handler catches, changing nothing. */
  function OnClick(e: Editor, button: int, hit: HitResult): (r: (Editor, bool))
    ensures button != 2 || e.mode.Moving? || hit.NoHit? ==> r == (e, false)
    ensures r.0.mode == e.mode
    ensures r.0.frame.xdim == e.frame.xdim && r.0.frame.ydim == e.frame.ydim
    ensures !r.1 ==> r.0 == e
    ensures r.1 && hit.Hit? ==> 0 < hit.loc < e.frame.xdim - 1
    ensures Inv(e) ==> Inv(r.0)
  {
    if button != 2 || e.mode.Moving? then (e, false)
    else
      match hit
      case NoHit => (e, false)
      case Hit(top, row, loc) =>
        if 0 < loc < e.frame.xdim - 1 then
          match MaskFrame.GetRidge(e.frame, row, top)
          case None => (e, false)
          case Some(ridge) =>
            var edited := MaskRidge.RemovePoint(ridge, loc);
            assert MaskFrame.Wf(e.frame) ==> MaskFrame.Wf(MaskFrame.InsertRidge(e.frame, row, edited, top)) by {
              if MaskFrame.Wf(e.frame) {
                MaskFrame.GetRidgeWf(e.frame, row, top);
              }
            }
            (Editor(MaskFrame.InsertRidge(e.frame, row, edited, top), e.mode), true)
        else (e, false)
      case Near(top, row, loc, height) =>
        match MaskFrame.GetRidge(e.frame, row, top)
        case None => (e, false)
        case Some(ridge) =>
          var edited := MaskRidge.InsertPoint(ridge, loc, height, false);
          assert MaskFrame.Wf(e.frame) ==> MaskFrame.Wf(MaskFrame.InsertRidge(e.frame, row, edited, top)) by {
            if MaskFrame.Wf(e.frame) {
              MaskFrame.GetRidgeWf(e.frame, row, top);
            }
          }
          (Editor(MaskFrame.InsertRidge(e.frame, row, edited, top), e.mode), true)
  }

  /** The ridge being dragged. */
  function DraggedRidge(e: Editor): Option<Ridge>
    requires e.mode.Moving?
  {
    MaskFrame.GetRidge(e.frame, e.mode.row, e.mode.top)
  }

  /** After removing the dragged point, its new location is free: every
      other point lies at or beyond the captured bracket. */
  lemma MovedKeys(keys: set<int>, p: int, p': int, last: int, bracket: (int, int))
    requires forall k :: k in keys ==> 0 <= k <= last
    requires IsBracket(keys, p, last, bracket) && p in keys
    requires 0 < p < last && bracket.0 < p' < bracket.1
    ensures p' !in keys - {p}
    ensures |keys - {p} + {p'}| == |keys|
    ensures IsBracket(keys - {p} + {p'}, p', last, bracket)
  {
  }

  /** Moving a point of a well-formed ridge, as a drag does, within its
      bracket (or onto itself, for an end point) keeps the ridge well
      formed and trades the old location for the new one. */
  lemma MoveRidgeKeys(ridge: Ridge, p: int, p': int, h: real)
    requires MaskRidge.Wf(ridge) && p in KeySet(ridge.points)
    requires p == 0 || p == ridge.size - 1 ==> p' == p
    requires 0 < p < ridge.size - 1 ==>
      MaskRidge.GetBracketingLocs(ridge, p).0 < p' < MaskRidge.GetBracketingLocs(ridge, p).1
    ensures var moved := MaskRidge.InsertPoint(MaskRidge.RemovePoint(ridge, p), p', h, false);
      && MaskRidge.Wf(moved)
      && moved.size == ridge.size
      && KeySet(moved.points) == KeySet(ridge.points) - {p} + {p'}
      && ToMap(moved.points) == (ToMap(ridge.points) - {p})[p' := h]
  {
    var keys := KeySet(ridge.points);
    var removed := MaskRidge.RemovePoint(ridge, p);
    var moved := MaskRidge.InsertPoint(removed, p', h, false);
    assert 0 <= p' < ridge.size by {
      if 0 < p < ridge.size - 1 {
        var bracket := MaskRidge.GetBracketingLocs(ridge, p);
        assert bracket.0 in keys && bracket.1 in keys;
      }
    }
    assert DistinctKeys(ridge.points) by {
      AscendingDistinct(ridge.points);
    }
    assert ToMap(removed.points) == ToMap(ridge.points) - {p} && Ascending(removed.points);
    assert DistinctKeys(removed.points) by {
      AscendingDistinct(removed.points);
    }
    assert ToMap(moved.points) == ToMap(removed.points)[p' := h] && Ascending(moved.points);
    assert KeySet(moved.points) == keys - {p} + {p'};
    MovedWf(ridge, moved, p, p');
  }

  /** A sorted ridge of the same size whose locations are the old ones with
      `p` traded for `p'` inside the ridge, the end points kept, is well
      formed. */
  lemma MovedWf(ridge: Ridge, moved: Ridge, p: int, p': int)
    requires MaskRidge.Wf(ridge) && moved.size == ridge.size && Ascending(moved.points)
    requires KeySet(moved.points) == KeySet(ridge.points) - {p} + {p'}
    requires 0 <= p' < ridge.size && (p == 0 || p == ridge.size - 1 ==> p' == p)
    ensures MaskRidge.Wf(moved)
  {
  }

  /** The moved point keeps its bracket and the ridge its point count. */
  lemma MoveRidgeBracket(ridge: Ridge, p: int, p': int, moved: Ridge)
    requires MaskRidge.Wf(ridge) && p in KeySet(ridge.points)
    requires p == 0 || p == ridge.size - 1 ==> p' == p
    requires 0 < p < ridge.size - 1 ==>
      MaskRidge.GetBracketingLocs(ridge, p).0 < p' < MaskRidge.GetBracketingLocs(ridge, p).1
    requires MaskRidge.Wf(moved) && moved.size == ridge.size
    requires KeySet(moved.points) == KeySet(ridge.points) - {p} + {p'}
    ensures NumPoints(moved) == NumPoints(ridge)
    ensures MaskRidge.GetBracketingLocs(moved, p') == MaskRidge.GetBracketingLocs(ridge, p)
  {
    var keys := KeySet(ridge.points);
    var last := ridge.size - 1;
    var bracket := MaskRidge.GetBracketingLocs(ridge, p);
    if 0 < p < last {
      MovedKeys(keys, p, p', last, bracket);
    } else {
      assert keys - {p} + {p'} == keys;
    }
    BracketUnique(KeySet(moved.points), p', last, MaskRidge.GetBracketingLocs(moved, p'), bracket);
  }

  /** A drag step keeps the editor invariant, including a well-formed
      frame; the dragged ridge keeps its number of points, trades the old
      location for the new one, and stores the dragged height there, which
      lies in `[0, 1]`. */
  lemma MoveKeepsInv(e: Editor, tx: real, tz: real, width: int)
    requires Inv(e) && e.mode.Moving?
    ensures Inv(OnMove(e, tx, tz, width))
    ensures DraggedRidge(OnMove(e, tx, tz, width)).Some?
    ensures NumPoints(DraggedRidge(OnMove(e, tx, tz, width)).value) == NumPoints(DraggedRidge(e).value)
    ensures KeySet(DraggedRidge(OnMove(e, tx, tz, width)).value.points)
         == KeySet(DraggedRidge(e).value.points) - {e.mode.ptLoc} + {OnMove(e, tx, tz, width).mode.ptLoc}
    ensures ToMap(DraggedRidge(OnMove(e, tx, tz, width)).value.points)[OnMove(e, tx, tz, width).mode.ptLoc]
         == DraggedHeight(e.mode.top, tz)
  {
    var f := e.frame;
    var m := e.mode;
    var ridge := DraggedRidge(e).value;
    MaskFrame.GetRidgeWf(f, m.row, m.top);
    var p' := NewPtLoc(m.ptLoc, f.xdim, m.bracket, tx, width);
    var h := DraggedHeight(m.top, tz);
    MoveRidgeKeys(ridge, m.ptLoc, p', h);
    var moved := MaskRidge.InsertPoint(MaskRidge.RemovePoint(ridge, m.ptLoc), p', h, false);
    MoveRidgeBracket(ridge, m.ptLoc, p', moved);
    var r := OnMove(e, tx, tz, width);
    assert r.frame == MaskFrame.InsertRidge(f, m.row, moved, m.top);
    MaskFrame.InsertThenGet(f, m.row, moved, m.top);
  }

  /** An effective right click replaces the clicked ridge by its edited
      copy. */
  lemma ClickFrame(e: Editor, hit: HitResult)
    requires Inv(e) && e.mode.Idle? && !hit.NoHit?
    requires MaskFrame.GetRidge(e.frame, hit.row, hit.top).Some?
    requires !(hit.Hit? && !(0 < hit.loc < e.frame.xdim - 1))
    ensures var before := MaskFrame.GetRidge(e.frame, hit.row, hit.top).value;
      var edited := if hit.Hit? then MaskRidge.RemovePoint(before, hit.loc)
                    else MaskRidge.InsertPoint(before, hit.loc, hit.height, false);
      OnClick(e, 2, hit).0.frame == MaskFrame.InsertRidge(e.frame, hit.row, edited, hit.top)
  {
  }

  /** What an effective right click changes: only the clicked ridge, which
      loses the clicked interior point on a hit (nothing on an end point)
      or gains the proposed point on a near miss. */
  lemma ClickEdits(e: Editor, hit: HitResult)
    requires Inv(e) && e.mode.Idle? && !hit.NoHit?
    requires MaskFrame.GetRidge(e.frame, hit.row, hit.top).Some?
    ensures var r := OnClick(e, 2, hit).0;
      var before := MaskFrame.GetRidge(e.frame, hit.row, hit.top).value;
      && MaskFrame.Ridges(r.frame, !hit.top) == MaskFrame.Ridges(e.frame, !hit.top)
      && MaskFrame.GetRidge(r.frame, hit.row, hit.top).Some?
      && var after := MaskFrame.GetRidge(r.frame, hit.row, hit.top).value;
      && ToMap(MaskFrame.Ridges(r.frame, hit.top))
         == ToMap(MaskFrame.Ridges(e.frame, hit.top))[hit.row := after]
      && (hit.Hit? && 0 < hit.loc < e.frame.xdim - 1 ==>
            ToMap(after.points) == ToMap(before.points) - {hit.loc})
      && (hit.Hit? && !(0 < hit.loc < e.frame.xdim - 1) ==> after == before)
      && (hit.Near? && 0 <= hit.loc < e.frame.xdim ==>
            ToMap(after.points) == ToMap(before.points)[hit.loc := hit.height])
  {
    var before := MaskFrame.GetRidge(e.frame, hit.row, hit.top).value;
    assert DistinctKeys(MaskFrame.Ridges(e.frame, hit.top)) by {
      AscendingDistinct(MaskFrame.Ridges(e.frame, hit.top));
    }
    if hit.Hit? && !(0 < hit.loc < e.frame.xdim - 1) {
      assert OnClick(e, 2, hit).0 == e;
    } else {
      var edited := if hit.Hit? then MaskRidge.RemovePoint(before, hit.loc)
                    else MaskRidge.InsertPoint(before, hit.loc, hit.height, false);
      assert MaskRidge.Wf(before) && DistinctKeys(before.points) by {
        MaskFrame.GetRidgeWf(e.frame, hit.row, hit.top);
        AscendingDistinct(before.points);
      }
      ClickFrame(e, hit);
      MaskFrame.InsertThenGet(e.frame, hit.row, edited, hit.top);
    }
  }
}

=== FILE: options.dfy ===
/** The optional value used throughout the model: `None` stands for a
    JavaScript `undefined`/`null` or a Python `None`. */
module Options {

  datatype Option<+T> = None | Some(value: T) {

    /** The wrapped value, or `default` when there is none. */
    function GetOr(default: T): T {
      match this
      case Some(v) => v
      case None => default
    }
  }
}

=== FILE: resample.dfy ===
/** What `process_next_slice` does to the pixels of a slice: the crop by
    Python slicing, and the lateral and depth downscaling by
    `skimage.transform.downscale_local_mean` followed by `astype(uint16)`.
    For the downscaling only the output shape is claimed; its pixel values
    are written as the zero-padded block mean rounded down. */
module Resample {
  import opened Options
  import opened CropParams

  /** A slice: rows of pixel values. */
  type Image = seq<seq<int>>

  predicate IsShape(img: Image, h: int, w: int) {
    |img| == h && forall i :: 0 <= i < |img| ==> |img[i]| == w
  }

  /** The width of a rectangular image (0 for an image without rows). */
  function Width(img: Image): nat {
    if |img| == 0 then 0 else |img[0]|
  }

  /** Where a Python slice bound lands in a sequence of length `n`: a
      negative bound counts from the end, and the result is clipped to
      `[0, n]`. */
  function SliceBound(i: int, n: nat): (b: nat)
    ensures b <= n
    ensures 0 <= i <= n ==> b == i
    ensures i > n ==> b == n
    ensures i < 0 ==> b == if i + n < 0 then 0 else i + n
  {
    if i < 0 then (if i + n < 0 then 0 else i + n)
    else if i > n then n
    else i
  }

  /** Python `s[start:stop]`. */
  function PySlice<T>(s: seq<T>, start: int, stop: int): (r: seq<T>)
    ensures 0 <= start <= stop <= |s| ==> r == s[start..stop]
    ensures |r| == if SliceBound(start, |s|) <= SliceBound(stop, |s|)
                   then SliceBound(stop, |s|) - SliceBound(start, |s|) else 0
    ensures forall k :: 0 <= k < |r| ==> r[k] == s[SliceBound(start, |s|) + k]
  {
    var a := SliceBound(start, |s|);
    var b := SliceBound(stop, |s|);
    if a <= b then s[a..b] else []
  }

  /** `layer_img[top:bottom + 1, left:right + 1]`: row `i` of the crop is
      image row `top + i` (with `top` taken as a Python slice bound), cut
      to the columns `left..right` the same way. Out-of-range bounds are
      clipped, not rejected. */
  function Crop(img: Image, p: Params): (c: Image)
    ensures |c| == |PySlice(img, p.top, p.bottom + 1)|
    ensures |c| <= |img|
    ensures forall i :: 0 <= i < |c| ==>
      c[i] == PySlice(img[SliceBound(p.top, |img|) + i], p.left, p.right + 1)
  {
    var rows := PySlice(img, p.top, p.bottom + 1);
    seq(|rows|, i requires 0 <= i < |rows| => PySlice(rows[i], p.left, p.right + 1))
  }

  /** A rectangle inside the slice is cut out exactly: rows `top..bottom`
      and columns `left..right`, both inclusive, pixel for pixel. */
  lemma CropExact(img: Image, h: int, w: int, p: Params)
    requires IsShape(img, h, w)
    requires 0 <= p.top <= p.bottom < h && 0 <= p.left <= p.right < w
    ensures IsShape(Crop(img, p), p.bottom - p.top + 1, p.right - p.left + 1)
    ensures forall i, j :: 0 <= i <= p.bottom - p.top && 0 <= j <= p.right - p.left ==>
      Crop(img, p)[i][j] == img[p.top + i][p.left + j]
  {
  }

  /** The sum of `row[c]` for `c0 <= c < c1`, places past the end of the
      row counting as 0. */
  function RowSum(row: seq<int>, c0: int, c1: int): int
    decreases c1 - c0
  {
    if c0 >= c1 then 0 else (if 0 <= c0 < |row| then row[c0] else 0) + RowSum(row, c0 + 1, c1)
  }

  /** The sum of the block of rows `[r0, r1)` and columns `[c0, c1)`,
      places outside the image counting as 0. */
  function BlockSum(img: Image, r0: int, r1: int, c0: int, c1: int): int
    decreases r1 - r0
  {
    if r0 >= r1 then 0 else (if 0 <= r0 < |img| then RowSum(img[r0], c0, c1) else 0) + BlockSum(img, r0 + 1, r1, c0, c1)
  }

  /** The pixel for the `f`×`f` block whose top-left corner is
      `(r0, c0)`: the block mean, rounded down. */
  function BlockMean(img: Image, r0: int, c0: int, f: int): int
    requires f >= 1
  {
    var area := f * f;
    assert area >= 1 by {
      MulAtLeast(f, f);
    }
    BlockSum(img, r0, r0 + f, c0, c0 + f) / area
  }

  /** `downscale_local_mean(img, (f, f)).astype(np.uint16)`: one pixel per
      `f`×`f` block, the image padded with zeros up to whole blocks. */
  function DownscaleXY(img: Image, f: int): (r: Image)
    requires f >= 1
    ensures IsShape(r, CeilDiv(|img|, f), CeilDiv(Width(img), f))
  {
    var h := CeilDiv(|img|, f);
    var w := CeilDiv(Width(img), f);
    CeilDivNonnegative(|img|, f);
    CeilDivNonnegative(Width(img), f);
    seq(h, i requires 0 <= i < h => seq(w, j requires 0 <= j < w => BlockMean(img, i * f, j * f, f)))
  }

  /** Downscaling by 1 changes nothing. */
  lemma DownscaleXYByOne(img: Image, h: int, w: int)
    requires IsShape(img, h, w)
    ensures DownscaleXY(img, 1) == img
  {
    var r := DownscaleXY(img, 1);
    CeilDivOne(|img|);
    CeilDivOne(Width(img));
    forall i | 0 <= i < |img| ensures r[i] == img[i] {
      forall j | 0 <= j < |img[i]| ensures r[i][j] == img[i][j] {
        assert i * 1 == i && j * 1 == j;
        BlockMeanOne(img, i, j);
      }
    }
  }

  lemma BlockMeanOne(img: Image, i: int, j: int)
    requires 0 <= i < |img| && 0 <= j < |img[i]|
    ensures BlockMean(img, i, j, 1) == img[i][j]
  {
    assert RowSum(img[i], j, j + 1) == img[i][j];
    assert BlockSum(img, i, i + 1, j, j + 1) == img[i][j];
  }

  /** The sum over slices `[z0, z1)` of pixel `(i, j)`, missing slices
      and places counting as 0. */
  function DepthSum(vol: seq<Image>, z0: int, z1: int, i: int, j: int): int
    decreases z1 - z0
  {
    if z0 >= z1 then 0
    else
      (if 0 <= z0 < |vol| && 0 <= i < |vol[z0]| && 0 <= j < |vol[z0][i]| then vol[z0][i][j] else 0)
        + DepthSum(vol, z0 + 1, z1, i, j)
  }

  /** `downscale_local_mean(out_vol, (f, 1, 1)).astype(np.uint16)` on a
      volume of `h`×`w` slices: one slice per block of `f` slices, the
      volume padded with zero slices up to whole blocks. */
  function DownscaleDepth(vol: seq<Image>, f: int, h: nat, w: nat): (r: seq<Image>)
    requires f >= 1
    ensures |r| == CeilDiv(|vol|, f)
    ensures forall k :: 0 <= k < |r| ==> IsShape(r[k], h, w)
  {
    var n := CeilDiv(|vol|, f);
    seq(n, k requires 0 <= k < n =>
      seq(h, i requires 0 <= i < h => seq(w, j requires 0 <= j < w => DepthSum(vol, k * f, k * f + f, i, j) / f)))
  }

  /** Depth downscaling by 1 changes nothing. */
  lemma DownscaleDepthByOne(vol: seq<Image>, h: nat, w: nat)
    requires forall k :: 0 <= k < |vol| ==> IsShape(vol[k], h, w)
    ensures DownscaleDepth(vol, 1, h, w) == vol
  {
    var r := DownscaleDepth(vol, 1, h, w);
    CeilDivOne(|vol|);
    forall k | 0 <= k < |vol| ensures r[k] == vol[k] {
      forall i | 0 <= i < h ensures r[k][i] == vol[k][i] {
        forall j | 0 <= j < w ensures r[k][i][j] == vol[k][i][j] {
          assert DepthSum(vol, k, k + 1, i, j) == vol[k][i][j];
        }
      }
    }
  }

  /** The crop, then the lateral downscale when the factor exceeds 1. */
  function ProcessSlice(img: Image, p: Params): (r: Image)
    requires p.xy >= 1
    ensures p.xy == 1 ==> r == Crop(img, p)
  {
    var c := Crop(img, p);
    if p.xy > 1 then DownscaleXY(c, p.xy) else c
  }

  /** With the corrected checks, every processed slice has the size the
      cropper announces for it. */
  lemma ProcessedSliceSize(img: Image, p: Params, s: Shape)
    requires Checked(p, s) && IsShape(img, s.height, s.width)
    ensures IsShape(ProcessSlice(img, p), OutputSizeOf(p, s).height, OutputSizeOf(p, s).width)
  {
    CropExact(img, s.height, s.width, p);
    var c := Crop(img, p);
    assert Width(c) == p.right - p.left + 1;
    if p.xy == 1 {
      CeilDivOne(p.right - p.left + 1);
      CeilDivOne(p.bottom - p.top + 1);
    }
  }

  /** As written, the validator lets a crop start above the slice: with
      `top = -1` and `bottom = 0` on a slice two rows high, the announced
      height is 2 but Python's negative index makes the crop empty. */
  lemma UncheckedTopMismatch()
    ensures var s := Shape(1, 2, 1);
            var f := Fields(Some(1), Some(1), Some(0), Some(0), Some(0), Some(-1));
            var img: Image := [[5], [7]];
            var p := Params(0, -1, 0, 0, 1, 1);
            && ParamsValidAsWritten(f, s) && !ParamsValid(f, s) && Parse(f) == Some(p)
            && IsShape(img, s.height, s.width)
            && OutputSizeOf(p, s).height == 2 && |ProcessSlice(img, p)| == 0
  {
    var img: Image := [[5], [7]];
    var p := Params(0, -1, 0, 0, 1, 1);
    CeilDivOne(2);
    assert SliceBound(-1, 2) == 1 && SliceBound(1, 2) == 1;
    assert |PySlice(img, -1, 1)| == 0;
    assert ProcessSlice(img, p) == Crop(img, p);
  }

  /** Likewise a crop may end below the slice: with `bottom = 5` on a
      slice two rows high it announces 6 rows and delivers 2. */
  lemma UncheckedBottomMismatch()
    ensures var s := Shape(1, 2, 1);
            var f := Fields(Some(1), Some(1), Some(0), Some(5), Some(0), Some(0));
            var img: Image := [[5], [7]];
            var p := Params(0, 0, 0, 5, 1, 1);
            && ParamsValidAsWritten(f, s) && !ParamsValid(f, s) && Parse(f) == Some(p)
            && OutputSizeOf(p, s).height == 6 && |ProcessSlice(img, p)| == 2
  {
    var img: Image := [[5], [7]];
    var p := Params(0, 0, 0, 5, 1, 1);
    CeilDivOne(6);
    assert SliceBound(0, 2) == 0 && SliceBound(6, 2) == 2;
    assert |PySlice(img, 0, 6)| == 2;
    assert ProcessSlice(img, p) == Crop(img, p);
  }

  /** Both ways the unchecked rows make the delivered slice differ from
      the announced size. */
  lemma UncheckedRowsMismatch()
    ensures var s := Shape(1, 2, 1);
            var img: Image := [[5], [7]];
            var p := Params(0, -1, 0, 0, 1, 1);
            && ParamsValidAsWritten(Fields(Some(1), Some(1), Some(0), Some(0), Some(0), Some(-1)), s)
            && OutputSizeOf(p, s).height != |ProcessSlice(img, p)|
    ensures var s := Shape(1, 2, 1);
            var img: Image := [[5], [7]];
            var p := Params(0, 0, 0, 5, 1, 1);
            && ParamsValidAsWritten(Fields(Some(1), Some(1), Some(0), Some(5), Some(0), Some(0)), s)
            && OutputSizeOf(p, s).height != |ProcessSlice(img, p)|
  {
    UncheckedTopMismatch();
    UncheckedBottomMismatch();
  }
}

=== FILE: seq_map.dfy ===
/** A JavaScript `Map` with integer keys, as used by the relief-mask classes
    (`MaskRidge.points`, `MaskFrame.topRidges`/`btmRidges`): a sequence of
    `(key, value)` entries in iteration order. `Map.prototype.set` on a new
    key appends the entry, on an existing key it replaces the value in
    place; `delete` removes the one entry; iteration visits entries in
    order. The source re-sorts a map by key by rebuilding it from a sorted
    array of its entries, which `SortByKey` models. */
module SeqMap {
  import opened Options

  /** The key-to-value mapping the entries denote (`Map.prototype.get`).
      A JavaScript `Map` never holds a key twice; should a sequence do so,
      its first entry wins, as it would for a lookup scanning in order. */
  function ToMap<V>(m: seq<(int, V)>): map<int, V>
    decreases |m|
  {
    if |m| == 0 then map[] else ToMap(m[1..])[m[0].0 := m[0].1]
  }

  /** The keys present in the map (`Map.prototype.has`). */
  function KeySet<V>(m: seq<(int, V)>): set<int> {
    ToMap(m).Keys
  }

  /** `Map.prototype.get`: the value stored under `k`, if any. */
  function Get<V>(m: seq<(int, V)>, k: int): Option<V> {
    if k in ToMap(m) then Some(ToMap(m)[k]) else None
  }

  /** Every key occurs once (true of every JavaScript `Map`). */
  predicate DistinctKeys<V>(m: seq<(int, V)>) {
    forall i, j :: 0 <= i < j < |m| ==> m[i].0 != m[j].0
  }

  /** Keys strictly increase along the iteration order. */
  predicate Ascending<V>(m: seq<(int, V)>) {
    forall i, j :: 0 <= i < j < |m| ==> m[i].0 < m[j].0
  }

  /** `Map.prototype.set`: replaces the value of an existing key where it
      stands, or appends a new entry at the end. */
  function Put<V>(m: seq<(int, V)>, k: int, v: V): (r: seq<(int, V)>)
    ensures ToMap(r) == ToMap(m)[k := v]
    ensures k !in ToMap(m) ==> r == m + [(k, v)]
    ensures k in ToMap(m) ==> |r| == |m| && forall i :: 0 <= i < |m| ==> r[i].0 == m[i].0
    decreases |m|
  {
    if |m| == 0 then [(k, v)]
    else if m[0].0 == k then [(k, v)] + m[1..]
    else
      var rest := Put(m[1..], k, v);
      assert ([m[0]] + rest)[1..] == rest;
      [m[0]] + rest
  }

  /** `Map.prototype.delete`: removes the entry of key `k`, if present. */
  function Delete<V>(m: seq<(int, V)>, k: int): (r: seq<(int, V)>)
    ensures k !in ToMap(m) ==> r == m
    ensures k in ToMap(m) ==> |r| == |m| - 1
    ensures multiset(r) <= multiset(m)
    decreases |m|
  {
    if |m| == 0 then m
    else
      assert m == [m[0]] + m[1..];
      if m[0].0 == k then m[1..]
      else [m[0]] + Delete(m[1..], k)
  }

  /** Inserts entry `e` into a key-sorted sequence before the first entry
      whose key is not smaller (one pass of an insertion sort). */
  function InsertByKey<V>(e: (int, V), s: seq<(int, V)>): (r: seq<(int, V)>)
    ensures multiset(r) == multiset(s) + multiset{e}
    decreases |s|
  {
    if |s| == 0 then [e]
    else if e.0 <= s[0].0 then [e] + s
    else
      assert s == [s[0]] + s[1..];
      [s[0]] + InsertByKey(e, s[1..])
  }

  /** Rebuilding a map from its entries sorted by key, as
      `new Map([...m.entries()].sort((e1, e2) => e1[0] - e2[0]))` does: the
      same entries, and with distinct keys, ascending and denoting the same
      mapping. */
  function SortByKey<V>(m: seq<(int, V)>): (r: seq<(int, V)>)
    ensures multiset(r) == multiset(m)
    ensures DistinctKeys(m) ==> Ascending(r) && ToMap(r) == ToMap(m)
    decreases |m|
  {
    if |m| == 0 then m
    else
      assert m == [m[0]] + m[1..];
      var rest := SortByKey(m[1..]);
      var r := InsertByKey(m[0], rest);
      assert DistinctKeys(m) ==> Ascending(r) && ToMap(r) == ToMap(m) by {
        if DistinctKeys(m) {
          InsertHeadSorted(m, rest);
        }
      }
      r
  }

  /** One step of `SortByKey`: the head of a map with distinct keys,
      inserted into the sorted rest, gives a sorted map with the same
      mapping. */
  lemma InsertHeadSorted<V>(m: seq<(int, V)>, rest: seq<(int, V)>)
    requires DistinctKeys(m) && |m| > 0
    requires multiset(rest) == multiset(m[1..]) && Ascending(rest)
    ensures Ascending(InsertByKey(m[0], rest))
    ensures ToMap(InsertByKey(m[0], rest)) == ToMap(m)
  {
    var r := InsertByKey(m[0], rest);
    KeySetOfPermutation(m[1..], rest);
    DistinctHeadNotInTail(m);
    InsertByKeyAscending(m[0], rest);
    AscendingDistinct(r);
    assert m == [m[0]] + m[1..];
    ToMapOfPermutation(m, r);
  }

  /** `set` followed, when `sort` holds and the key was new, by the
      re-sort: the insert discipline of `MaskRidge.insertPoint` (with
      `sort == !omitSort`) and of `MaskFrame.insertRidge` (always sorting).
      Afterwards `k` holds `v`, nothing else changes, and a sorting insert
      keeps the keys ascending. */
  function Insert<V>(m: seq<(int, V)>, k: int, v: V, sort: bool): (r: seq<(int, V)>)
    ensures KeySet(r) == KeySet(m) + {k}
    ensures DistinctKeys(m) ==> ToMap(r) == ToMap(m)[k := v] && DistinctKeys(r)
    ensures Ascending(m) && sort ==> Ascending(r)
  {
    var needToSort := sort && k !in KeySet(m);
    var m1 := Put(m, k, v);
    var r := if needToSort then SortByKey(m1) else m1;
    assert KeySet(r) == KeySet(m1) by {
      if needToSort {
        KeySetOfPermutation(m1, r);
      }
    }
    assert DistinctKeys(m) ==> DistinctKeys(r) && ToMap(r) == ToMap(m1) by {
      if DistinctKeys(m) {
        PutDistinct(m, k, v);
        if needToSort {
          AscendingDistinct(r);
        }
      }
    }
    assert Ascending(m) && sort ==> Ascending(r) by {
      if Ascending(m) && sort {
        AscendingDistinct(m);
        PutDistinct(m, k, v);
      }
    }
    r
  }

  lemma {:induction false} KeyOfIndex<V>(m: seq<(int, V)>, i: int)
    requires 0 <= i < |m|
    ensures m[i].0 in KeySet(m)
    decreases |m|
  {
    if i > 0 {
      KeyOfIndex(m[1..], i - 1);
    }
  }

  lemma {:induction false} KeyIndex<V>(m: seq<(int, V)>, k: int) returns (i: nat)
    requires k in KeySet(m)
    ensures i < |m| && m[i].0 == k
    decreases |m|
  {
    if m[0].0 == k {
      i := 0;
    } else {
      var j := KeyIndex(m[1..], k);
      i := j + 1;
    }
  }

  /** On a map with distinct keys, `get` returns the value of the entry. */
  lemma {:induction false} ToMapDistinct<V>(m: seq<(int, V)>, i: int)
    requires DistinctKeys(m) && 0 <= i < |m|
    ensures m[i].0 in ToMap(m) && ToMap(m)[m[i].0] == m[i].1
    decreases |m|
  {
    if i > 0 {
      assert m[0].0 != m[i].0;
      ToMapDistinct(m[1..], i - 1);
    }
  }

  lemma AscendingDistinct<V>(m: seq<(int, V)>)
    requires Ascending(m)
    ensures DistinctKeys(m)
  {
  }

  lemma DistinctHeadNotInTail<V>(m: seq<(int, V)>)
    requires DistinctKeys(m) && |m| > 0
    ensures m[0].0 !in KeySet(m[1..])
  {
    if m[0].0 in KeySet(m[1..]) {
      var i := KeyIndex(m[1..], m[0].0);
    }
  }

  lemma KeySetOfPermutation<V>(a: seq<(int, V)>, b: seq<(int, V)>)
    requires multiset(a) == multiset(b)
    ensures KeySet(a) == KeySet(b)
  {
    forall k | k in KeySet(a) ensures k in KeySet(b) {
      var i := KeyIndex(a, k);
      assert a[i] in multiset(b);
      var j :| 0 <= j < |b| && b[j] == a[i];
      KeyOfIndex(b, j);
    }
    forall k | k in KeySet(b) ensures k in KeySet(a) {
      var i := KeyIndex(b, k);
      assert b[i] in multiset(a);
      var j :| 0 <= j < |a| && a[j] == b[i];
      KeyOfIndex(a, j);
    }
  }

  /** Two maps holding the same entries with distinct keys denote the same
      mapping. */
  lemma ToMapOfPermutation<V>(a: seq<(int, V)>, b: seq<(int, V)>)
    requires multiset(a) == multiset(b)
    requires DistinctKeys(a) && DistinctKeys(b)
    ensures ToMap(a) == ToMap(b)
  {
    KeySetOfPermutation(a, b);
    forall k | k in ToMap(a) ensures ToMap(a)[k] == ToMap(b)[k] {
      var i := KeyIndex(a, k);
      ToMapDistinct(a, i);
      assert a[i] in multiset(b);
      var j :| 0 <= j < |b| && b[j] == a[i];
      ToMapDistinct(b, j);
    }
  }

  lemma {:induction false} InsertByKeyAscending<V>(e: (int, V), s: seq<(int, V)>)
    requires Ascending(s) && e.0 !in KeySet(s)
    ensures Ascending(InsertByKey(e, s))
    decreases |s|
  {
    if |s| > 0 {
      if e.0 > s[0].0 {
        var tail := s[1..];
        var rest := InsertByKey(e, tail);
        InsertByKeyAscending(e, tail);
        TailKeysAbove(s);
        forall k | k in KeySet(rest) ensures s[0].0 < k {
          var i := KeyIndex(rest, k);
          assert rest[i] in multiset(tail) + multiset{e};
          if rest[i] != e {
            assert rest[i] in multiset(tail);
            var j :| 0 <= j < |tail| && tail[j] == rest[i];
            KeyOfIndex(tail, j);
          }
        }
        ConsAscending(s[0], rest);
        assert InsertByKey(e, s) == [s[0]] + rest;
      } else {
        assert e.0 != s[0].0;
      }
    }
  }

  lemma PutDistinct<V>(m: seq<(int, V)>, k: int, v: V)
    requires DistinctKeys(m)
    ensures DistinctKeys(Put(m, k, v))
  {
    if k !in KeySet(m) {
      forall i | 0 <= i < |m| ensures m[i].0 != k {
        KeyOfIndex(m, i);
      }
    }
  }

  lemma {:induction false} DeleteAscending<V>(m: seq<(int, V)>, k: int)
    requires Ascending(m)
    ensures Ascending(Delete(m, k))
    decreases |m|
  {
    if |m| > 0 && m[0].0 != k {
      var rest := Delete(m[1..], k);
      DeleteAscending(m[1..], k);
      SubMultisetKeys(rest, m[1..]);
      TailKeysAbove(m);
      ConsAscending(m[0], rest);
      assert Delete(m, k) == [m[0]] + rest;
    }
  }

  /** Prefixing an entry whose key is below every key keeps a map
      ascending. */
  lemma ConsAscending<V>(e: (int, V), s: seq<(int, V)>)
    requires Ascending(s)
    requires forall k :: k in KeySet(s) ==> e.0 < k
    ensures Ascending([e] + s)
  {
    var r := [e] + s;
    forall i, j | 0 <= i < j < |r| ensures r[i].0 < r[j].0 {
      assert r[j] == s[j - 1];
      if i > 0 {
        assert r[i] == s[i - 1];
      } else {
        KeyOfIndex(s, j - 1);
      }
    }
  }

  /** In an ascending map every key after the first is above it. */
  lemma TailKeysAbove<V>(m: seq<(int, V)>)
    requires Ascending(m) && |m| > 0
    ensures forall k :: k in KeySet(m[1..]) ==> m[0].0 < k
  {
    forall k | k in KeySet(m[1..]) ensures m[0].0 < k {
      var i := KeyIndex(m[1..], k);
      assert m[1..][i] == m[i + 1];
    }
  }

  lemma SubMultisetKeys<V>(a: seq<(int, V)>, b: seq<(int, V)>)
    requires multiset(a) <= multiset(b)
    ensures KeySet(a) <= KeySet(b)
  {
    forall k | k in KeySet(a) ensures k in KeySet(b) {
      var i := KeyIndex(a, k);
      assert a[i] in multiset(b);
      var j :| 0 <= j < |b| && b[j] == a[i];
      KeyOfIndex(b, j);
    }
  }

  /** On a map with distinct keys, `delete(k)` removes exactly key `k`. */
  lemma {:induction false} DeleteToMap<V>(m: seq<(int, V)>, k: int)
    requires DistinctKeys(m)
    ensures ToMap(Delete(m, k)) == ToMap(m) - {k}
    decreases |m|
  {
    if |m| > 0 {
      if m[0].0 == k {
        DistinctHeadNotInTail(m);
      } else {
        DeleteToMap(m[1..], k);
        var rest := Delete(m[1..], k);
        var r := [m[0]] + rest;
        assert r[1..] == rest;
        assert Delete(m, k) == r;
        assert ToMap(r) == ToMap(rest)[m[0].0 := m[0].1];
        assert ToMap(m) == ToMap(m[1..])[m[0].0 := m[0].1];
        UpdateRemove(ToMap(m[1..]), m[0].0, m[0].1, k);
      }
    }
  }

  lemma UpdateRemove<V>(M: map<int, V>, a: int, b: V, k: int)
    requires a != k
    ensures (M - {k})[a := b] == M[a := b] - {k}
  {
  }

  /** Two key-ascending maps denoting the same mapping are the same
      sequence of entries. */
  lemma {:induction false} AscendingUnique<V>(a: seq<(int, V)>, b: seq<(int, V)>)
    requires Ascending(a) && Ascending(b)
    requires ToMap(a) == ToMap(b)
    ensures a == b
    decreases |a|
  {
    if |a| == 0 || |b| == 0 {
      if |a| > 0 {
        KeyOfIndex(a, 0);
      }
      if |b| > 0 {
        KeyOfIndex(b, 0);
      }
    } else {
      // both heads are the smallest key of the common key set
      AscendingHeadMin(a);
      AscendingHeadMin(b);
      KeyOfIndex(a, 0);
      KeyOfIndex(b, 0);
      assert a[0].0 == b[0].0;
      AscendingDistinct(a);
      AscendingDistinct(b);
      DistinctHeadNotInTail(a);
      DistinctHeadNotInTail(b);
      assert ToMap(a[1..]) == ToMap(a) - {a[0].0};
      assert ToMap(b[1..]) == ToMap(b) - {b[0].0};
      AscendingUnique(a[1..], b[1..]);
      assert a == [a[0]] + a[1..];
      assert b == [b[0]] + b[1..];
    }
  }

  /** The first key of an ascending map is its smallest. */
  lemma AscendingHeadMin<V>(m: seq<(int, V)>)
    requires Ascending(m) && |m| > 0
    ensures forall k :: k in KeySet(m) ==> m[0].0 <= k
  {
    forall k | k in KeySet(m) ensures m[0].0 <= k {
      var i := KeyIndex(m, k);
    }
  }

  /** The loop of `getBracketingLocs`, resumed from the current `(left,
      right)`: a key below `loc` becomes `left`, a key above `loc` and below
      the current `right` becomes `right`. */
  function BracketScan<V>(m: seq<(int, V)>, loc: int, left: int, right: int): (r: (int, int))
    ensures r.1 <= right
    ensures r.1 == right || (r.1 in KeySet(m) && loc < r.1)
    ensures forall i :: 0 <= i < |m| && loc < m[i].0 < right ==> r.1 <= m[i].0
    ensures r.0 == left || (r.0 in KeySet(m) && r.0 < loc)
    decreases |m|
  {
    if |m| == 0 then (left, right)
    else
      var key := m[0].0;
      var r :=
        if key < loc then BracketScan(m[1..], loc, key, right)
        else if key > loc && key < right then BracketScan(m[1..], loc, left, key)
        else BracketScan(m[1..], loc, left, right);
      assert forall i :: 1 <= i < |m| ==> m[i] == m[1..][i - 1];
      r
  }

  /** `getBracketingLocs(iLoc)` over the keys of `m`, with `last` the
      largest admissible location (`size-1` or `ydim-1`). Strictly inside
      `(0, last)` the two locations enclose `loc` strictly. */
  function Bracket<V>(m: seq<(int, V)>, loc: int, last: int): (r: (int, int))
    ensures 0 < loc < last ==> r.0 < loc < r.1
  {
    BracketScan(m, loc, 0, last)
  }

  lemma {:induction false} BracketScanLeftAscending<V>(m: seq<(int, V)>, loc: int, left: int, right: int)
    requires Ascending(m)
    requires |m| > 0 && m[0].0 < loc
    ensures var l := BracketScan(m, loc, left, right).0;
      l in KeySet(m) && l < loc && forall i :: 0 <= i < |m| && m[i].0 < loc ==> m[i].0 <= l
    decreases |m|
  {
    var key := m[0].0;
    var tail := m[1..];
    if |tail| > 0 && tail[0].0 < loc {
      BracketScanLeftAscending(tail, loc, key, right);
    } else {
      forall k | k in KeySet(tail) ensures loc <= k {
        var i := KeyIndex(tail, k);
        assert tail[i] == m[i + 1];
      }
      KeyOfIndex(m, 0);
      assert BracketScan(m, loc, left, right) == BracketScan(tail, loc, key, right);
    }
  }

  /** `lr` is the pair of neighbours of `loc` among `keys`, the key set of a
      map holding `0` and `last` as its extreme keys: the largest key below
      `loc` (`0` when `loc <= 0`) and the smallest key above `loc` (`last`
      when `loc >= last`). */
  predicate IsBracket(keys: set<int>, loc: int, last: int, lr: (int, int)) {
    && (loc <= 0 ==> lr.0 == 0)
    && (0 < loc ==> lr.0 in keys && lr.0 < loc && forall k :: k in keys && k < loc ==> k <= lr.0)
    && (last <= loc ==> lr.1 == last)
    && (loc < last ==> lr.1 in keys && loc < lr.1 && forall k :: k in keys && loc < k ==> lr.1 <= k)
  }

  /** On an ascending map spanning `[0, last]`, `getBracketingLocs` finds
      the neighbours of `loc`. */
  lemma BracketKeys<V>(m: seq<(int, V)>, loc: int, last: int)
    requires Ascending(m) && 0 in KeySet(m) && last in KeySet(m)
    requires forall k :: k in KeySet(m) ==> 0 <= k <= last
    ensures IsBracket(KeySet(m), loc, last, Bracket(m, loc, last))
  {
    var r := Bracket(m, loc, last);
    AscendingHeadMin(m);
    KeyOfIndex(m, 0);
    assert m[0].0 == 0;
    if 0 < loc {
      BracketScanLeftAscending(m, loc, 0, last);
      forall k | k in KeySet(m) && k < loc ensures k <= r.0 {
        var i := KeyIndex(m, k);
      }
    }
    forall k | k in KeySet(m) && loc < k ensures r.1 <= k {
      var i := KeyIndex(m, k);
    }
  }

  /** The neighbours of a location are determined by the key set alone. */
  lemma BracketUnique(keys: set<int>, loc: int, last: int, a: (int, int), b: (int, int))
    requires IsBracket(keys, loc, last, a) && IsBracket(keys, loc, last, b)
    ensures a == b
  {
  }

  /** Deleting a key of an ascending map and inserting it back with its
      value, sorting, restores the map. */
  lemma DeleteThenInsert<V>(m: seq<(int, V)>, k: int)
    requires Ascending(m) && k in KeySet(m)
    ensures Insert(Delete(m, k), k, ToMap(m)[k], true) == m
  {
    AscendingDistinct(m);
    var d := Delete(m, k);
    DeleteToMap(m, k);
    DeleteAscending(m, k);
    AscendingDistinct(d);
    var r := Insert(d, k, ToMap(m)[k], true);
    RemoveThenRestore(ToMap(m), k);
    AscendingUnique(r, m);
  }

  lemma RemoveThenRestore<V>(M: map<int, V>, k: int)
    requires k in M
    ensures (M - {k})[k := M[k]] == M
  {
  }
}

=== FILE: slice_names.dfy ===
/** The input slice names of the cropper: the directory entries whose name
    contains `.tif`, in Python's ascending string order, or in descending
    order when the reverse-sort box is ticked (src/cropper/cropper.py). */
module SliceNames {

  /** Python's `<` on strings: code-point lexicographic order, where a
      proper prefix comes first. */
  predicate Less(a: string, b: string)
    decreases |a|
  {
    |b| > 0 && (|a| == 0 || a[0] < b[0] || (a[0] == b[0] && Less(a[1..], b[1..])))
  }

  predicate LessEq(a: string, b: string) {
    a == b || Less(a, b)
  }

  lemma {:induction false} LessIrreflexive(a: string)
    ensures !Less(a, a)
    decreases |a|
  {
    if |a| > 0 {
      LessIrreflexive(a[1..]);
    }
  }

  lemma {:induction false} LessAsymmetric(a: string, b: string)
    requires Less(a, b)
    ensures !Less(b, a)
    decreases |a|
  {
    if |a| > 0 && a[0] == b[0] {
      LessAsymmetric(a[1..], b[1..]);
    }
  }

  lemma {:induction false} LessTransitive(a: string, b: string, c: string)
    requires Less(a, b) && Less(b, c)
    ensures Less(a, c)
    decreases |a|
  {
    if |a| > 0 && a[0] == b[0] && b[0] == c[0] {
      LessTransitive(a[1..], b[1..], c[1..]);
    }
  }

  lemma {:induction false} LessTotal(a: string, b: string)
    requires a != b
    ensures Less(a, b) || Less(b, a)
    decreases |a|
  {
    if |a| > 0 && |b| > 0 && a[0] == b[0] {
      assert a == [a[0]] + a[1..] && b == [b[0]] + b[1..];
      LessTotal(a[1..], b[1..]);
    }
  }

  lemma LessEqTransitive(a: string, b: string, c: string)
    requires LessEq(a, b) && LessEq(b, c)
    ensures LessEq(a, c)
  {
    if a != b && b != c {
      LessTransitive(a, b, c);
    }
  }

  /** `sub in s`: `sub` occurs in `s` as a contiguous piece. */
  predicate Contains(s: string, sub: string)
    decreases |s|
  {
    |sub| <= |s| && (s[..|sub|] == sub || Contains(s[1..], sub))
  }

  const TifMark: string := ".tif"

  /** `[fname for fname in entries if '.tif' in fname]`: the entries whose
      name contains `.tif` anywhere, in listing order. */
  function TifEntries(entries: seq<string>): (r: seq<string>)
    ensures |r| <= |entries|
    ensures forall n :: n in r <==> n in entries && Contains(n, TifMark)
    ensures multiset(r) <= multiset(entries)
  {
    if |entries| == 0 then []
    else
      assert entries == [entries[0]] + entries[1..];
      (if Contains(entries[0], TifMark) then [entries[0]] else []) + TifEntries(entries[1..])
  }

  predicate Ascending(s: seq<string>) {
    forall i, j :: 0 <= i < j < |s| ==> LessEq(s[i], s[j])
  }

  predicate Descending(s: seq<string>) {
    forall i, j :: 0 <= i < j < |s| ==> LessEq(s[j], s[i])
  }

  /** Places `x` in front of the first element it precedes. */
  function InsertSorted(x: string, s: seq<string>): (r: seq<string>)
    requires Ascending(s)
    ensures multiset(r) == multiset(s) + multiset{x}
    ensures Ascending(r)
    decreases |s|
  {
    if |s| == 0 then [x]
    else if LessEq(x, s[0]) then
      assert forall j :: 0 <= j < |s| ==> LessEq(x, s[j]) by {
        forall j | 0 <= j < |s| ensures LessEq(x, s[j]) {
          LessEqTransitive(x, s[0], s[j]);
        }
      }
      [x] + s
    else
      var rest := InsertSorted(x, s[1..]);
      assert s == [s[0]] + s[1..];
      LessTotal(x, s[0]);
      assert forall j :: 0 <= j < |rest| ==> LessEq(s[0], rest[j]) by {
        forall j | 0 <= j < |rest| ensures LessEq(s[0], rest[j]) {
          assert rest[j] in multiset(rest);
          assert rest[j] == x || rest[j] in multiset(s[1..]);
          if rest[j] != x {
            var k :| 0 <= k < |s[1..]| && s[1..][k] == rest[j];
            assert s[k + 1] == rest[j];
          }
        }
      }
      [s[0]] + rest
  }

  /** `sorted(names)`: the same names in ascending order. */
  function Sort(names: seq<string>): (r: seq<string>)
    ensures multiset(r) == multiset(names)
    ensures Ascending(r)
    decreases |names|
  {
    if |names| == 0 then []
    else
      assert names == [names[0]] + names[1..];
      InsertSorted(names[0], Sort(names[1..]))
  }

  function Reverse(s: seq<string>): (r: seq<string>)
    ensures |r| == |s| && forall i :: 0 <= i < |s| ==> r[i] == s[|s| - 1 - i]
    ensures multiset(r) == multiset(s)
    decreases |s|
  {
    if |s| == 0 then []
    else
      assert s == s[..|s| - 1] + [s[|s| - 1]];
      [s[|s| - 1]] + Reverse(s[..|s| - 1])
  }

  /** `names.sort(reverse=True)`: the same names in descending order. Equal
      strings are indistinguishable, so this is the ascending sort read
      backwards. */
  function SortDescending(names: seq<string>): (r: seq<string>)
    ensures multiset(r) == multiset(names)
    ensures Descending(r)
  {
    Reverse(Sort(names))
  }

  /** The listing step of `process_input_dir`: the `.tif` entries, sorted
      ascending. */
  function InputNames(entries: seq<string>): (r: seq<string>)
    ensures Ascending(r)
    ensures multiset(r) == multiset(TifEntries(entries))
    ensures forall n :: n in r <==> n in entries && Contains(n, TifMark)
  {
    var r := Sort(TifEntries(entries));
    assert forall n :: n in r <==> n in multiset(r);
    r
  }

  /** The first element of an ascending sequence precedes every name it
      holds. */
  lemma AscendingHeadLeast(s: seq<string>, x: string)
    requires Ascending(s) && |s| > 0 && x in multiset(s)
    ensures LessEq(s[0], x)
  {
    var k :| 0 <= k < |s| && s[k] == x;
  }

  /** There is only one ascending arrangement of a collection of names. */
  lemma {:induction false} AscendingUnique(a: seq<string>, b: seq<string>)
    requires Ascending(a) && Ascending(b) && multiset(a) == multiset(b)
    ensures a == b
    decreases |a|
  {
    if |a| > 0 {
      assert |b| > 0 by {
        assert a[0] in multiset(b);
      }
      AscendingHeadsEqual(a, b);
      TailsSameNames(a, b);
      AscendingUnique(a[1..], b[1..]);
      assert a == [a[0]] + a[1..] && b == [b[0]] + b[1..];
    } else {
      assert |multiset(b)| == 0;
    }
  }

  /** Two ascending arrangements of the same names start alike. */
  lemma AscendingHeadsEqual(a: seq<string>, b: seq<string>)
    requires Ascending(a) && Ascending(b) && multiset(a) == multiset(b) && |a| > 0 && |b| > 0
    ensures a[0] == b[0]
  {
    assert a[0] in multiset(b) && b[0] in multiset(a);
    AscendingHeadLeast(a, b[0]);
    AscendingHeadLeast(b, a[0]);
    if a[0] != b[0] {
      LessAsymmetric(a[0], b[0]);
    }
  }

  /** Dropping a shared first name leaves the same names behind, still in
      ascending order. */
  lemma TailsSameNames(a: seq<string>, b: seq<string>)
    requires Ascending(a) && Ascending(b) && multiset(a) == multiset(b) && |a| > 0 && |b| > 0 && a[0] == b[0]
    ensures multiset(a[1..]) == multiset(b[1..]) && Ascending(a[1..]) && Ascending(b[1..])
  {
    assert a == [a[0]] + a[1..] && b == [b[0]] + b[1..];
    assert multiset(a[1..]) == multiset(a) - multiset{a[0]};
    assert multiset(b[1..]) == multiset(b) - multiset{b[0]};
  }

  /** Sorting depends only on which names there are: any two orderings of
      the same names sort alike, and sorted input is left as it is. */
  lemma SortCanonical(a: seq<string>, b: seq<string>)
    requires multiset(a) == multiset(b)
    ensures Sort(a) == Sort(b)
  {
    AscendingUnique(Sort(a), Sort(b));
  }

  lemma SortKeepsAscending(s: seq<string>)
    requires Ascending(s)
    ensures Sort(s) == s
  {
    AscendingUnique(Sort(s), s);
  }

  /** Reversing twice restores the order. */
  lemma ReverseReverse(s: seq<string>)
    ensures Reverse(Reverse(s)) == s
  {
  }

  /** The descending sort is the ascending one read backwards, whatever
      order the names were in before. */
  lemma SortDescendingOfAnyOrder(a: seq<string>, b: seq<string>)
    requires multiset(a) == multiset(b)
    ensures SortDescending(a) == Reverse(Sort(b))
  {
    SortCanonical(a, b);
  }
}

=== FILE: tiff_tags.dfy ===
/** The private TIFF tags that connect the cropper to the viewer: the
    cropper writes them on every output slice (src/cropper/cropper.py) and
    the viewer's TIFF loader is told which field each one fills
    (src/viewer/ControlPanel.js). */
module TiffTags {

  const AreaTag: int := 65000
  const CropIdTag: int := 65001
  const SegIdTag: int := 65002

  /** `extratags` of `process_next_slice`: the output area text, the output
      directory (whose last component is the crop id) and the segment name, as string tags. */
  function ExtraTags(outputArea: string, outImgDir: string, segName: string): seq<(int, string)> {
    [(AreaTag, outputArea), (CropIdTag, outImgDir), (SegIdTag, segName)]
  }

  /** The tag list handed to `TiffLoader3D`: tag number and field name. */
  function LoaderTags(): seq<(int, string)> {
    [(AreaTag, "area_txt"), (CropIdTag, "crop_id"), (SegIdTag, "seg_id")]
  }

  /** The value of `tag` among the written tags, if any (first wins). The
      loader itself (`TiffLoader3D`) is an external library that is not part
      of this model; this is an assumed model of how it reads a tag. */
  function Lookup(written: seq<(int, string)>, tag: int): (v: string)
    requires exists i :: 0 <= i < |written| && written[i].0 == tag
    ensures exists i :: 0 <= i < |written| && written[i] == (tag, v)
    decreases |written|
  {
    if written[0].0 == tag then written[0].1
    else
      assert exists i :: 1 <= i < |written| && written[i].0 == tag;
      var v := Lookup(written[1..], tag);
      assert exists i :: 1 <= i < |written| && written[i] == (tag, v) by {
        var j :| 0 <= j < |written[1..]| && written[1..][j] == (tag, v);
        assert written[j + 1] == (tag, v);
      }
      v
  }

  /** The fields a loader with tag list `wanted` fills from an image
      carrying `written`: each wanted tag present in the image sets its
      field. An assumed model of the external loader, as for `Lookup`. */
  function ReadFields(written: seq<(int, string)>, wanted: seq<(int, string)>): (fields: map<string, string>)
    ensures forall f :: f in fields ==> exists i :: 0 <= i < |wanted| && wanted[i].1 == f
    decreases |wanted|
  {
    if |wanted| == 0 then map[]
    else
      var rest := ReadFields(written, wanted[1..]);
      assert forall f :: f in rest ==> exists i :: 0 <= i < |wanted| && wanted[i].1 == f by {
        forall f | f in rest ensures exists i :: 0 <= i < |wanted| && wanted[i].1 == f {
          var j :| 0 <= j < |wanted[1..]| && wanted[1..][j].1 == f;
          assert wanted[j + 1].1 == f;
        }
      }
      if exists i :: 0 <= i < |written| && written[i].0 == wanted[0].0 then
        rest[wanted[0].1 := Lookup(written, wanted[0].0)]
      else rest
  }

  /** What the cropper writes is what the viewer reads back: the area text
      lands in `area_txt`, the output directory in `crop_id` and the
      segment name in `seg_id`. */
  lemma ReadBackWritten(outputArea: string, outImgDir: string, segName: string)
    ensures ReadFields(ExtraTags(outputArea, outImgDir, segName), LoaderTags())
         == map["area_txt" := outputArea, "crop_id" := outImgDir, "seg_id" := segName]
  {
    var w := ExtraTags(outputArea, outImgDir, segName);
    var l := LoaderTags();
    assert l[1..][1..][1..] == [];
    assert w[0].0 == AreaTag && w[1].0 == CropIdTag && w[2].0 == SegIdTag;
    assert Lookup(w, AreaTag) == outputArea;
    assert Lookup(w, CropIdTag) == outImgDir by {
      assert w[1..][0] == w[1];
    }
    assert Lookup(w, SegIdTag) == segName by {
      assert w[1..][1..][0] == w[2];
    }
  }
}
